=== FILE: README.md ===
# Stock-room (almoxarifado) core in Dafny

This project models the core of a stock-room management system. Staff keep an inventory
of items. Each item is identified by its normalized name, category, expiry day and brand.
Sectors ask for withdrawals, which go through the states pending, authorised, completed
and denied; completing one takes the stock. A daily job raises expiry and low-stock
alerts. Connected browsers are notified over WebSockets.

The model covers:

- the item identity and merge rules: the name normalizer, the exact-match finder, the
  create/update validator, item creation and update with merging, and the spreadsheet
  bulk import;
- the withdrawal life cycle: the request, the status change that takes the stock, the
  repository's queries and soft delete;
- the alert scans and the alert repository;
- the notification connection registry;
- the user service's validations;
- the user-creation cooldown;
- the `.env` configuration loader;
- the front end's table and pagination rendering, the withdrawal request form, the name
  lookup of listings, and the shared front-end state.

The database is a value of `Domain.Db`. Each table is a sequence of rows in storage
order, and one id counter is never rewound. A transaction is a `Domain.Session`: the
committed database plus the uncommitted work, with commit and rollback. Instants are
integers in microseconds. Notifications pushed to clients are returned as a sequence of
`Push` values. Every service operation is a pure function from the database (and its
inputs, the clock included) to the new database and a `Result` carrying the HTTP error
(`Errors.Reason`) on failure.

Modules follow the program's layout: `Domain`, `Errors`, `Paging`, `Text`, `Seqs`,
`Sorting` and `Wrappers` are shared; each other module is one source file of the system.

## Model

| member | source | states |
|---|---|---|
| Domain.StatusOf | services/retirada_service.py:97-98 | a status code is accepted exactly when it is 1 to 4, and the status found carries that code |
| Domain.StatusCodeRoundTrip | services/retirada_service.py:97-98 | every status read back from its code is itself |
| Paging.CheckPage | services/item_service.py:180-189 | a listing request passes exactly when the size is one of 5, 10, 25, 50, 100 and the page is at least 1; the size error is reported before the page error |
| Paging.Window | repositories/item_repository.py:80-96 | OFFSET/LIMIT yields at most `limit` rows, each the row `offset` places further on, and nothing past the end |
| Paging.CeilPagesBounds | services/retirada_service.py:21 | the withdrawal page count covers every row, its last page is non-empty, and it is 0 only for no rows |
| Paging.AlertPagesBounds | services/alerta_service.py:101-102 | the alert page count is the least number of pages of the size holding every matching row, and 1 when none matches |
| Paging.DivModPagesIsCeil | services/item_service.py:194 | the item listing's page count equals the withdrawal listing's ceiling formula |
| Paging.RowIsOnItsPage | services/alerta_service.py:101-102 | the row at rank k lies on page k div size + 1, at that page's offset, within the page count |
| Normalize.NormalizedChars | utils/normalizar_texto.py:4-14 | in this model, whose decomposition table covers Portuguese letters, ordinals and superscripts, a normalized name holds only ASCII digits and capital letters |
| Normalize.NormalizedLength | utils/normalizar_texto.py:10-14 | in this model each input character yields at most one output character |
| Normalize.NormalizeIdempotent | utils/normalizar_texto.py:4-14 | normalizing a normalized name changes nothing |
| Normalize.FixedPointIffUpperAlnum | utils/normalizar_texto.py:4-14 | a name is its own normal form exactly when it is made of ASCII digits and capitals |
| Normalize.CedillaIsDropped | utils/normalizar_texto.py:10-11 | a precomposed ç is decomposed before the filter, so it normalizes like c although the filter names ç |
| Normalize.AccentsAreDropped | utils/normalizar_texto.py:10-14 | accents, spaces and punctuation vanish and letters are capitalized (`ã o!` gives `AO`) |
| Normalize.OrdinalIsALetter | utils/normalizar_texto.py:10-14 | the ordinal indicator º decomposes to o, so `Nº` normalizes like `No` |
| Finder.MatchesIffSameKey | services/finder.py:11-32 | the clause-by-clause WHERE test is equality of the identity key: an absent expiry or brand matches only an absent one |
| Finder.FindExactMatch | services/finder.py:11-32 | the answer is the first stored row carrying the identity, or none when no row does |
| Finder.NoMatchMeansNoSuchKey | services/finder.py:11-32 | no answer means no stored item carries that identity key |
| Finder.FindsFirstMatch | services/finder.py:11-32 | any row carrying the identity with no such row before it is the one found |
| Finder.EmptyBrandIsNotNoBrand | services/finder.py:26-29 | an empty brand and no brand are different identities |
| ItemValidator.ValidateOnCreate | services/validator.py:9-27 | creation is refused exactly when some required field fails, with one 400 listing every failing field in the fixed order |
| ItemValidator.MissingFieldList | services/validator.py:12-21 | the listed fields are exactly the failing ones, each once, in the order of the checks |
| ItemValidator.PassingCreateIsComplete | services/validator.py:12-21 | a request that passes carries a non-blank name, description and unit, a category and a positive quantity |
| ItemValidator.ValidateOnUpdate | services/validator.py:30-43 | an update is refused exactly when it sends a quantity of 0 or less, or a blank name; a null passes |
| ItemValidator.UpdateIgnoresOtherFields | services/validator.py:30-43 | two updates that send the same quantity and name get the same verdict |
| ItemRepository.ExpiringBefore | repositories/item_repository.py:125-129 | an item is returned exactly when it has an expiry on or before the date |
| ItemRepository.FindLowStock | repositories/item_repository.py:132-136 | exactly the items at or below a stored minimum |
| ItemRepository.Searched | repositories/item_repository.py:43-61 | the search's listing: as many rows as the filtered count, and an item is listed exactly when it matches the category list and the name |
| ItemRepository.FilteredPage | repositories/item_repository.py:43-61 | OFFSET/LIMIT over the listing: empty past the count, otherwise min(limit, count - offset) rows, the k-th being the listing's row offset + k |
| ItemRepository.EverySearchedItemIsOnItsPage | repositories/item_repository.py:43-77 | every listed item is on page k/size+1, within the page count, at position k mod size |
| ItemRepository.CountMatchesRows | repositories/item_repository.py:64-77 | the filtered count is the number of rows the paginated query pages through |
| ItemRepository.NoFilterIsEverything | repositories/item_repository.py:43-61 | with no category list and no name the search is the whole table |
| ItemRepository.ItemsPeriod | repositories/item_repository.py:104-122 | one row per item entered within the period, both ends included, whose category exists; every row is such an item with its category's name, and every such item has its row |
| ItemRepository.PeriodIsInclusive | repositories/item_repository.py:117-118 | an item entered exactly on a bound is reported |
| ItemRepository.PeriodWidens | repositories/item_repository.py:117-118 | a period containing another reports every row the smaller one reports |
| ItemService.Incremented | services/item_service.py:75-98 | the merged item keeps its identity and gains the quantity; expiry, minimum and brand change only when given (0 and "" ignored) |
| ItemService.CreateItem | services/item_service.py:24-72 | validation first; a matching item is replaced by its increment at the same position, otherwise the new item with the next id, the request's fields and no exit date is inserted; a missing category is a 400 and leaves the database unchanged; the stock grows by the quantity |
| ItemService.CreateTwiceAddsOneRow | services/item_service.py:46-61 | the same request twice adds one row, and the second call increments it |
| ItemService.UpdateItem | services/item_service.py:129-177 | 404 for an unknown id; an update to another item's identity merges into it: the target becomes the merged item and the edited row is removed, or a 500 when a withdrawal line or alert refers to the edited item; otherwise the row is patched in place, or a 500 when the update clears a required column or names a missing category |
| ItemService.MergeMovesStock | services/item_service.py:158-169 | a merge neither creates nor loses stock: the target gains exactly what the removed item held |
| ItemService.EmptyUpdateOnlyStampsUser | services/item_service.py:172-177 | an update sending nothing changes only the audit user and never merges |
| ItemService.AllItems | services/item_service.py:101-107 | every item, or 404 for an empty table |
| ItemService.ItemById | services/item_service.py:110-116 | the item with the id, or 404 |
| ItemService.DeleteItem | services/item_service.py:119-126 | 404 for an unknown id; an item a withdrawal line or alert refers to stays, with a 500; otherwise the first row with the id is cut out and the rest keep their order |
| ItemService.DeleteKeepsOtherItems | services/item_service.py:119-126 | under the primary key, a deletion removes exactly the item with the id and keeps every other item |
| ItemService.ItemsPage | services/item_service.py:179-198 | a valid request returns the window at offset (page-1)*size and the page count covering the table |
| ItemService.SearchItems | services/item_service.py:201-232 | a product name filters on its normalized form; a category name ends in a server error; the page checks come first; a result echoes the page and size and holds the filtered window at offset (page-1)*size |
| ItemService.EverySearchedItemIsPaged | services/item_service.py:201-232 | with an allowed size, the k-th matching item is on page k/size+1, within the page count, at position k mod size |
| BulkImport.NormalizeColumns | services/bulk_processor.py:82-92 | every header stripped and lower-cased, the count kept |
| BulkImport.FirstMissing | services/bulk_processor.py:82-92 | the first required column the header lacks, or none when all are present |
| BulkImport.PrePass | services/bulk_processor.py:94-132 | each name the file mentions maps to a category of the session, the new ones created once each in first-seen order |
| BulkImport.PrePassIdsExist | services/bulk_processor.py:94-132 | every id in the category map is a category of the session |
| BulkImport.PrePassCreatesFirstSpellings | services/bulk_processor.py:115-132 | a created category is new and keeps the first raw spelling of its name |
| BulkImport.ParseRow | services/bulk_processor.py:134-180 | checks in source order, the first failing one naming the error: blank product, unreadable quantity, quantity not positive, blank unit, the expiry cell's error, unknown category; accepted exactly when all pass, with the cells' values and a positive quantity |
| BulkImport.TextCategoryIsCollected | services/bulk_processor.py:101-104 | a text cell in the category column always finds its category in the map |
| BulkImport.ApplyRow | services/bulk_processor.py:183-218 | a matching item is restocked, otherwise a new item is inserted |
| BulkImport.RestockKeepsOtherRows | services/bulk_processor.py:189-200 | restocking changes the first match and no other row |
| BulkImport.ProcessRowShape | services/bulk_processor.py:134-218 | a row adds one item or changes one, and touches nothing but items and the id counter |
| BulkImport.Prepare | services/bulk_processor.py:31-44 | a bad content type, then the first required column the header lacks, are refused; otherwise the session's committed state is the database, its work adds the pre-pass categories after the existing ones, and every row's text category is in the map |
| BulkImport.RunAsWritten | services/bulk_processor.py:46-60 | every row counted once with ascending error lines; the work is the starting work plus items when no row failed, otherwise the committed database plus items |
| BulkImport.LoopAsWrittenTouchesOnlyItems | services/bulk_processor.py:52-63 | with steps that touch only the items and the id counter, the loop ends on its starting work when no row failed, and on the committed database plus new items after a failure |
| BulkImport.ProcessAsWritten | services/bulk_processor.py:31-70 | a bad content type, and then the first required column the header lacks, are the only errors; a report counts every row once with ascending error lines; users, withdrawals, alerts and sectors are unchanged; with no failing row every created item and pre-pass category is committed, while after a failing row the committed categories are the old ones |
| BulkImport.RollbackLosesCountedRow | services/bulk_processor.py:52-60 | a failing row after a creating row rolls the created item back, yet the report counts it |
| BulkImport.Process | services/bulk_processor.py:31-70 | with a savepoint per row: the same two errors, a report of the same shape, every counted created row committed, the pre-pass categories kept, and the other tables unchanged |
| BulkImport.SavepointKeepsCountedRow | services/bulk_processor.py:52-63 | the same two rows leave the created item in the committed table |
| WithdrawalRepository.ActiveSorted | repositories/retirada_repository.py:171-183 | exactly the active rows that satisfy the query, newest request first |
| WithdrawalRepository.CountIsListLength | repositories/retirada_repository.py:17-38 | each count equals the number of rows its paginated query pages through |
| WithdrawalRepository.ActivePage | repositories/retirada_repository.py:23-38 | OFFSET/LIMIT over the active rows after ordering them: empty past the count, otherwise min(limit, count - offset) rows, the k-th being the listing's row offset + k |
| WithdrawalRepository.FindActive | repositories/retirada_repository.py:157-168 | the first row with the id that is active, or none |
| WithdrawalRepository.DeletedIsNotFound | repositories/retirada_repository.py:157-168 | a soft-deleted withdrawal is not found by id |
| WithdrawalRepository.FilterCount | repositories/retirada_repository.py:68-94 | the number of rows of the filtered listing: the active rows meeting every given condition |
| WithdrawalRepository.FilterPage | repositories/retirada_repository.py:97-140 | empty past the filtered count, otherwise min(limit, count - offset) rows, the k-th being the filtered listing's row offset + k; each active and meeting every given condition, newest first |
| WithdrawalRepository.OneBoundIsNoBound | repositories/retirada_repository.py:84-89 | a period with only one bound applies no date condition |
| WithdrawalRepository.EmptyRequesterIsNoFilter | repositories/retirada_repository.py:75-83 | an empty requester text applies no requester condition |
| WithdrawalRepository.NoParamsCountsEverything | repositories/retirada_repository.py:68-94 | with no parameter the filter counts every active withdrawal |
| WithdrawalRepository.SoftDeleteByPeriod | repositories/retirada_repository.py:286-302 | exactly the active rows of the period become inactive; the count reported is theirs |
| WithdrawalRepository.SoftDeleteTwiceCountsZero | repositories/retirada_repository.py:286-302 | a second deletion of the same period changes nothing and reports 0 |
| WithdrawalRepository.SoftDeleteCountsChangedRows | repositories/retirada_repository.py:286-302 | the count reported is the number of rows that went from active to inactive |
| WithdrawalRepository.SetQuantity | repositories/retirada_repository.py:251-255 | only the quantity of the one item changes |
| WithdrawalService.RequestWithdrawal | services/retirada_service.py:44-91 | a new pending, active withdrawal with one line per requested item, committed and announced; a failed insert rolls back with 500 |
| WithdrawalService.RequestIsFoundPending | services/retirada_service.py:44-91 | a new request is found by its id and is listed among the pending ones |
| WithdrawalService.Decremented | services/retirada_service.py:114-120 | the item loses the quantity and is deactivated exactly when it reaches 0 |
| WithdrawalService.TakeStock | services/retirada_service.py:114-120 | the repository's quantity write followed by the deactivation at 0 leaves exactly the decremented item at the line's position |
| WithdrawalService.FirstLineError | services/retirada_service.py:105-122 | the error a line raises when it is processed first: short stock names the item's original name, its stock and the quantity asked |
| WithdrawalService.CompleteTakesRequested | services/retirada_service.py:105-122 | when the loop completes every item has lost exactly what the lines request of it and no stock went negative |
| WithdrawalService.UpdateStatus | services/retirada_service.py:93-150 | the status change with alerts committed only at the end: bad code 400, unknown 404, the first line's unknown item or short stock reported with its quantities, any failure leaving the database unchanged; a success records the decision and the status on that withdrawal only, changes no user, sector or category, and notifies the requester last; a status other than completed touches nothing else and sends one notification |
| WithdrawalService.UpdateStatusAsWritten | services/retirada_service.py:93-150 | the status change as written, where each alert the loop creates commits the session |
| WithdrawalService.SuccessIsTheSameEitherWay | services/retirada_service.py:105-126 | on success both commit points give the same database and notifications |
| WithdrawalService.CompletionTakesStock | services/retirada_service.py:105-126 | a successful completion takes the lines' quantities and changes no user, sector or category |
| WithdrawalService.CompletingTwiceTakesTwice | services/retirada_service.py:93-126 | the current status is never checked, so completing twice takes the stock twice |
| WithdrawalService.EarlyCommitKeepsDecrement | repositories/alerta_repository.py:33-42 | as written, a low-stock alert on the first line commits its decrement before the second line fails |
| WithdrawalService.AtomicFailureKeepsStock | services/retirada_service.py:142-150 | without the early commit the same failure leaves the stock untouched |
| WithdrawalService.Paginate | services/retirada_service.py:16-25 | the count, the page count (total+size-1) div size and the page's rows in order |
| WithdrawalService.EveryRowHasAPage | services/retirada_service.py:27-42 | every selected row appears on exactly the page its rank implies, within the page count |
| WithdrawalService.AllWithdrawalsAsWritten | services/retirada_service.py:164-173 | as written an empty table is reported as 500 |
| WithdrawalService.AllWithdrawals | services/retirada_service.py:164-173 | every active withdrawal, or 404 for none |
| WithdrawalService.EmptyTableIsServerError | services/retirada_service.py:164-173 | the same empty table gives 500 as written and 404 once corrected |
| WithdrawalService.WithdrawalById | services/retirada_service.py:175-181 | the active withdrawal with the id, or 404 |
| AlertRepository.BlocksIffIgnoredOrUnviewed | repositories/alerta_repository.py:14-30 | an alert blocks a new one of its kind and item exactly when it is flagged or unviewed |
| AlertRepository.AlertExists | repositories/alerta_repository.py:14-30 | true exactly when some stored alert blocks a new one for the kind and item |
| AlertRepository.CreateAlert | repositories/alerta_repository.py:33-42 | one new unviewed, unflagged alert with a fresh id; nothing else changes |
| AlertRepository.IgnoreAlert | repositories/alerta_repository.py:119-125 | the alert with the id is flagged and only it; none for an unknown id |
| AlertRepository.IgnoredBlocksAfterIgnore | repositories/alerta_repository.py:119-125 | once flagged an alert blocks new alerts of its kind and item |
| AlertRepository.MarkAllViewedKeepsIgnored | repositories/alerta_repository.py:135-142 | after marking all viewed exactly the flagged alerts still block |
| AlertRepository.NoneUnviewedAfterMarkAll | repositories/alerta_repository.py:129-142 | after marking all viewed the unviewed count is 0 |
| Text.ParseInt | repositories/alerta_repository.py:69-71 | accepted exactly for digits that single underscores may group, after an optional sign and inside whitespace; the value of plain digits is their decimal value |
| Text.UnderscoresGroupDigits | repositories/alerta_repository.py:69-71 | "1_0" reads as 10 and "-1_0" as -10 |
| Text.StrayUnderscoresAreRefused | repositories/alerta_repository.py:69-71 | a leading, trailing or doubled underscore raises |
| AlertRepository.GroupedSearchMatchesItemId | repositories/alerta_repository.py:69-74 | the search "1_0" matches every alert of item 10 |
| AlertRepository.CountUnviewed | repositories/alerta_repository.py:129-131 | the number of unviewed alerts, 0 exactly when every alert is viewed |
| AlertRepository.Listing | repositories/alerta_repository.py:56-109 | the matching alerts newest first: exactly the stored alerts that match, as many as the count query reports |
| AlertRepository.AlertsPage | repositories/alerta_repository.py:84-109 | empty past the count, otherwise min(limit, count - offset) alerts, the k-th being the listing's alert offset + k; all match and are newest first |
| AlertRepository.EveryMatchingAlertIsOnItsPage | repositories/alerta_repository.py:84-109 | the matching alert of rank k is on page k div size + 1, within the page count, at position k mod size |
| AlertRepository.DeleteAlert | repositories/alerta_repository.py:112-116 | the first alert with the id is cut out and the rest keep their order; an unknown id makes `db.delete(None)` raise, a 500 |
| AlertRepository.DeleteRemovesOnlyThatAlert | repositories/alerta_repository.py:112-116 | under the primary key, exactly the alert with the id is removed and every other alert is kept |
| AlertService.CreateMissingAnnounces | services/alerta_service.py:22-39 | each broadcast announces the alert created at the same position, with consecutive ids |
| AlertService.CreateMissingCreatesFor | services/alerta_service.py:22-39 | every created alert is a fresh alert of the kind about one of the candidates |
| AlertService.CreateMissingBlocksAll | services/alerta_service.py:22-39 | after the loop every candidate has a blocking alert |
| AlertService.CreateMissingIdle | services/alerta_service.py:22-39 | when every candidate is already blocked the loop does nothing |
| AlertService.ExpiryScan | services/alerta_service.py:22-39 | every item expiring within sixty days has an alert, each new alert is for such an item, the old alerts are kept, and nothing but the alerts and the id counter changes |
| AlertService.LowStockScan | services/alerta_service.py:50-71 | alerts for items strictly below their minimum; a truthy item id restricts the scan |
| AlertService.LowStockScanIsIdempotent | services/alerta_service.py:50-71 | a second low-stock scan creates and sends nothing |
| AlertService.ExpiryScanIsIdempotent | services/alerta_service.py:22-39 | a second expiry scan at the same instant creates and sends nothing |
| AlertService.AtMinimumIsListedButNotScanned | services/alerta_service.py:54 | an item at its minimum is listed as low stock but gets no alert |
| AlertService.ExpiryBlocksSurviveLowStockScan | services/alerta_service.py:16-19 | the low-stock scan keeps every expiry alert the first scan ensured |
| AlertService.DailyAlerts | services/alerta_service.py:16-19 | the expiry scan then the low-stock scan; only alerts and the counter change |
| AlertService.AllAlerts | services/alerta_service.py:42-47 | every alert, or 404 for none |
| AlertService.AlertById | services/alerta_service.py:74-78 | the alert with the id, or 404 |
| AlertService.Paginated | services/alerta_service.py:81-112 | size and page checked; then the page and size echoed, the total the count query gives, the least page count covering it (1 when nothing matches), and the listing's window at the page's offset |
| AlertService.EveryMatchingAlertIsPaged | services/alerta_service.py:81-112 | with any accepted size every matching alert is on the page its rank implies, within the page count |
| AlertService.MarkIgnore | services/alerta_service.py:115-119 | the alert is flagged, or 404 for an unknown id |
| AlertService.UnviewedCount | services/alerta_service.py:122-123 | the number of unviewed alerts, 0 exactly when every alert is viewed |
| AlertService.MarkAllAlertsViewed | services/alerta_service.py:126-127 | every alert is viewed afterwards |
| AlertService.Delete | services/alerta_service.py:130-135 | 404 exactly when no alert has the id; otherwise the first alert with it is cut out, the rest in order, nothing else changed |
| AlertService.DeleteKeepsOtherAlerts | services/alerta_service.py:130-135 | under the primary key the deletion keeps every other alert |
| Registry.Connect | utils/websocket_endpoints.py:15-24 | a truthy user id adds the connection at the end of that user's list; otherwise to the general list |
| Registry.Disconnect | utils/websocket_endpoints.py:27-41 | the connection's first occurrence is cut out of the user's list, or of the general list, the rest in order; a user left without connections is dropped; an absent connection changes nothing |
| Registry.SendLoopFilters | utils/websocket_endpoints.py:44-77 | sending over a copy of a list leaves exactly the connections whose send succeeded, in order |
| Registry.Broadcast | utils/websocket_endpoints.py:44-77 | failed connections go, users left with none are dropped, and no list is empty |
| Registry.SendToUser | utils/websocket_endpoints.py:80-99 | only that user's list is pruned; an unknown user leaves the registry unchanged |
| Registry.BroadcastIsIdempotent | utils/websocket_endpoints.py:44-77 | a second broadcast with the same failures changes nothing |
| Registry.ConnectThenDisconnect | utils/websocket_endpoints.py:15-41 | connecting then disconnecting a new connection gives back the registry |
| UserService.CheckUnique | services/usuario_service.py:133-147 | once every field it reads is declared: none is reported exactly when no given field is another user's; otherwise the first of username, e-mail, SIAPE that is |
| UserService.WithUsername | schemas/usuario.py:11-17 | the declared create request completed with a username, every declared field kept |
| UserService.CreateUserAsWritten | services/usuario_service.py:34-38 | as written every create raises on the undeclared username before any write: a 500 and an unchanged database |
| UserService.CreateUser | services/usuario_service.py:34-38 | with the username declared: the first taken field, then a bad type, then a missing sector is refused with nothing written; an e-mail or SIAPE another user has that the check skipped (empty, or 0) fails the unique column with a 500; otherwise exactly one user is appended with the next id, its name, e-mail, username and SIAPE, and the hashed password |
| UserService.NoUserIsCreatedAsWritten | services/usuario_service.py:134-140 | every request the completed service accepts fails as written and stores nothing |
| UserService.CreateFirstUserAsWritten | services/usuario_service.py:16-32 | as written 403 once any user exists, otherwise a 500 from the undefined root-sector call |
| UserService.CreateFirstUser | services/usuario_service.py:16-32 | completed: 403 once any user exists; otherwise the only user is a direction user in the root sector with the request's name, e-mail and username |
| UserService.FirstUserOnlyOnce | services/usuario_service.py:16-32 | as written no first user is created; completed the first call creates one and a second is refused with 403 |
| UserService.DeleteUser | services/usuario_service.py:56-71 | 404 for an unknown id, then 403 unless the caller is a direction user, then a 500 with nothing removed when an item's audit user or a withdrawal's requester or authoriser is that user; otherwise the first row with the id is cut out, the rest in order |
| UserService.DeleteKeepsReferencesValid | services/usuario_service.py:56-71 | after a successful deletion every audit user and requester that existed still exists |
| UserService.DeleteKeepsOtherUsers | services/usuario_service.py:56-71 | under the primary key a deletion removes exactly the user with the id and keeps every other one |
| UserService.PrepareUpdate | services/usuario_service.py:176-198 | each given field is copied (texts when non-empty, numbers when present; e-mail and username lower-cased, password hashed), every other field kept; the flag is set exactly when some field was given |
| UserService.UpdateUserAsWritten | services/usuario_service.py:73-93 | as written: 404, then 403, then a 500 on the undeclared username; the database is never changed |
| UserService.UpdateUserWith | services/usuario_service.py:73-93 | completed, for a given type check: 404, then 403, then the unique fields and the type check, then a 500 for a sector that does not exist or for an e-mail whose lower-case form another user has; a success stores the prepared user at its position |
| UserService.UpdateUserCheckingAbsentKind | services/usuario_service.py:149-156 | with the request completed but the type check as written, an update without a type is refused with 400 |
| UserService.UpdateUser | services/usuario_service.py:73-93 | completed: 404, then 403; succeeds exactly when the unique fields pass with the user itself excluded, a given type is valid, a given sector exists and no other user has the given e-mail lower-cased; an unknown sector or such an e-mail is a 500 with nothing changed; the prepared user then replaces the row |
| UserService.UpdateKeepsOtherUsers | services/usuario_service.py:73-93 | an update rewrites only the named user, which keeps its id and position; every other row is kept |
| UserService.RenameBehindTheCrash | services/usuario_service.py:134-156 | a rename alone: 500 as written, 400 once the username is declared, and success changing only the name once the type check is also corrected |
| UserService.PermissionIgnoresTarget | services/usuario_service.py:167-174 | only a direction user may update or delete, whoever the target is |
| UserService.UnknownSectorOnUpdateIsServerError | services/usuario_service.py:73-93 | an unknown sector is a 500 on update, where the create refuses it with 404; a known one is stored |
| UserService.OwnEmailIsNotInUse | services/usuario_service.py:133-147 | a user may keep its own e-mail when no other user has its lower-case form |
| UserService.CaseOnlyEmailClashIsServerError | services/usuario_service.py:86-91 | an e-mail another user has only up to case passes the check as sent, and its stored lower-case copy fails the unique column: a 500, nothing changed |
| UserService.UpperCaseEmailDuplicates | services/usuario_service.py:184 | with user 1 holding "b@x.com", updating user 2 to "B@x.com" is a 500 |
| UserService.ZeroSiapeClashesAtCommit | services/usuario_service.py:141 | a SIAPE of 0 passes the check, and a second user with it fails the unique column: a 500, nothing stored |
| Limiter.CheckCooldown | utils/limiter.py:13-30 | refused with 429 exactly when the requester was seen less than two seconds ago, the table then unchanged; otherwise now is recorded and only for that requester |
| Limiter.CooldownSpacing | utils/limiter.py:21-29 | a second request within two seconds is refused, and one two seconds after the first passes |
| Limiter.RefusalsKeepTheWindow | utils/limiter.py:21-26 | refused requests leave the table, so the window still ends two seconds after the last accepted one |
| ConfigLoader.ParseLine | core/config_loader.py:14-19 | blank and `#` lines are skipped; otherwise split at the first `=`, both halves stripped; no `=` is malformed |
| ConfigLoader.LoadConfig | core/config_loader.py:8-19 | a missing file changes nothing; otherwise the lines are loaded in order |
| ConfigLoader.LoadedValueIsLastEntry | core/config_loader.py:13-19 | a file without malformed lines gives each key its last entry and leaves other keys as they were |
| ConfigLoader.MalformedLineRaises | core/config_loader.py:18 | a malformed line anywhere makes loading fail |
| ConfigLoader.LoadSnoc | core/config_loader.py:13-19 | loading a file is loading all but its last line, then that line |
| ConfigLoader.ValueKeepsLaterEquals | core/config_loader.py:18 | only the first `=` splits, so a value may hold `=` |
| ConfigLoader.Get | core/config_loader.py:22-27 | the file's value, else the environment's, else the default; required and unresolved raises |
| UiPagination.RenderTable | frontend/static/js/uiService.js:20-45 | one row per record in order with its cells and actions; with none, one message row spanning every column |
| UiPagination.TableIsRectangular | frontend/static/js/uiService.js:20-45 | every body row is as wide as the header plus the actions column |
| UiPagination.PageWindow | frontend/static/js/uiService.js:49-63 | the numbered range holds the current page and is min(5, total) pages wide |
| UiPagination.Pagination | frontend/static/js/uiService.js:47-109 | Previous first, disabled on page 1; Next last, disabled on the last page or with none; pages and gaps between |
| UiPagination.MiddleEnds | frontend/static/js/uiService.js:65-84 | the numbered links start with page 1 and end with the last page |
| UiPagination.MiddleMarksCurrent | frontend/static/js/uiService.js:72-77 | every link is a page of the range, active exactly when it is the current page, which is shown |
| UiPagination.MiddleNeighbours | frontend/static/js/uiService.js:65-84 | adjacent numbered links are consecutive; a gap stands only where pages are skipped |
| UiPagination.NoPagesIsTwoDisabledEnds | frontend/static/js/uiService.js:93-97 | with no page the bar is two disabled ends |
| UiPagination.OneSizeIsSelected | frontend/static/js/uiService.js:86-88 | exactly one size option is selected when the current size is offered, none otherwise |
| WithdrawalCart.Add | frontend/static/js/solicitar-retirada.js:174-216 | no selection, a non-positive quantity or a total over the stock is refused and the list is unchanged |
| WithdrawalCart.AddTakesQuantity | frontend/static/js/solicitar-retirada.js:174-216 | refused for stock exactly when the new total exceeds it; otherwise the item's total grows by the quantity, others unchanged, one positive entry per item |
| WithdrawalCart.Remove | frontend/static/js/solicitar-retirada.js:248-253 | exactly the entries of the other items are kept; a list without the item is unchanged |
| WithdrawalCart.RemoveKeepsOrder | frontend/static/js/solicitar-retirada.js:248-253 | the kept entries stay in order: removing from two lists joined is joining the two removals |
| WithdrawalCart.RemoveDropsTheItem | frontend/static/js/solicitar-retirada.js:248-253 | the removed item's total becomes 0 and every other item's is kept |
| WithdrawalCart.RemoveKeepsTheList | frontend/static/js/solicitar-retirada.js:248-253 | removal keeps one positive entry per item |
| WithdrawalCart.Submit | frontend/static/js/solicitar-retirada.js:255-284 | no sector or an empty list is refused; otherwise one line per entry and the trimmed texts, an empty one as null |
| WithdrawalCart.SubmittedLinesAreDistinct | frontend/static/js/solicitar-retirada.js:255-284 | a list the form built sends distinct items with positive quantities, each what the list held |
| NameLookup.Dedup | frontend/static/js/dataService.js:7-10 | each id once, exactly the ids given |
| NameLookup.DedupKeepsOrder | frontend/static/js/dataService.js:7-10 | a list without repetitions comes back as it was |
| NameLookup.UserIdsAreTheMentionedUsers | frontend/static/js/dataService.js:6-23 | every user and sector a row mentions is resolved once and no other is |
| NameLookup.Resolve | frontend/static/js/apiService.js:75-91 | the API's name, or `#` and the id when the request fails: its decimal digits, after a `-` for a negative id |
| NameLookup.Digits | frontend/static/js/apiService.js:75-91 | the decimal digits of the id, which read back as the id |
| NameLookup.NameMap | frontend/static/js/dataService.js:14-21 | a map defined exactly on the ids, each to its resolved name |
| NameLookup.Process | frontend/static/js/dataService.js:25-40 | one decorated row per row, in order, each carrying its row |
| NameLookup.ProcessPage | frontend/static/js/dataService.js:25-40 | the counts are kept and only the rows are decorated |
| NameLookup.ShownNamesAreTheRowsOwn | frontend/static/js/dataService.js:29-34 | the names shown are the API's names for the row's own ids, with the in-person name first and N/A for absent ones |
| FrontendState.StatusText | frontend/static/js/utils.js:51-53 | a code has a label exactly when it is a status code; any other shows `Desconhecido` |
| FrontendState.TablesMatchTheApi | frontend/static/js/estadoGlobal.js:20-33 | the labelled and the sendable codes are exactly the API's statuses; the size options are the API's |
| FrontendState.LabelsRoundTrip | frontend/static/js/estadoGlobal.js:22-33 | a label sent back gives its code, except the accented completed label |
| FrontendState.InitialSizeIsOffered | frontend/static/js/estadoGlobal.js:3-20 | the initial page size is one of the options |
| FrontendState.SetHistoryPagination | frontend/static/js/estadoGlobal.js:37-42 | the history listing and filters take the new values; nothing else changes |
| FrontendState.SetPendingPagination | frontend/static/js/estadoGlobal.js:44-48 | the pending listing takes the new values; nothing else changes |
| FrontendState.SetOwnPagination | frontend/static/js/estadoGlobal.js:51-55 | the own listing takes the new values; nothing else changes |
| FrontendState.SetAll | frontend/static/js/estadoGlobal.js:57-59 | the list is replaced; nothing else changes |
| FrontendState.SetPending | frontend/static/js/estadoGlobal.js:61-63 | the list is replaced; nothing else changes |
| FrontendState.SetOwn | frontend/static/js/estadoGlobal.js:66-70 | the list is replaced; nothing else changes |
| FrontendState.SettersAreIndependent | frontend/static/js/estadoGlobal.js:37-55 | each pair of the three pagination setters commutes, and for each a second setting overrides the first |
| FrontendState.ListSettersAreIndependent | frontend/static/js/estadoGlobal.js:57-70 | each pair of the three list setters commutes, and for each a second setting overrides the first |

## Left out

- Database I/O, async sessions and SQLAlchemy are replaced by the `Db` value and the `Session` commit/rollback pair. The bulk import's rollback keeps the id counter, as database sequences do; every other failing operation returns the database value unchanged, so the ids a failed withdrawal request drew at its flush (repositories/retirada_repository.py:145-146) are drawn again by the next insert.
- The clock, password hashing, the date parser of the bulk import and the API fetches of the front end are parameters.
- Logging, HTTP routing, authentication, the scheduler that triggers the daily alerts, and the report and export services are outside the modelled core.
- Concurrency and the transport of WebSocket messages are not modelled. A send's failure is a predicate `fails`. The order in which broadcast walks the users' dictionary does not affect the resulting registry.
- Unicode: NFKD is a decomposition table for the accented letters of Portuguese, the ordinal indicators and the superscript digits; under full NFKD ß and ligatures such as ﬁ grow a name, ½ gives the digits 12, and non-Latin letters pass `isalnum`. Only ASCII letters and digits count as alphanumeric. Lower and upper case are ASCII only. Whitespace is the ASCII set; JavaScript's `trim` also strips Unicode spaces.
- SQL `ILIKE` patterns: the search text's `%` and `_` are taken literally.
- ItemRepository.ExpiringBefore: the query has no ORDER BY (repositories/item_repository.py:125-129), so no order of the rows is promised; the model keeps storage order without stating it.
- The columns follow the services and schemas, not models/, where the two disagree. models/retirada.py has an `item_id` column and no status or active flag; the model takes the status, its detail and the active flag from schemas/retirada.py:23-24 and the repository's filters, and the lines from models/retirada_item.py. models/alerta.py has no message, viewed or ignore flag; the model takes them from schemas/alerta.py:10-12 and repositories/alerta_repository.py. models/item.py has no `ativo`; the model takes it from schemas/item.py:38 and :53 and the write at services/retirada_service.py:119, which would not persist under models/item.py.
- Python's int() also reads non-ASCII decimal digits; `Text.ParseInt` reads ASCII digits only.
- The spreadsheet reader (pandas, type inference, encodings) is replaced by a header and rows of cells, either empty or text.
- The foreign-key constraint name that the integrity-error handler inspects is not modelled. The foreign-key failures the model reports are: an item create with a missing category (400); an item update naming a missing category, a merge or a deletion of an item a withdrawal line or alert refers to (`Domain.ItemReferenced`), a withdrawal request whose user, sector or items are missing (`WithdrawalService.Insertable`), a user update to a missing sector, and a user deletion while items or withdrawals refer to the user (`Domain.UserReferenced`), all 500; and a bulk row whose category vanished (`Unexpected`).
- create_root_setor is not defined by the sector service. `UserService.CreateFirstUserAsWritten` reports that call as a server error. `UserService.CreateFirstUser` takes the root sector it means to create as a parameter.
- The user request schemas as declared lack `username`, and the update schema also lacks the SIAPE. `UserService.DeclaredCreate` and `UserService.DeclaredUpdate` are those schemas; the other user members use requests completed with every field the service reads.
- UserService.PrepareUpdate: the password of an update is text, while UsuarioUpdate declares it `Optional[int]`; the hashing of an integer is not modelled.
- The user endpoints (api/v1/endpoints/usuario.py:28-47) turn every error of the first-user and create calls, 403 and 400 included, into a 500; they also import two schemas that schemas/usuario.py does not define. The model stops at the service.
- Normalize.NormalizedChars: holds for this model's decomposition table; under full NFKD non-Latin letters (µ gives Greek capital mu) survive.
- Normalize.NormalizedLength: holds for this model's decomposition table; under full NFKD ß and ﬁ give two characters each.
- ItemService.CreateItem: the request's expiry is modelled as a day. The schema declares a datetime (schemas/item.py:22) stored in a Date column (models/item.py:17) and compared with it by the finder (services/finder.py:14-23); what the database driver does with the time of day is not modelled.
- ItemService.CreateTwiceAddsOneRow: holds with the expiry as a day; under a driver comparing the column as a timestamp, a repeated request whose expiry has a time of day would insert a second row.
- The category lookup by name that search_items_paginated calls is not defined in the category repository. `ItemService.SearchItems` reports that call as a server error.
- Page sizes of the withdrawal listings are validated by the HTTP endpoints (1 to 100). `WithdrawalService.Paginate` requires that range instead of reporting it.
- WithdrawalCart.Add: after an add the form also clears the picked item (frontend/static/js/solicitar-retirada.js:213-214), so a second add needs a new selection; the selection is an input of the model, not state.
- Front-end markup, element ids, event handlers and the DOM redraw of the request form are left out. Tables and pagination bars are modelled by their structure only.
- The form reads quantities with `parseInt`. The model takes the parsed `Option<int>` as the input.
- The shallow copy of history filters in the front-end state is modelled by value semantics.

## Findings

| source | as written | input that shows it | evidently intended | confidence | as-written member | corrected member |
|---|---|---|---|---|---|---|
| services/bulk_processor.py:52-63 | a failing row calls `rollback()` on the whole session, discarding every earlier row and the created categories, while the report keeps counting those rows as created or updated | a file whose first row creates a new item and whose second row has a non-numeric quantity | each failing row is undone alone (a savepoint per row), so every counted row is committed | not executed | BulkImport.RollbackLosesCountedRow | BulkImport.SavepointKeepsCountedRow |
| services/retirada_service.py:105-122 | the low-stock check inside the completion loop calls create_alerta, which commits the session (repositories/alerta_repository.py:41), so the decrement of earlier lines is already committed when a later line fails the stock check | item A with quantity 5 and minimum 10, item B with quantity 0, a withdrawal of 1 of A and 1 of B set to completed | a completion that fails leaves every stock as it was | not executed | WithdrawalService.EarlyCommitKeepsDecrement | WithdrawalService.AtomicFailureKeepsStock |
| services/usuario_service.py:134-140 | _validate_unique_fields reads `username`, which UsuarioCreate (schemas/usuario.py:11-17) does not declare, so create_usuario raises before the insert; the insert also omits the NOT NULL username and the SIAPE | any create request | the request carries a username, checked for uniqueness and stored with the SIAPE | not executed | UserService.NoUserIsCreatedAsWritten | UserService.CreateUser |
| services/usuario_service.py:25 | create_first_user calls SetorService.create_root_setor, which the sector service does not define | a first-user request on an empty database | a root sector is created and the user placed in it | not executed | UserService.FirstUserOnlyOnce | UserService.CreateFirstUser |
| services/usuario_service.py:86-88 | update_usuario reaches _validate_unique_fields, which reads `username` and `siape_usuario`, neither declared by UsuarioUpdate (schemas/usuario.py:19-24), so every permitted update raises | an update by a direction user carrying only a new name | the given fields are checked and copied | not executed | UserService.RenameBehindTheCrash | UserService.UpdateUser |
| services/usuario_service.py:149-156 | latent behind the crash above: update_usuario also runs the type check, which rejects an absent type, so once the schema is completed every update that does not resend the type is refused with 400 | an update carrying only a new name | the type is checked only when the update sends one | not executed | UserService.UpdateUserCheckingAbsentKind | UserService.UpdateUser |
| services/retirada_service.py:164-173 | the 404 for an empty table is raised inside a `try` whose `except Exception` turns it into a 500 | a database with no active withdrawal | the caller receives the 404 | not executed | WithdrawalService.EmptyTableIsServerError | WithdrawalService.AllWithdrawals |

=== FILE: alert_repository.dfy ===
/** AlertaRepository: the blocking-alert test that governs alert creation, creation itself,
    the one-field updates, the unviewed count and the search filter of the listing. */
module AlertRepository {
  import opened Wrappers
  import opened Text
  import opened Domain
  import opened Seqs
  import opened Sorting
  import opened Paging
  import opened Errors

  /** alerta_ja_existe's WHERE clause for one row, as written: same kind and item, and
      either flagged "ignore new" or both unviewed and not flagged. */
  predicate Blocks(a: Alert, kind: int, itemId: int) {
    && a.kind == kind
    && a.itemId == itemId
    && (a.ignoreNew || (!a.viewed && !a.ignoreNew))
  }

  /** The clause reads more simply: a flagged alert blocks, and so does an unviewed one. */
  lemma BlocksIffIgnoredOrUnviewed(a: Alert, kind: int, itemId: int)
    ensures Blocks(a, kind, itemId) <==> a.kind == kind && a.itemId == itemId && (a.ignoreNew || !a.viewed)
  {
  }

  /** alerta_ja_existe: whether some stored alert blocks a new one for (kind, item). */
  function AlertExists(alerts: seq<Alert>, kind: int, itemId: int): (b: bool)
    ensures b <==> exists k :: 0 <= k < |alerts| && Blocks(alerts[k], kind, itemId)
  {
    if |alerts| == 0 then false
    else if Blocks(alerts[0], kind, itemId) then true
    else
      var rest := AlertExists(alerts[1..], kind, itemId);
      assert forall k :: 1 <= k < |alerts| ==> alerts[k] == alerts[1..][k - 1];
      rest
  }

  /** Blocking alerts stay blocking when further alerts are appended. */
  lemma ExistsAfterAppend(alerts: seq<Alert>, more: seq<Alert>, kind: int, itemId: int)
    requires AlertExists(alerts, kind, itemId)
    ensures AlertExists(alerts + more, kind, itemId)
  {
    var k :| 0 <= k < |alerts| && Blocks(alerts[k], kind, itemId);
    assert (alerts + more)[k] == alerts[k];
  }

  /** create_alerta: a new unviewed, unflagged alert with the next id, stamped `now`. */
  function CreateAlert(db: Db, kind: int, itemId: int, message: string, now: int): (r: (Db, Alert))
    ensures r.0.alerts == db.alerts + [r.1]
    ensures r.1 == Alert(db.nextId, kind, itemId, message, now, false, false)
    ensures r.0.nextId == db.nextId + 1
    ensures r.0 == db.(alerts := r.0.alerts, nextId := r.0.nextId)
    ensures AlertExists(r.0.alerts, kind, itemId)
  {
    var a := Alert(db.nextId, kind, itemId, message, now, false, false);
    var alerts := db.alerts + [a];
    assert Blocks(alerts[|db.alerts|], kind, itemId);
    (db.(alerts := alerts, nextId := db.nextId + 1), a)
  }

  /** ignorar_alerta: flags the alert with `id`, or reports None when there is none. */
  function IgnoreAlert(alerts: seq<Alert>, id: int): (r: Option<(seq<Alert>, Alert)>)
    ensures r.None? <==> forall k :: 0 <= k < |alerts| ==> alerts[k].id != id
    ensures r.Some? ==> |r.value.0| == |alerts|
    ensures r.Some? ==> (exists k :: (0 <= k < |alerts| && alerts[k].id == id
      && r.value.1 == alerts[k].(ignoreNew := true) && r.value.0 == alerts[k := r.value.1]))
  {
    match FindAlert(alerts, id)
    case None => None
    case Some(k) =>
      var a := alerts[k].(ignoreNew := true);
      Some((alerts[k := a], a))
  }

  /** Once an alert for (kind, item) is flagged "ignore new", creation stays blocked:
      flagging further alerts does not change that. */
  lemma IgnoredBlocksAfterIgnore(alerts: seq<Alert>, id: int, j: nat)
    requires j < |alerts| && alerts[j].ignoreNew
    requires IgnoreAlert(alerts, id).Some?
    ensures AlertExists(IgnoreAlert(alerts, id).value.0, alerts[j].kind, alerts[j].itemId)
  {
    var after := IgnoreAlert(alerts, id).value.0;
    assert Blocks(after[j], alerts[j].kind, alerts[j].itemId);
  }

  /** mark_all_alerts_as_viewed: every unviewed alert becomes viewed. */
  function MarkAllViewed(alerts: seq<Alert>): (r: seq<Alert>)
    ensures |r| == |alerts|
    ensures forall k :: 0 <= k < |r| ==> r[k] == alerts[k].(viewed := true)
  {
    seq(|alerts|, k requires 0 <= k < |alerts| => if alerts[k].viewed then alerts[k] else alerts[k].(viewed := true))
  }

  /** Marking everything viewed leaves creation blocked exactly for the flagged alerts. */
  lemma MarkAllViewedKeepsIgnored(alerts: seq<Alert>, kind: int, itemId: int)
    ensures AlertExists(MarkAllViewed(alerts), kind, itemId)
      <==> exists k :: 0 <= k < |alerts| && alerts[k].kind == kind && alerts[k].itemId == itemId && alerts[k].ignoreNew
  {
    var m := MarkAllViewed(alerts);
    if exists k :: 0 <= k < |alerts| && alerts[k].kind == kind && alerts[k].itemId == itemId && alerts[k].ignoreNew {
      var k :| 0 <= k < |alerts| && alerts[k].kind == kind && alerts[k].itemId == itemId && alerts[k].ignoreNew;
      assert Blocks(m[k], kind, itemId);
    }
  }

  /** A viewed alert that is not flagged does not block a new one. */
  lemma ViewedDoesNotBlock(a: Alert, kind: int, itemId: int)
    requires a.viewed && !a.ignoreNew
    ensures !Blocks(a, kind, itemId)
  {
  }

  function Unviewed(a: Alert): bool {
    !a.viewed
  }

  /** count_unviewed_alerts. */
  function CountUnviewed(alerts: seq<Alert>): (n: nat)
    ensures n == |Filter(alerts, Unviewed)|
    ensures n == 0 <==> forall k :: 0 <= k < |alerts| ==> alerts[k].viewed
  {
    CountIsFilterLength(alerts, Unviewed);
    var f := Filter(alerts, Unviewed);
    assert |f| > 0 ==> f[0] in alerts && Unviewed(f[0]);
    CountWhere(alerts, Unviewed)
  }

  /** After marking all viewed, nothing is unviewed. */
  lemma {:induction false} NoneUnviewedAfterMarkAll(alerts: seq<Alert>)
    ensures CountUnviewed(MarkAllViewed(alerts)) == 0
  {
    var m := MarkAllViewed(alerts);
    CountIsFilterLength(m, Unviewed);
    FilterNone(m, Unviewed);
  }

  /** The count and the page share this filter: kind equality when a kind is given; a
      non-empty search matches the message as a case-insensitive substring, or, when the
      search text parses as an integer, the item id too. */
  predicate AlertMatches(a: Alert, kind: Option<int>, search: Option<string>) {
    && (kind.Some? ==> a.kind == kind.value)
    && (search.Some? && search.value != "" ==>
          match ParseInt(search.value)
          case Some(n) => ContainsIgnoreCase(a.message, search.value) || a.itemId == n
          case None => ContainsIgnoreCase(a.message, search.value))
  }

  /** A search that int() reads with digit grouping finds the item by id: "1_0" matches
      every alert of item 10, whatever its message. */
  lemma GroupedSearchMatchesItemId(a: Alert)
    requires a.itemId == 10
    ensures AlertMatches(a, None, Some("1_0"))
  {
    UnderscoresGroupDigits();
  }

  function CountAlerts(alerts: seq<Alert>, kind: Option<int>, search: Option<string>): (n: nat)
    ensures n <= |alerts|
  {
    CountWhere(alerts, a => AlertMatches(a, kind, search))
  }

  function AlertTime(a: Alert): int {
    a.createdAt
  }

  /** The rows the listing pages through: the matching alerts, newest first. There are as
      many as the count query counts. */
  function Listing(alerts: seq<Alert>, kind: Option<int>, search: Option<string>): (r: seq<Alert>)
    ensures |r| == CountAlerts(alerts, kind, search)
    ensures forall k :: 0 <= k < |r| ==> r[k] in alerts && AlertMatches(r[k], kind, search)
    ensures forall k :: 0 <= k < |alerts| && AlertMatches(alerts[k], kind, search) ==> alerts[k] in r
    ensures SortedDesc(r, AlertTime)
  {
    var p := a => AlertMatches(a, kind, search);
    CountIsFilterLength(alerts, p);
    var sorted := SortDesc(Filter(alerts, p), AlertTime);
    ReorderedFilter(alerts, p, sorted);
    sorted
  }

  /** get_alertas_paginated: the matching alerts, newest first, then OFFSET/LIMIT (SQL
      applies the ORDER BY before the OFFSET whatever order the builder calls came in). */
  function AlertsPage(alerts: seq<Alert>, offset: nat, limit: nat, kind: Option<int>, search: Option<string>)
    : (r: seq<Alert>)
    ensures offset >= CountAlerts(alerts, kind, search) ==> r == []
    ensures offset < CountAlerts(alerts, kind, search) ==> |r| == Min(limit, CountAlerts(alerts, kind, search) - offset)
    ensures forall k :: 0 <= k < |r| ==>
      offset + k < CountAlerts(alerts, kind, search) && r[k] == Listing(alerts, kind, search)[offset + k]
    ensures forall k :: 0 <= k < |r| ==> r[k] in alerts && AlertMatches(r[k], kind, search)
    ensures SortedDesc(r, AlertTime)
  {
    var all := Listing(alerts, kind, search);
    var w := Window(all, offset, limit);
    SortedWindow(all, w, offset, AlertTime);
    w
  }

  /** Every matching alert is shown on the page its rank in the listing implies, at the
      position its rank implies, and that page is within the page count the service
      reports. */
  lemma EveryMatchingAlertIsOnItsPage(alerts: seq<Alert>, kind: Option<int>, search: Option<string>, size: nat, k: nat)
    requires size > 0 && k < CountAlerts(alerts, kind, search)
    ensures var page := k / size + 1;
      && 1 <= page <= AlertPages(CountAlerts(alerts, kind, search), size)
      && Offset(page, size) >= 0
      && k % size < |AlertsPage(alerts, Offset(page, size), size, kind, search)|
      && AlertsPage(alerts, Offset(page, size), size, kind, search)[k % size] == Listing(alerts, kind, search)[k]
  {
    var all := Listing(alerts, kind, search);
    RowIsOnItsPage(all, size, k);
  }

  /** delete_alerta: removes the alert with `id`. The lookup's None is handed to the
      session's delete, which raises, when no alert has the id. */
  function DeleteAlert(alerts: seq<Alert>, id: int): (r: Result<seq<Alert>, Reason>)
    ensures r.Err? <==> forall k :: 0 <= k < |alerts| ==> alerts[k].id != id
    ensures r.Err? ==> r.error == UnhandledError
    ensures r.Ok? ==>
      exists k :: 0 <= k < |alerts| && alerts[k].id == id
        && (forall j :: 0 <= j < k ==> alerts[j].id != id)
        && r.value == alerts[..k] + alerts[k + 1..]
  {
    match FindAlert(alerts, id)
    case None => Err(UnhandledError)
    case Some(k) => Ok(RemoveAt(alerts, k))
  }

  /** Under the alerts' primary key, deleting removes that alert and keeps every other. */
  lemma DeleteRemovesOnlyThatAlert(alerts: seq<Alert>, id: int)
    requires KeysUnique(alerts, AlertKey)
    requires DeleteAlert(alerts, id).Ok?
    ensures forall a :: a in DeleteAlert(alerts, id).value <==> a in alerts && a.id != id
  {
    var k := FindAlert(alerts, id).value;
    RemoveKeyed(alerts, AlertKey, k);
  }

  function AlertKey(a: Alert): int {
    a.id
  }
}

=== FILE: alert_service.dfy ===
/** AlertaService: the daily expiry and low-stock scans that create alerts and broadcast
    them, and the service layer over the alert repository. */
module AlertService {
  import opened Wrappers
  import opened Errors
  import opened Domain
  import opened Seqs
  import opened Paging
  import opened ItemRepository
  import opened AlertRepository

  /** How far ahead of `now` the expiry scan looks: sixty days. */
  const ExpiryHorizon: int := 60 * Day

  /** The text of a new alert about `item`. */
  function AlertText(kind: int, item: Item): string {
    if kind == NearExpiryKind then "Item " + item.originalName + " próximo da validade"
    else "Estoque de " + item.originalName + " abaixo do mínimo"
  }

  /** `a` is an alert a scan of `kind` over `cands` at `now` may have created. */
  predicate CreatedFor(a: Alert, kind: int, cands: seq<Item>, now: int) {
    && a.kind == kind && !a.viewed && !a.ignoreNew && a.createdAt == now
    && exists j :: 0 <= j < |cands| && a.itemId == cands[j].id && a.message == AlertText(kind, cands[j])
  }

  /** The notification for a newly created alert. */
  function Announce(a: Alert): Push {
    Broadcast(NewAlert(a.id, a.message))
  }

  /** Every candidate has a blocking alert of `kind`. */
  predicate AllBlocked(alerts: seq<Alert>, kind: int, cands: seq<Item>) {
    forall j :: 0 <= j < |cands| ==> AlertExists(alerts, kind, cands[j].id)
  }

  /** The loop of both scans: for each candidate in order, create an alert of `kind` unless
      one already blocks it (including one created earlier in the same loop), and broadcast
      each created alert. Each creation commits; nothing else in the database changes. */
  function CreateMissing(db: Db, cands: seq<Item>, kind: int, now: int): (r: (Db, seq<Push>))
    ensures r.0 == db.(alerts := r.0.alerts, nextId := r.0.nextId)
    ensures |db.alerts| <= |r.0.alerts| && r.0.alerts[..|db.alerts|] == db.alerts
    ensures r.0.nextId == db.nextId + |r.0.alerts| - |db.alerts|
    ensures |r.1| == |r.0.alerts| - |db.alerts|
    decreases |cands|
  {
    if |cands| == 0 then (db, [])
    else if AlertExists(db.alerts, kind, cands[0].id) then CreateMissing(db, cands[1..], kind, now)
    else
      var created := CreateAlert(db, kind, cands[0].id, AlertText(kind, cands[0]), now);
      var rest := CreateMissing(created.0, cands[1..], kind, now);
      assert rest.0.alerts[..|db.alerts|] == rest.0.alerts[..|created.0.alerts|][..|db.alerts|];
      (rest.0, [Announce(created.1)] + rest.1)
  }

  /** The alerts a run of the loop appended. */
  function Added(db: Db, cands: seq<Item>, kind: int, now: int): (a: seq<Alert>)
    ensures CreateMissing(db, cands, kind, now).0.alerts == db.alerts + a
  {
    var alerts := CreateMissing(db, cands, kind, now).0.alerts;
    assert alerts == alerts[..|db.alerts|] + alerts[|db.alerts|..];
    alerts[|db.alerts|..]
  }

  /** One step of the loop that creates an alert: what it appends is that alert followed
      by what the rest of the loop appends. */
  lemma AddedStep(db: Db, cands: seq<Item>, kind: int, now: int)
    requires |cands| > 0 && !AlertExists(db.alerts, kind, cands[0].id)
    ensures var created := CreateAlert(db, kind, cands[0].id, AlertText(kind, cands[0]), now);
      Added(db, cands, kind, now) == [created.1] + Added(created.0, cands[1..], kind, now)
      && CreateMissing(db, cands, kind, now).1 == [Announce(created.1)] + CreateMissing(created.0, cands[1..], kind, now).1
  {
    var created := CreateAlert(db, kind, cands[0].id, AlertText(kind, cands[0]), now);
    var all := CreateMissing(db, cands, kind, now).0.alerts;
    assert all == created.0.alerts + Added(created.0, cands[1..], kind, now);
    assert all == db.alerts + Added(db, cands, kind, now);
    assert created.0.alerts == db.alerts + [created.1];
    assert all[|db.alerts|..] == Added(db, cands, kind, now);
    assert all[|db.alerts|..] == [created.1] + Added(created.0, cands[1..], kind, now);
  }

  /** Each broadcast announces the alert created at the same position, and the created
      alerts take consecutive ids. */
  lemma {:induction false} CreateMissingAnnounces(db: Db, cands: seq<Item>, kind: int, now: int)
    ensures forall k :: (0 <= k < |CreateMissing(db, cands, kind, now).1| ==>
      CreateMissing(db, cands, kind, now).1[k] == Announce(Added(db, cands, kind, now)[k])
      && Added(db, cands, kind, now)[k].id == db.nextId + k)
    decreases |cands|
  {
    if |cands| > 0 && !AlertExists(db.alerts, kind, cands[0].id) {
      var created := CreateAlert(db, kind, cands[0].id, AlertText(kind, cands[0]), now);
      CreateMissingAnnounces(created.0, cands[1..], kind, now);
      AddedStep(db, cands, kind, now);
      var ps := CreateMissing(db, cands, kind, now).1;
      var added := Added(db, cands, kind, now);
      var restPs := CreateMissing(created.0, cands[1..], kind, now).1;
      var restAdded := Added(created.0, cands[1..], kind, now);
      forall k | 0 <= k < |ps|
        ensures ps[k] == Announce(added[k]) && added[k].id == db.nextId + k
      {
        if k > 0 {
          assert ps[k] == restPs[k - 1] && added[k] == restAdded[k - 1];
        }
      }
    } else if |cands| > 0 {
      CreateMissingAnnounces(db, cands[1..], kind, now);
    }
  }

  /** Every created alert is a fresh alert of `kind` about one of the candidates. */
  lemma {:induction false} CreateMissingCreatesFor(db: Db, cands: seq<Item>, kind: int, now: int)
    ensures forall k :: (0 <= k < |Added(db, cands, kind, now)| ==>
      CreatedFor(Added(db, cands, kind, now)[k], kind, cands, now))
    decreases |cands|
  {
    if |cands| > 0 {
      var tail := cands[1..];
      var base := if AlertExists(db.alerts, kind, cands[0].id) then db
        else CreateAlert(db, kind, cands[0].id, AlertText(kind, cands[0]), now).0;
      CreateMissingCreatesFor(base, tail, kind, now);
      var later := Added(base, tail, kind, now);
      forall k | 0 <= k < |later|
        ensures CreatedFor(later[k], kind, cands, now)
      {
        CreatedForTail(later[k], kind, cands, now);
      }
      if !AlertExists(db.alerts, kind, cands[0].id) {
        var created := CreateAlert(db, kind, cands[0].id, AlertText(kind, cands[0]), now);
        AddedStep(db, cands, kind, now);
        assert CreatedFor(created.1, kind, cands, now) by {
          assert created.1.itemId == cands[0].id;
        }
      } else {
        AddedSkip(db, cands, kind, now);
      }
    }
  }

  /** An alert created for one of the later candidates is created for one of them all. */
  lemma CreatedForTail(a: Alert, kind: int, cands: seq<Item>, now: int)
    requires |cands| > 0 && CreatedFor(a, kind, cands[1..], now)
    ensures CreatedFor(a, kind, cands, now)
  {
    var tail := cands[1..];
    var j :| 0 <= j < |tail| && a.itemId == tail[j].id && a.message == AlertText(kind, tail[j]);
    assert tail[j] == cands[j + 1];
  }

  /** A step of the loop whose candidate is already blocked appends nothing itself. */
  lemma AddedSkip(db: Db, cands: seq<Item>, kind: int, now: int)
    requires |cands| > 0 && AlertExists(db.alerts, kind, cands[0].id)
    ensures Added(db, cands, kind, now) == Added(db, cands[1..], kind, now)
  {
    assert CreateMissing(db, cands, kind, now) == CreateMissing(db, cands[1..], kind, now);
  }

  /** After the loop every candidate has a blocking alert of `kind`. */
  lemma {:induction false} CreateMissingBlocksAll(db: Db, cands: seq<Item>, kind: int, now: int)
    ensures AllBlocked(CreateMissing(db, cands, kind, now).0.alerts, kind, cands)
    decreases |cands|
  {
    if |cands| > 0 {
      var tail := cands[1..];
      var base := if AlertExists(db.alerts, kind, cands[0].id) then db
        else CreateAlert(db, kind, cands[0].id, AlertText(kind, cands[0]), now).0;
      assert AlertExists(base.alerts, kind, cands[0].id);
      CreateMissingBlocksAll(base, tail, kind, now);
      var final := CreateMissing(db, cands, kind, now).0.alerts;
      assert final == CreateMissing(base, tail, kind, now).0.alerts;
      ExistsAfterAppend(base.alerts, Added(base, tail, kind, now), kind, cands[0].id);
      forall j | 0 <= j < |cands|
        ensures AlertExists(final, kind, cands[j].id)
      {
        if j > 0 {
          assert cands[j] == tail[j - 1];
        }
      }
    }
  }

  /** When every candidate is already blocked the loop does nothing. */
  lemma {:induction false} CreateMissingIdle(db: Db, cands: seq<Item>, kind: int, now: int)
    requires AllBlocked(db.alerts, kind, cands)
    ensures CreateMissing(db, cands, kind, now) == (db, [])
    decreases |cands|
  {
    if |cands| > 0 {
      assert AlertExists(db.alerts, kind, cands[0].id);
      assert AllBlocked(db.alerts, kind, cands[1..]) by {
        forall j | 0 <= j < |cands[1..]|
          ensures AlertExists(db.alerts, kind, cands[1..][j].id)
        {
          assert cands[1..][j] == cands[j + 1];
        }
      }
      CreateMissingIdle(db, cands[1..], kind, now);
    }
  }

  /** verificar_validade_itens: alerts for items whose expiry day is at most sixty days ahead. */
  function ExpiryScan(db: Db, now: int): (r: (Db, seq<Push>))
    ensures r.0 == db.(alerts := r.0.alerts, nextId := r.0.nextId)
    ensures |db.alerts| <= |r.0.alerts| && r.0.alerts[..|db.alerts|] == db.alerts
    ensures forall k :: (0 <= k < |db.items| && ExpiresBy(db.items[k], now + ExpiryHorizon)
      ==> AlertExists(r.0.alerts, NearExpiryKind, db.items[k].id))
    ensures forall k :: (|db.alerts| <= k < |r.0.alerts| ==>
      CreatedFor(r.0.alerts[k], NearExpiryKind, ExpiringBefore(db.items, now + ExpiryHorizon), now))
    ensures |r.1| == |r.0.alerts| - |db.alerts|
  {
    var cands := ExpiringBefore(db.items, now + ExpiryHorizon);
    var r := CreateMissing(db, cands, NearExpiryKind, now);
    CreateMissingBlocksAll(db, cands, NearExpiryKind, now);
    CreateMissingCreatesFor(db, cands, NearExpiryKind, now);
    forall k | 0 <= k < |db.items| && ExpiresBy(db.items[k], now + ExpiryHorizon)
      ensures AlertExists(r.0.alerts, NearExpiryKind, db.items[k].id)
    {
      var j :| 0 <= j < |cands| && cands[j] == db.items[k];
    }
    forall k | |db.alerts| <= k < |r.0.alerts|
      ensures CreatedFor(r.0.alerts[k], NearExpiryKind, cands, now)
    {
      assert r.0.alerts[k] == Added(db, cands, NearExpiryKind, now)[k - |db.alerts|];
    }
    r
  }

  /** The low-stock scan's row test: an optional item id restricts the scan only when it is
      truthy (0 scans everything), and the quantity is strictly below a stored minimum. */
  predicate LowStockCandidate(item: Item, itemId: Option<int>) {
    && (TruthyInt(itemId) ==> item.id == itemId.value)
    && item.minimum.Some? && item.quantity < item.minimum.value
  }

  function LowStockCandidates(items: seq<Item>, itemId: Option<int>): (r: seq<Item>)
    ensures forall k :: 0 <= k < |r| ==> r[k] in items && LowStockCandidate(r[k], itemId)
    ensures forall k :: 0 <= k < |items| && LowStockCandidate(items[k], itemId) ==> items[k] in r
  {
    Filter(items, i => LowStockCandidate(i, itemId))
  }

  /** verificar_estoque_baixo. */
  function LowStockScan(db: Db, itemId: Option<int>, now: int): (r: (Db, seq<Push>))
    ensures r.0 == db.(alerts := r.0.alerts, nextId := r.0.nextId)
    ensures |db.alerts| <= |r.0.alerts| && r.0.alerts[..|db.alerts|] == db.alerts
    ensures forall k :: (0 <= k < |db.items| && LowStockCandidate(db.items[k], itemId)
      ==> AlertExists(r.0.alerts, LowStockKind, db.items[k].id))
    ensures forall k :: (|db.alerts| <= k < |r.0.alerts| ==>
      CreatedFor(r.0.alerts[k], LowStockKind, LowStockCandidates(db.items, itemId), now))
    ensures |r.1| == |r.0.alerts| - |db.alerts|
  {
    var cands := LowStockCandidates(db.items, itemId);
    var r := CreateMissing(db, cands, LowStockKind, now);
    CreateMissingBlocksAll(db, cands, LowStockKind, now);
    CreateMissingCreatesFor(db, cands, LowStockKind, now);
    forall k | 0 <= k < |db.items| && LowStockCandidate(db.items[k], itemId)
      ensures AlertExists(r.0.alerts, LowStockKind, db.items[k].id)
    {
      var j :| 0 <= j < |cands| && cands[j] == db.items[k];
    }
    forall k | |db.alerts| <= k < |r.0.alerts|
      ensures CreatedFor(r.0.alerts[k], LowStockKind, cands, now)
    {
      assert r.0.alerts[k] == Added(db, cands, LowStockKind, now)[k - |db.alerts|];
    }
    r
  }

  /** A second low-stock scan after the first, at any later time, creates nothing and
      sends nothing. */
  lemma LowStockScanIsIdempotent(db: Db, itemId: Option<int>, now: int, later: int)
    ensures LowStockScan(LowStockScan(db, itemId, now).0, itemId, later) == (LowStockScan(db, itemId, now).0, [])
  {
    var db1 := LowStockScan(db, itemId, now).0;
    var cands := LowStockCandidates(db.items, itemId);
    CreateMissingBlocksAll(db, cands, LowStockKind, now);
    CreateMissingIdle(db1, cands, LowStockKind, later);
  }

  /** A second expiry scan at the same instant creates nothing and sends nothing. */
  lemma ExpiryScanIsIdempotent(db: Db, now: int)
    ensures ExpiryScan(ExpiryScan(db, now).0, now) == (ExpiryScan(db, now).0, [])
  {
    var db1 := ExpiryScan(db, now).0;
    var cands := ExpiringBefore(db.items, now + ExpiryHorizon);
    CreateMissingBlocksAll(db, cands, NearExpiryKind, now);
    CreateMissingIdle(db1, cands, NearExpiryKind, now);
  }

  /** Each broadcast of a scan announces the alert it created, in creation order. */
  lemma LowStockScanAnnounces(db: Db, itemId: Option<int>, now: int)
    ensures forall k :: (0 <= k < |LowStockScan(db, itemId, now).1| ==>
      LowStockScan(db, itemId, now).1[k] == Announce(LowStockScan(db, itemId, now).0.alerts[|db.alerts| + k])
      && LowStockScan(db, itemId, now).0.alerts[|db.alerts| + k].id == db.nextId + k)
  {
    var cands := LowStockCandidates(db.items, itemId);
    CreateMissingAnnounces(db, cands, LowStockKind, now);
    var r := CreateMissing(db, cands, LowStockKind, now);
    assert forall k :: 0 <= k < |r.1| ==> r.0.alerts[|db.alerts| + k] == Added(db, cands, LowStockKind, now)[k];
  }

  /** An item whose quantity equals its minimum is low stock for the item listing's query
      but never gets a low-stock alert from the scan. */
  lemma AtMinimumIsListedButNotScanned(item: Item, itemId: Option<int>)
    requires item.minimum == Some(item.quantity)
    ensures AtOrBelowMinimum(item)
    ensures !LowStockCandidate(item, itemId)
  {
  }

  /** The low-stock scan that follows keeps every expiry alert the first scan ensured. */
  lemma ExpiryBlocksSurviveLowStockScan(db: Db, now: int)
    ensures forall k :: (0 <= k < |db.items| && ExpiresBy(db.items[k], now + ExpiryHorizon)
      ==> AlertExists(LowStockScan(ExpiryScan(db, now).0, None, now).0.alerts, NearExpiryKind, db.items[k].id))
  {
    var db1 := ExpiryScan(db, now).0;
    var db2 := LowStockScan(db1, None, now).0;
    assert db2.alerts == db1.alerts + db2.alerts[|db1.alerts|..];
    forall k | 0 <= k < |db.items| && ExpiresBy(db.items[k], now + ExpiryHorizon)
      ensures AlertExists(db2.alerts, NearExpiryKind, db.items[k].id)
    {
      ExistsAfterAppend(db1.alerts, db2.alerts[|db1.alerts|..], NearExpiryKind, db.items[k].id);
    }
  }

  /** generate_daily_alerts: the expiry scan, then the low-stock scan over every item. */
  function DailyAlerts(db: Db, now: int): (r: (Db, seq<Push>))
    ensures r.0 == db.(alerts := r.0.alerts, nextId := r.0.nextId)
    ensures forall k :: (0 <= k < |db.items| && ExpiresBy(db.items[k], now + ExpiryHorizon)
      ==> AlertExists(r.0.alerts, NearExpiryKind, db.items[k].id))
    ensures forall k :: (0 <= k < |db.items| && LowStockCandidate(db.items[k], None)
      ==> AlertExists(r.0.alerts, LowStockKind, db.items[k].id))
  {
    var first := ExpiryScan(db, now);
    var second := LowStockScan(first.0, None, now);
    ExpiryBlocksSurviveLowStockScan(db, now);
    (second.0, first.1 + second.1)
  }

  /** get_alertas: every alert, or 404 when there are none. */
  function AllAlerts(db: Db): (r: Result<seq<Alert>, Reason>)
    ensures r.Err? <==> db.alerts == []
    ensures r.Err? ==> r.error == NoAlerts
    ensures r.Ok? ==> r.value == db.alerts
  {
    if db.alerts == [] then Err(NoAlerts) else Ok(db.alerts)
  }

  /** get_alerta_by_id. */
  function AlertById(db: Db, id: int): (r: Result<Alert, Reason>)
    ensures r.Err? <==> forall k :: 0 <= k < |db.alerts| ==> db.alerts[k].id != id
    ensures r.Err? ==> r.error == AlertNotFound
    ensures r.Ok? ==> r.value.id == id && r.value in db.alerts
  {
    match FindAlert(db.alerts, id)
    case None => Err(AlertNotFound)
    case Some(k) => Ok(db.alerts[k])
  }

  datatype AlertPage = AlertPage(page: int, size: int, total: nat, totalPages: nat, items: seq<Alert>)

  /** get_alertas_paginated: the count, `ceil(total / size)` pages (1 when nothing
      matches), and the requested page of the listing. */
  function Paginated(db: Db, page: int, size: int, kind: Option<int>, search: Option<string>)
    : (r: Result<AlertPage, Reason>)
    ensures r.Err? <==> CheckPage(page, size).Some?
    ensures r.Err? ==> r.error == CheckPage(page, size).value
    ensures r.Ok? ==> r.value.page == page && r.value.size == size
    ensures r.Ok? ==> r.value.total == CountAlerts(db.alerts, kind, search)
    ensures r.Ok? ==> LeastCover(r.value.total, size, r.value.totalPages)
    ensures r.Ok? && Offset(page, size) < r.value.total ==>
      |r.value.items| == Min(size, r.value.total - Offset(page, size))
    ensures r.Ok? && Offset(page, size) >= r.value.total ==> r.value.items == []
    ensures r.Ok? ==> forall k :: 0 <= k < |r.value.items| ==>
      Offset(page, size) + k < r.value.total
      && r.value.items[k] == Listing(db.alerts, kind, search)[Offset(page, size) + k]
  {
    match CheckPage(page, size)
    case Some(e) => Err(e)
    case None =>
      var total := CountAlerts(db.alerts, kind, search);
      AlertPagesBounds(total, size);
      var pages := AlertPages(total, size);
      var rows := AlertsPage(db.alerts, Offset(page, size), size, kind, search);
      Ok(AlertPage(page, size, total, pages, rows))
  }

  /** Paging through the listing with any accepted size reaches every matching alert: the
      one of rank `k` is on page `k / size + 1`, which the page count covers. */
  lemma EveryMatchingAlertIsPaged(db: Db, kind: Option<int>, search: Option<string>, size: int, k: nat)
    requires size in PageSizes && k < CountAlerts(db.alerts, kind, search)
    ensures var r := Paginated(db, k / size + 1, size, kind, search);
      && r.Ok? && k / size + 1 <= r.value.totalPages
      && k % size < |r.value.items| && r.value.items[k % size] == Listing(db.alerts, kind, search)[k]
  {
    EveryMatchingAlertIsOnItsPage(db.alerts, kind, search, size, k);
  }

  /** mark_alerta_as_ignorar_novos: 404 for an unknown id. */
  function MarkIgnore(db: Db, id: int): (r: Result<(Db, Alert), Reason>)
    ensures r.Err? <==> forall k :: 0 <= k < |db.alerts| ==> db.alerts[k].id != id
    ensures r.Err? ==> r.error == AlertNotFound
    ensures r.Ok? ==> r.value.1.id == id && r.value.1.ignoreNew
    ensures r.Ok? ==> r.value.0 == db.(alerts := r.value.0.alerts) && |r.value.0.alerts| == |db.alerts|
    ensures r.Ok? ==> AlertExists(r.value.0.alerts, r.value.1.kind, r.value.1.itemId)
  {
    match IgnoreAlert(db.alerts, id)
    case None => Err(AlertNotFound)
    case Some((alerts, a)) =>
      var k :| 0 <= k < |db.alerts| && db.alerts[k].id == id
        && a == db.alerts[k].(ignoreNew := true) && alerts == db.alerts[k := a];
      assert Blocks(alerts[k], a.kind, a.itemId);
      Ok((db.(alerts := alerts), a))
  }

  /** get_unviewed_alerts_count. */
  function UnviewedCount(db: Db): (n: nat)
    ensures n == |Filter(db.alerts, Unviewed)|
    ensures n == 0 <==> forall k :: 0 <= k < |db.alerts| ==> db.alerts[k].viewed
  {
    CountUnviewed(db.alerts)
  }

  /** mark_all_alerts_as_viewed. */
  function MarkAllAlertsViewed(db: Db): (r: Db)
    ensures r == db.(alerts := r.alerts)
    ensures UnviewedCount(r) == 0
  {
    NoneUnviewedAfterMarkAll(db.alerts);
    db.(alerts := MarkAllViewed(db.alerts))
  }

  /** delete_alerta: 404 for an unknown id, otherwise the alert is removed. */
  function Delete(db: Db, id: int): (r: Result<Db, Reason>)
    ensures r.Err? <==> forall k :: 0 <= k < |db.alerts| ==> db.alerts[k].id != id
    ensures r.Err? ==> r.error == AlertNotFound
    ensures r.Ok? ==> r.value == db.(alerts := r.value.alerts)
    ensures r.Ok? ==>
      exists k :: 0 <= k < |db.alerts| && db.alerts[k].id == id
        && (forall j :: 0 <= j < k ==> db.alerts[j].id != id)
        && r.value.alerts == db.alerts[..k] + db.alerts[k + 1..]
  {
    match DeleteAlert(db.alerts, id)
    case Err(_) => Err(AlertNotFound)
    case Ok(rest) => Ok(db.(alerts := rest))
  }

  /** Under the alerts' primary key, a deleted alert is gone and every other alert stays. */
  lemma DeleteKeepsOtherAlerts(db: Db, id: int)
    requires KeysUnique(db.alerts, AlertKey)
    requires Delete(db, id).Ok?
    ensures forall a :: a in Delete(db, id).value.alerts <==> a in db.alerts && a.id != id
  {
    DeleteRemovesOnlyThatAlert(db.alerts, id);
  }
}

=== FILE: bulk_import.dfy ===
/** ItemBulkProcessor: a spreadsheet of items imported row by row. The file is checked for
    its content type and required columns, every category it names is looked up or created
    first, then each row either increments a matching item or inserts a new one; a row
    that fails is reported with its spreadsheet line number and the session is rolled
    back. The file itself arrives already decoded into a header and rows of cells. */
module BulkImport {
  import opened Wrappers
  import opened Text
  import opened Errors
  import opened Domain
  import opened Normalize
  import opened Finder
  import opened Seqs

  /** One spreadsheet cell: empty (NaN) or its text. */
  datatype Cell = Missing | Text(s: string)

  /** `str(cell)`: an empty cell prints as "nan". */
  function CellText(c: Cell): string {
    match c
    case Missing => "nan"
    case Text(s) => s
  }

  const XlsxType: string := "application/vnd.openxmlformats-officedocument.spreadsheetml.sheet"
  const CsvType: string := "text/csv"

  const RequiredColumns: seq<string> := ["produto", "quantidade", "unidade de medida", "categoria"]

  // ----- columns -----

  /** Position of the first occurrence of `x` in `s`. */
  function PositionOf<T(==)>(s: seq<T>, x: T): (r: Option<nat>)
    ensures r.Some? ==> r.value < |s| && s[r.value] == x && x !in s[..r.value]
    ensures r.None? ==> x !in s
  {
    if |s| == 0 then None
    else if s[0] == x then Some(0)
    else match PositionOf(s[1..], x)
      case None => None
      case Some(j) => assert s[1..][..j] == s[1..j + 1]; Some(j + 1)
  }

  /** _normalize_columns: every header stripped and lower-cased. */
  function NormalizeColumns(header: seq<string>): (r: seq<string>)
    ensures |r| == |header|
    ensures forall i :: 0 <= i < |header| ==> r[i] == Lower(Strip(header[i]))
  {
    seq(|header|, i requires 0 <= i < |header| => Lower(Strip(header[i])))
  }

  /** The first column of `required`, in order, that `cols` lacks. */
  function FirstMissing(required: seq<string>, cols: seq<string>): (r: Option<string>)
    ensures r.None? <==> forall k :: 0 <= k < |required| ==> required[k] in cols
    ensures r.Some? ==> exists k :: (0 <= k < |required| && required[k] == r.value && r.value !in cols
      && (forall j :: 0 <= j < k ==> required[j] in cols))
  {
    if |required| == 0 then None
    else if required[0] !in cols then Some(required[0])
    else
      var rest := FirstMissing(required[1..], cols);
      assert forall k :: 1 <= k < |required| ==> required[k] == required[1..][k - 1];
      assert rest.Some? ==> (exists k :: (1 <= k < |required| && required[k] == rest.value && rest.value !in cols
        && (forall j :: 0 <= j < k ==> required[j] in cols))) by {
        if rest.Some? {
          var k :| 0 <= k < |required[1..]| && required[1..][k] == rest.value && rest.value !in cols
            && (forall j :: 0 <= j < k ==> required[1..][j] in cols);
          assert required[k + 1] == rest.value;
        }
      }
      rest
  }

  /** `row.get(name)`: the cell under the first column called `name`; an absent column and a
      short row read as an empty cell. */
  function CellOf(cols: seq<string>, row: seq<Cell>, name: string): Cell {
    match PositionOf(cols, name)
    case None => Missing
    case Some(i) => if i < |row| then row[i] else Missing
  }

  // ----- category pre-pass -----

  /** `dropna().astype(str).str.strip()` on the category column. */
  function RawCategories(cols: seq<string>, rows: seq<seq<Cell>>): (r: seq<string>)
    ensures |r| <= |rows|
  {
    if |rows| == 0 then []
    else
      var c := CellOf(cols, rows[0], "categoria");
      (if c.Text? then [Strip(c.s)] else []) + RawCategories(cols, rows[1..])
  }

  function NormalizeAll(raw: seq<string>): (r: seq<string>)
    ensures |r| == |raw| && forall i :: 0 <= i < |raw| ==> r[i] == NormalizeName(raw[i])
  {
    seq(|raw|, i requires 0 <= i < |raw| => NormalizeName(raw[i]))
  }

  /** `list(dict.fromkeys(s))`: each name once, at its first appearance. */
  function Dedup(s: seq<string>): (r: seq<string>)
    ensures forall x :: x in r <==> x in s
  {
    if |s| == 0 then []
    else
      var rest := Dedup(s[..|s| - 1]);
      assert s == s[..|s| - 1] + [s[|s| - 1]];
      if s[|s| - 1] in rest then rest else rest + [s[|s| - 1]]
  }

  /** The raw spelling whose normalization first gave `n`: `raw[normalized.index(n)]`. */
  function FirstSpelling(raw: seq<string>, n: string): (r: string)
    requires n in NormalizeAll(raw)
    ensures exists k :: 0 <= k < |raw| && r == raw[k] && NormalizeName(raw[k]) == n
  {
    var k := PositionOf(NormalizeAll(raw), n).value;
    raw[k]
  }

  /** The stored categories whose normalized name the file mentions, mapped name to id; a
      name stored twice maps to the later row. */
  function ExistingMap(cats: seq<Category>, names: seq<string>): (m: map<string, int>)
    ensures forall n :: n in m <==> n in names && exists k :: 0 <= k < |cats| && cats[k].name == n
    ensures forall n :: n in m ==> exists k :: 0 <= k < |cats| && cats[k].name == n && cats[k].id == m[n]
  {
    if |cats| == 0 then map[]
    else
      var last := cats[|cats| - 1];
      var m := ExistingMap(cats[..|cats| - 1], names);
      assert forall k :: 0 <= k < |cats| - 1 ==> cats[..|cats| - 1][k] == cats[k];
      if last.name in names then m[last.name := last.id] else m
  }

  /** The categories created for `names`, one per name in order, with consecutive ids from
      `start` and each name's first raw spelling as the original name. */
  function NewCategories(start: int, names: seq<string>, raw: seq<string>): (r: seq<Category>)
    requires forall k :: 0 <= k < |names| ==> names[k] in NormalizeAll(raw)
    ensures |r| == |names|
    ensures forall k :: 0 <= k < |names| ==> r[k] == Category(start + k, names[k], FirstSpelling(raw, names[k]))
  {
    seq(|names|, k requires 0 <= k < |names| => Category(start + k, names[k], FirstSpelling(raw, names[k])))
  }

  /** `category_map` after the creations: every created name maps to its new id. */
  function AddIds(m: map<string, int>, names: seq<string>, start: int): (r: map<string, int>)
    ensures forall n :: n in r <==> n in m || n in names
    ensures forall n :: n in r && n !in names ==> r[n] == m[n]
    ensures forall n :: n in names ==> exists k :: 0 <= k < |names| && names[k] == n && r[n] == start + k
  {
    if |names| == 0 then m
    else
      var last := |names| - 1;
      var r := AddIds(m, names[..last], start);
      assert names == names[..last] + [names[last]];
      assert forall k :: 0 <= k < last ==> names[..last][k] == names[k];
      r[names[last] := start + last]
  }

  /** The distinct normalized category names of the file, in first-seen order. */
  function Unique(raw: seq<string>): (r: seq<string>)
    ensures forall n :: n in r <==> n in NormalizeAll(raw)
  {
    Dedup(NormalizeAll(raw))
  }

  /** The file's names the database already has, with their ids. */
  function Existing(db: Db, raw: seq<string>): (m: map<string, int>)
    ensures forall n :: n in m <==> n in Unique(raw) && exists k :: 0 <= k < |db.categories| && db.categories[k].name == n
    ensures forall n :: n in m ==> exists k :: 0 <= k < |db.categories| && db.categories[k].name == n && db.categories[k].id == m[n]
  {
    ExistingMap(db.categories, Unique(raw))
  }

  /** The file's names still to be created, in first-seen order. */
  function ToCreate(db: Db, raw: seq<string>): (r: seq<string>)
    ensures forall k :: 0 <= k < |r| ==> r[k] in NormalizeAll(raw) && r[k] !in Existing(db, raw)
    ensures forall n :: n in NormalizeAll(raw) && n !in Existing(db, raw) ==> n in r
  {
    Filter(Unique(raw), n => n !in Existing(db, raw))
  }

  /** _fetch_or_create_categories: the category map and the session's uncommitted database
      holding the created categories. */
  function PrePass(db: Db, raw: seq<string>): (r: (Db, map<string, int>))
    ensures r.0 == db.(categories := r.0.categories, nextId := r.0.nextId)
    ensures |db.categories| <= |r.0.categories| && r.0.categories[..|db.categories|] == db.categories
    ensures forall n :: n in r.1 <==> n in NormalizeAll(raw)
  {
    var toCreate := ToCreate(db, raw);
    var created := NewCategories(db.nextId, toCreate, raw);
    var m := AddIds(Existing(db, raw), toCreate, db.nextId);
    (db.(categories := db.categories + created, nextId := db.nextId + |toCreate|), m)
  }

  /** Every name the map holds is the id of a category of the uncommitted database. */
  lemma PrePassIdsExist(db: Db, raw: seq<string>, n: string)
    requires n in PrePass(db, raw).1
    ensures exists j :: 0 <= j < |PrePass(db, raw).0.categories| && PrePass(db, raw).0.categories[j].id == PrePass(db, raw).1[n]
  {
    var toCreate := ToCreate(db, raw);
    var created := NewCategories(db.nextId, toCreate, raw);
    var r := PrePass(db, raw);
    assert r.0.categories == db.categories + created;
    if n in toCreate {
      var k :| 0 <= k < |toCreate| && toCreate[k] == n && r.1[n] == db.nextId + k;
      assert r.0.categories[|db.categories| + k] == created[k];
    } else {
      var k :| 0 <= k < |db.categories| && db.categories[k].name == n && db.categories[k].id == Existing(db, raw)[n];
      assert r.0.categories[k] == db.categories[k];
    }
  }

  /** Each created category is new, carries a name from the file and the first raw
      spelling of that name. */
  lemma PrePassCreatesFirstSpellings(db: Db, raw: seq<string>, k: nat)
    requires |db.categories| <= k < |PrePass(db, raw).0.categories|
    ensures var c := PrePass(db, raw).0.categories[k];
      && c.name in NormalizeAll(raw)
      && c.originalName == FirstSpelling(raw, c.name)
      && c.id == db.nextId + (k - |db.categories|)
      && forall j :: 0 <= j < |db.categories| ==> db.categories[j].name != c.name
  {
    var toCreate := ToCreate(db, raw);
    var created := NewCategories(db.nextId, toCreate, raw);
    PrePassAppends(db, raw);
    var t := k - |db.categories|;
    assert PrePass(db, raw).0.categories[k] == created[t];
    var n := toCreate[t];
    assert n in NormalizeAll(raw) && n !in Existing(db, raw);
    assert n in Unique(raw);
    assert !exists j :: 0 <= j < |db.categories| && db.categories[j].name == n;
  }

  /** The pre-pass appends the created categories to the stored ones. */
  lemma PrePassAppends(db: Db, raw: seq<string>)
    ensures PrePass(db, raw).0.categories == db.categories + NewCategories(db.nextId, ToCreate(db, raw), raw)
  {
  }

  /** Every raw spelling of the file has its normalized name in the pre-pass map. */
  lemma SpellingIsMapped(db: Db, raw: seq<string>, x: string)
    requires x in raw
    ensures NormalizeName(x) in PrePass(db, raw).1
  {
    var j :| 0 <= j < |raw| && raw[j] == x;
    assert NormalizeAll(raw)[j] == NormalizeName(x);
  }

  // ----- one row -----

  /** What a row needs besides its cells. */
  datatype RowEnv = RowEnv(
    cols: seq<string>,
    categories: map<string, int>,
    user: int,
    now: int,
    parseDate: string -> Option<int>)

  /** Why a row was not imported. Every kind but Unexpected is a ValueError raised by the
      row checks; Unexpected is a database failure. */
  datatype RowError =
    | BlankProduct
    | InvalidQuantity
    | QuantityNotPositive
    | BlankUnit
    | InvalidExpiry(product: string, raw: string)
    | UnknownCategory(raw: string)
    | Unexpected

  /** The row's values after the checks. */
  datatype ParsedRow = ParsedRow(
    name: string,
    quantity: int,
    unit: string,
    description: string,
    brand: Option<string>,
    expiry: Option<int>,
    categoryId: int)

  function ProductOf(env: RowEnv, row: seq<Cell>): string {
    Strip(CellText(CellOf(env.cols, row, "produto")))
  }

  function UnitOf(env: RowEnv, row: seq<Cell>): string {
    Strip(CellText(CellOf(env.cols, row, "unidade de medida")))
  }

  function CategoryOf(env: RowEnv, row: seq<Cell>): string {
    Strip(CellText(CellOf(env.cols, row, "categoria")))
  }

  /** The quantity check: digits only after stripping. */
  predicate QuantityReadable(c: Cell) {
    c.Text? && IsDigits(Strip(c.s))
  }

  /** The quantity column's value once it is readable, and 0 otherwise. */
  function QuantityOf(env: RowEnv, row: seq<Cell>): int {
    var q := CellOf(env.cols, row, "quantidade");
    if QuantityReadable(q) then DigitsValue(Strip(q.s)) else 0
  }

  /** The checks on the product, quantity and unit cells, which come before the expiry. */
  predicate CellsPass(env: RowEnv, row: seq<Cell>) {
    && ProductOf(env, row) != ""
    && QuantityReadable(CellOf(env.cols, row, "quantidade"))
    && QuantityOf(env, row) > 0
    && UnitOf(env, row) != ""
  }

  /** The description column when it holds something, else "<product> <unit>". */
  function DescriptionOf(env: RowEnv, row: seq<Cell>): (r: string)
    ensures var c := CellOf(env.cols, row, "descrição");
      r == if c.Text? && Strip(c.s) != "" then Strip(c.s) else ProductOf(env, row) + " " + UnitOf(env, row)
  {
    var c := CellOf(env.cols, row, "descrição");
    if c.Text? && Strip(c.s) != "" then Strip(c.s) else ProductOf(env, row) + " " + UnitOf(env, row)
  }

  /** The brand: none for an empty cell, otherwise the stripped text, "" included. */
  function BrandOf(env: RowEnv, row: seq<Cell>): (r: Option<string>)
    ensures r.None? <==> CellOf(env.cols, row, "marca").Missing?
  {
    match CellOf(env.cols, row, "marca")
    case Missing => None
    case Text(s) => Some(Strip(s))
  }

  /** _parse_date: none for an empty cell; otherwise the parser's day, or a failure. */
  function ExpiryOf(env: RowEnv, row: seq<Cell>): (r: Result<Option<int>, RowError>)
    ensures CellOf(env.cols, row, "validade").Missing? ==> r == Ok(None)
    ensures r.Err? <==> CellOf(env.cols, row, "validade").Text? && env.parseDate(CellOf(env.cols, row, "validade").s).None?
  {
    match CellOf(env.cols, row, "validade")
    case Missing => Ok(None)
    case Text(s) =>
      match env.parseDate(s)
      case None => Err(InvalidExpiry(ProductOf(env, row), s))
      case Some(d) => Ok(Some(d))
  }

  /** The file's category, looked up in the pre-pass map; an id of 0 counts as missing. */
  predicate CategoryKnown(env: RowEnv, row: seq<Cell>) {
    var n := NormalizeName(CategoryOf(env, row));
    n in env.categories && env.categories[n] != 0
  }

  /** Everything _process_row checks before it touches the database. */
  predicate RowIsValid(env: RowEnv, row: seq<Cell>) {
    && CellsPass(env, row)
    && ExpiryOf(env, row).Ok?
    && CategoryKnown(env, row)
  }

  /** The checks of _process_row after the product, quantity and unit cells: the expiry,
      then the category; then the parsed row. */
  function ParseRest(env: RowEnv, row: seq<Cell>): (r: Result<ParsedRow, RowError>)
    requires CellsPass(env, row)
    ensures ExpiryOf(env, row).Err? ==> r == Err(ExpiryOf(env, row).error)
    ensures ExpiryOf(env, row).Ok? && !CategoryKnown(env, row) ==> r == Err(UnknownCategory(CategoryOf(env, row)))
    ensures r.Ok? <==> ExpiryOf(env, row).Ok? && CategoryKnown(env, row)
    ensures r.Ok? ==> (
      && r.value.quantity == QuantityOf(env, row) && r.value.name == ProductOf(env, row)
      && r.value.unit == UnitOf(env, row) && r.value.description == DescriptionOf(env, row)
      && r.value.brand == BrandOf(env, row) && Ok(r.value.expiry) == ExpiryOf(env, row)
      && r.value.categoryId == env.categories[NormalizeName(CategoryOf(env, row))])
  {
    match ExpiryOf(env, row)
    case Err(e) => Err(e)
    case Ok(expiry) =>
      if !CategoryKnown(env, row) then Err(UnknownCategory(CategoryOf(env, row)))
      else Ok(ParsedRow(ProductOf(env, row), QuantityOf(env, row), UnitOf(env, row), DescriptionOf(env, row),
                        BrandOf(env, row), expiry, env.categories[NormalizeName(CategoryOf(env, row))]))
  }

  /** The checks of _process_row, in its order; the first that fails names the error. */
  function ParseRow(env: RowEnv, row: seq<Cell>): (r: Result<ParsedRow, RowError>)
    ensures ProductOf(env, row) == "" ==> r == Err(BlankProduct)
    ensures ProductOf(env, row) != "" && !QuantityReadable(CellOf(env.cols, row, "quantidade"))
      ==> r == Err(InvalidQuantity)
    ensures (ProductOf(env, row) != "" && QuantityReadable(CellOf(env.cols, row, "quantidade"))
             && QuantityOf(env, row) <= 0)
      ==> r == Err(QuantityNotPositive)
    ensures (ProductOf(env, row) != "" && QuantityReadable(CellOf(env.cols, row, "quantidade"))
             && QuantityOf(env, row) > 0 && UnitOf(env, row) == "")
      ==> r == Err(BlankUnit)
    ensures CellsPass(env, row) && ExpiryOf(env, row).Err? ==> r == Err(ExpiryOf(env, row).error)
    ensures CellsPass(env, row) && ExpiryOf(env, row).Ok? && !CategoryKnown(env, row)
      ==> r == Err(UnknownCategory(CategoryOf(env, row)))
    ensures r.Ok? <==> RowIsValid(env, row)
    ensures r.Err? && r.error.UnknownCategory? ==> r.error.raw == CategoryOf(env, row)
    ensures r.Ok? ==> (
      && r.value.quantity == QuantityOf(env, row) > 0 && r.value.name == ProductOf(env, row) != ""
      && r.value.unit == UnitOf(env, row) && r.value.description == DescriptionOf(env, row)
      && r.value.brand == BrandOf(env, row) && Ok(r.value.expiry) == ExpiryOf(env, row)
      && r.value.categoryId == env.categories[NormalizeName(CategoryOf(env, row))])
  {
    if ProductOf(env, row) == "" then Err(BlankProduct)
    else if !QuantityReadable(CellOf(env.cols, row, "quantidade")) then Err(InvalidQuantity)
    else if QuantityOf(env, row) <= 0 then Err(QuantityNotPositive)
    else if UnitOf(env, row) == "" then Err(BlankUnit)
    else ParseRest(env, row)
  }


  /** A text cell in the category column always finds its category in the pre-pass map. */
  lemma {:induction false} TextCategoryIsCollected(cols: seq<string>, rows: seq<seq<Cell>>, i: nat)
    requires i < |rows| && CellOf(cols, rows[i], "categoria").Text?
    ensures Strip(CellOf(cols, rows[i], "categoria").s) in RawCategories(cols, rows)
  {
    if i > 0 {
      assert rows[1..][i - 1] == rows[i];
      TextCategoryIsCollected(cols, rows[1..], i - 1);
    }
  }

  // ----- applying a row -----

  datatype Outcome = Created | Updated

  /** The matched item after a row adds to it: more stock, entry stamped now, description
      replaced, expiry replaced when given, brand replaced when non-empty. */
  function Restocked(item: Item, p: ParsedRow, env: RowEnv): (r: Item)
    ensures r.quantity == item.quantity + p.quantity
    ensures r.id == item.id && r.name == item.name && r.categoryId == item.categoryId
    ensures r.brand == (if TruthyStr(p.brand) then p.brand else item.brand)
    ensures r.expiry == (if p.expiry.Some? then p.expiry else item.expiry)
  {
    item.(quantity := item.quantity + p.quantity,
          entryDate := env.now,
          expiry := if p.expiry.Some? then p.expiry else item.expiry,
          brand := if TruthyStr(p.brand) then p.brand else item.brand,
          description := p.description,
          auditUser := env.user)
  }

  /** The item a row inserts when nothing matches. */
  function NewRowItem(id: int, p: ParsedRow, env: RowEnv): Item {
    Item(id, NormalizeName(p.name), p.name, p.description, p.unit, p.quantity, None, p.categoryId,
         p.expiry, p.brand, env.now, None, env.user, true)
  }

  /** The second half of _process_row: the finder's match is restocked, otherwise a new item
      is added; inserting under a category the database no longer has fails at the flush. */
  function ApplyRow(db: Db, env: RowEnv, p: ParsedRow): (r: Result<(Db, Outcome), RowError>)
    ensures r.Err? ==> r.error == Unexpected
    ensures r.Ok? ==> r.value.0 == db.(items := r.value.0.items, nextId := r.value.0.nextId)
    ensures r.Ok? && r.value.1 == Updated ==> |r.value.0.items| == |db.items| && r.value.0.nextId == db.nextId
    ensures r.Ok? && r.value.1 == Created ==> (r.value.0.items == db.items + [NewRowItem(db.nextId, p, env)]
      && r.value.0.nextId == db.nextId + 1)
    ensures r.Err? <==> (FindExactMatch(db.items, NormalizeName(p.name), p.expiry, Some(p.categoryId), p.brand).None?
      && !CategoryExists(db, p.categoryId))
  {
    match FindExactMatch(db.items, NormalizeName(p.name), p.expiry, Some(p.categoryId), p.brand)
    case Some(k) =>
      Ok((db.(items := db.items[k := Restocked(db.items[k], p, env)]), Updated))
    case None =>
      if !CategoryExists(db, p.categoryId) then Err(Unexpected)
      else Ok((db.(items := db.items + [NewRowItem(db.nextId, p, env)], nextId := db.nextId + 1), Created))
  }

  /** A row matching an item restocks the first match and changes no other row. */
  lemma RestockKeepsOtherRows(db: Db, env: RowEnv, p: ParsedRow, k: nat)
    requires FindExactMatch(db.items, NormalizeName(p.name), p.expiry, Some(p.categoryId), p.brand) == Some(k)
    ensures ApplyRow(db, env, p) == Ok((db.(items := db.items[k := Restocked(db.items[k], p, env)]), Updated))
    ensures Restocked(db.items[k], p, env).quantity == db.items[k].quantity + p.quantity
  {
  }

  /** _process_row as a whole. */
  function ProcessRow(db: Db, env: RowEnv, row: seq<Cell>): (r: Result<(Db, Outcome), RowError>)
    ensures r.Ok? ==> RowIsValid(env, row)
    ensures !RowIsValid(env, row) ==> r == Err(ParseRow(env, row).error)
    ensures r.Ok? ==> r.value.0 == db.(items := r.value.0.items, nextId := r.value.0.nextId)
    ensures r.Ok? && r.value.1 == Created ==> |r.value.0.items| == |db.items| + 1
    ensures r.Ok? && r.value.1 == Updated ==> |r.value.0.items| == |db.items|
  {
    match ParseRow(env, row)
    case Err(e) => Err(e)
    case Ok(p) => ApplyRow(db, env, p)
  }

  // ----- the loop -----

  /** One entry of the error list: the spreadsheet line (header is line 1) and the cause. */
  datatype RowFailure = RowFailure(line: int, error: RowError)

  datatype Report = Report(total: nat, created: nat, updated: nat, errors: seq<RowFailure>)

  /** The error lines are increasing and all lie within the data rows' lines. */
  predicate LinesAscending(errors: seq<RowFailure>, lo: int, hi: int) {
    && (forall k :: 0 <= k < |errors| ==> lo <= errors[k].line <= hi)
    && (forall a, b :: 0 <= a < b < |errors| ==> errors[a].line < errors[b].line)
  }

  /** How a step may change the database: only items and the id counter, one more item
      for a created row, the same number for an updated one. */
  predicate StepShape(db: Db, r: Result<(Db, Outcome), RowError>) {
    r.Ok? ==> (
      && r.value.0 == db.(items := r.value.0.items, nextId := r.value.0.nextId)
      && (r.value.1 == Created ==> |r.value.0.items| == |db.items| + 1)
      && (r.value.1 == Updated ==> |r.value.0.items| == |db.items|))
  }

  /** _process_row is such a step. */
  lemma ProcessRowShape(env: RowEnv)
    ensures forall db, row :: StepShape(db, ProcessRow(db, env, row))
  {
  }

  /** The loop of `process` from row `i` on, as written, with `step` applying one row: a
      failing row rolls the whole session back and is reported; the counters keep
      counting rows that were rolled back. */
  function LoopAsWritten(s: Session, step: (Db, seq<Cell>) -> Result<(Db, Outcome), RowError>,
                         rows: seq<seq<Cell>>, i: nat, created: nat, updated: nat, errors: seq<RowFailure>)
    : (r: (Session, nat, nat, seq<RowFailure>))
    requires i <= |rows|
    ensures r.1 + r.2 + |r.3| == created + updated + |errors| + (|rows| - i)
    ensures created <= r.1 && updated <= r.2
    ensures |errors| <= |r.3| && r.3[..|errors|] == errors
    ensures forall k :: |errors| <= k < |r.3| ==> i + 2 <= r.3[k].line <= |rows| + 1
    ensures forall a, b :: |errors| <= a < b < |r.3| ==> r.3[a].line < r.3[b].line
    ensures r.0.committed == s.committed
    decreases |rows| - i
  {
    if i == |rows| then (s, created, updated, errors)
    else
      match step(s.work, rows[i])
      case Err(e) =>
        var r := LoopAsWritten(Rollback(s), step, rows, i + 1, created, updated, errors + [RowFailure(i + 2, e)]);
        assert r.3[..|errors|] == r.3[..|errors| + 1][..|errors|];
        r
      case Ok(res) =>
        var s1 := s.(work := res.0);
        if res.1 == Created then LoopAsWritten(s1, step, rows, i + 1, created + 1, updated, errors)
        else LoopAsWritten(s1, step, rows, i + 1, created, updated + 1, errors)
  }

  /** With steps that touch only the items and the id counter, the loop's session ends as
      the work it started from when no row failed, and as the committed database (with new
      items) after a failure, since the rollback discards everything not yet committed. */
  lemma {:induction false} LoopAsWrittenTouchesOnlyItems(s: Session, step: (Db, seq<Cell>) -> Result<(Db, Outcome), RowError>,
                                                         rows: seq<seq<Cell>>, i: nat, created: nat, updated: nat,
                                                         errors: seq<RowFailure>)
    requires i <= |rows|
    requires forall db, row :: StepShape(db, step(db, row))
    ensures var r := LoopAsWritten(s, step, rows, i, created, updated, errors);
      && (|r.3| == |errors| ==> (r.0.work == s.work.(items := r.0.work.items, nextId := r.0.work.nextId)
            && |r.0.work.items| == |s.work.items| + (r.1 - created)))
      && (|r.3| > |errors| ==> r.0.work == s.committed.(items := r.0.work.items, nextId := r.0.work.nextId))
    decreases |rows| - i
  {
    if i < |rows| {
      assert StepShape(s.work, step(s.work, rows[i]));
      match step(s.work, rows[i])
      case Err(e) =>
        LoopAsWrittenTouchesOnlyItems(Rollback(s), step, rows, i + 1, created, updated, errors + [RowFailure(i + 2, e)]);
      case Ok(res) =>
        var s1 := s.(work := res.0);
        if res.1 == Created {
          LoopAsWrittenTouchesOnlyItems(s1, step, rows, i + 1, created + 1, updated, errors);
        } else {
          LoopAsWrittenTouchesOnlyItems(s1, step, rows, i + 1, created, updated + 1, errors);
        }
    }
  }

  /** The loop with a savepoint per row: a failing row leaves the session as the row found
      it, so every counted row is still there at the final commit. */
  function LoopWithSavepoints(s: Session, step: (Db, seq<Cell>) -> Result<(Db, Outcome), RowError>,
                              rows: seq<seq<Cell>>, i: nat, created: nat, updated: nat, errors: seq<RowFailure>)
    : (r: (Session, nat, nat, seq<RowFailure>))
    requires i <= |rows|
    requires forall db, row :: StepShape(db, step(db, row))
    ensures r.1 + r.2 + |r.3| == created + updated + |errors| + (|rows| - i)
    ensures created <= r.1 && updated <= r.2
    ensures |errors| <= |r.3| && r.3[..|errors|] == errors
    ensures forall k :: |errors| <= k < |r.3| ==> i + 2 <= r.3[k].line <= |rows| + 1
    ensures forall a, b :: |errors| <= a < b < |r.3| ==> r.3[a].line < r.3[b].line
    ensures r.0.committed == s.committed
    ensures |r.0.work.items| == |s.work.items| + (r.1 - created)
    ensures r.0.work == s.work.(items := r.0.work.items, nextId := r.0.work.nextId)
    decreases |rows| - i
  {
    if i == |rows| then (s, created, updated, errors)
    else
      match step(s.work, rows[i])
      case Err(e) =>
        var r := LoopWithSavepoints(s, step, rows, i + 1, created, updated, errors + [RowFailure(i + 2, e)]);
        assert r.3[..|errors|] == r.3[..|errors| + 1][..|errors|];
        r
      case Ok(res) =>
        assert StepShape(s.work, step(s.work, rows[i]));
        var s1 := s.(work := res.0);
        if res.1 == Created then LoopWithSavepoints(s1, step, rows, i + 1, created + 1, updated, errors)
        else LoopWithSavepoints(s1, step, rows, i + 1, created, updated + 1, errors)
  }

  /** The as-written loop over every row with _process_row as the step. */
  function RunAsWritten(s: Session, env: RowEnv, rows: seq<seq<Cell>>): (r: (Session, nat, nat, seq<RowFailure>))
    ensures r.1 + r.2 + |r.3| == |rows|
    ensures LinesAscending(r.3, 2, |rows| + 1)
    ensures r.0.committed == s.committed
    ensures r.3 == [] ==> (r.0.work == s.work.(items := r.0.work.items, nextId := r.0.work.nextId)
      && |r.0.work.items| == |s.work.items| + r.1)
    ensures r.3 != [] ==> r.0.work == s.committed.(items := r.0.work.items, nextId := r.0.work.nextId)
  {
    ProcessRowShape(env);
    LoopAsWrittenTouchesOnlyItems(s, (db, row) => ProcessRow(db, env, row), rows, 0, 0, 0, []);
    LoopAsWritten(s, (db, row) => ProcessRow(db, env, row), rows, 0, 0, 0, [])
  }

  /** The savepoint loop over all rows with _process_row as the step. */
  function RunWithSavepoints(s: Session, env: RowEnv, rows: seq<seq<Cell>>): (r: (Session, nat, nat, seq<RowFailure>))
    ensures r.1 + r.2 + |r.3| == |rows|
    ensures LinesAscending(r.3, 2, |rows| + 1)
    ensures r.0.committed == s.committed
    ensures |r.0.work.items| == |s.work.items| + r.1
    ensures r.0.work == s.work.(items := r.0.work.items, nextId := r.0.work.nextId)
  {
    ProcessRowShape(env);
    LoopWithSavepoints(s, (db, row) => ProcessRow(db, env, row), rows, 0, 0, 0, [])
  }

  // ----- process -----

  /** `process` up to the loop: the content type, the required columns and the category
      pre-pass. The result is the uncommitted session and the row environment. */
  function Prepare(db: Db, contentType: string, header: seq<string>, rows: seq<seq<Cell>>,
                   user: int, now: int, parseDate: string -> Option<int>)
    : (r: Result<(Session, RowEnv), Reason>)
    ensures contentType != XlsxType && contentType != CsvType ==> r == Err(InvalidContentType)
    ensures r.Err? && r.error.MissingColumn? ==> (r.error.column in RequiredColumns
      && r.error.column !in NormalizeColumns(header))
    ensures r.Ok? ==> (forall k :: 0 <= k < |RequiredColumns| ==> RequiredColumns[k] in NormalizeColumns(header))
    ensures r.Err? ==> r.error == InvalidContentType || r.error.MissingColumn?
    ensures r.Err? && r.error.MissingColumn? ==> FirstMissing(RequiredColumns, NormalizeColumns(header)) == Some(r.error.column)
    ensures r.Ok? ==> r.value.0.committed == db && r.value.1.cols == NormalizeColumns(header)
    ensures r.Ok? ==> (r.value.0.work == db.(categories := r.value.0.work.categories, nextId := r.value.0.work.nextId)
      && |db.categories| <= |r.value.0.work.categories|
      && r.value.0.work.categories[..|db.categories|] == db.categories)
    ensures r.Ok? ==> forall i :: (0 <= i < |rows| && CellOf(r.value.1.cols, rows[i], "categoria").Text? ==>
      NormalizeName(CategoryOf(r.value.1, rows[i])) in r.value.1.categories)
  {
    if contentType != XlsxType && contentType != CsvType then Err(InvalidContentType)
    else
      var cols := NormalizeColumns(header);
      match FirstMissing(RequiredColumns, cols)
      case Some(c) => Err(MissingColumn(c))
      case None =>
        var raw := RawCategories(cols, rows);
        var pre := PrePass(db, raw);
        var env := RowEnv(cols, pre.1, user, now, parseDate);
        assert forall i :: (0 <= i < |rows| && CellOf(cols, rows[i], "categoria").Text? ==>
          NormalizeName(CategoryOf(env, rows[i])) in env.categories) by {
          forall i | 0 <= i < |rows| && CellOf(cols, rows[i], "categoria").Text?
            ensures NormalizeName(CategoryOf(env, rows[i])) in env.categories
          {
            RowCategoryIsMapped(db, cols, rows, i);
          }
        }
        Ok((Session(db, pre.0), env))
  }

  /** After the pre-pass, the category of a row with a text category is in the map. */
  lemma RowCategoryIsMapped(db: Db, cols: seq<string>, rows: seq<seq<Cell>>, i: nat)
    requires i < |rows| && CellOf(cols, rows[i], "categoria").Text?
    ensures NormalizeName(Strip(CellOf(cols, rows[i], "categoria").s)) in PrePass(db, RawCategories(cols, rows)).1
  {
    TextCategoryIsCollected(cols, rows, i);
    SpellingIsMapped(db, RawCategories(cols, rows), Strip(CellOf(cols, rows[i], "categoria").s));
  }

  /** ItemBulkProcessor.process as written: prepare, run the loop, commit. */
  function ProcessAsWritten(db: Db, contentType: string, header: seq<string>, rows: seq<seq<Cell>>,
                            user: int, now: int, parseDate: string -> Option<int>)
    : (r: Result<(Db, Report), Reason>)
    ensures r.Ok? ==> r.value.1.total == |rows|
    ensures r.Ok? ==> r.value.1.created + r.value.1.updated + |r.value.1.errors| == |rows|
    ensures r.Ok? ==> LinesAscending(r.value.1.errors, 2, |rows| + 1)
    ensures contentType != XlsxType && contentType != CsvType ==> r == Err(InvalidContentType)
    ensures r.Err? ==> r.error == InvalidContentType || r.error.MissingColumn?
    ensures r.Err? && r.error.MissingColumn? ==> FirstMissing(RequiredColumns, NormalizeColumns(header)) == Some(r.error.column)
    ensures r.Ok? ==> (r.value.0.users == db.users && r.value.0.withdrawals == db.withdrawals
      && r.value.0.alerts == db.alerts && r.value.0.sectors == db.sectors)
    ensures r.Ok? && r.value.1.errors == [] ==> (|r.value.0.items| == |db.items| + r.value.1.created
      && |db.categories| <= |r.value.0.categories| && r.value.0.categories[..|db.categories|] == db.categories)
    ensures r.Ok? && r.value.1.errors != [] ==> r.value.0.categories == db.categories
  {
    var (s, env) :- Prepare(db, contentType, header, rows, user, now, parseDate);
    var out := RunAsWritten(s, env, rows);
    Ok((Commit(out.0).committed, Report(|rows|, out.1, out.2, out.3)))
  }

  /** `process` with a savepoint per row: a report of the same shape, every created row in
      the committed table, and the pre-pass categories kept whatever the rows hold. */
  function Process(db: Db, contentType: string, header: seq<string>, rows: seq<seq<Cell>>,
                   user: int, now: int, parseDate: string -> Option<int>)
    : (r: Result<(Db, Report), Reason>)
    ensures r.Ok? ==> r.value.1.total == |rows|
    ensures r.Ok? ==> r.value.1.created + r.value.1.updated + |r.value.1.errors| == |rows|
    ensures r.Ok? ==> LinesAscending(r.value.1.errors, 2, |rows| + 1)
    ensures contentType != XlsxType && contentType != CsvType ==> r == Err(InvalidContentType)
    ensures r.Err? ==> r.error == InvalidContentType || r.error.MissingColumn?
    ensures r.Err? && r.error.MissingColumn? ==> FirstMissing(RequiredColumns, NormalizeColumns(header)) == Some(r.error.column)
    ensures r.Ok? ==> |r.value.0.items| == |db.items| + r.value.1.created
    ensures r.Ok? ==> (r.value.0.users == db.users && r.value.0.withdrawals == db.withdrawals
      && r.value.0.alerts == db.alerts && r.value.0.sectors == db.sectors)
    ensures r.Ok? ==> |db.categories| <= |r.value.0.categories| && r.value.0.categories[..|db.categories|] == db.categories
  {
    var (s, env) :- Prepare(db, contentType, header, rows, user, now, parseDate);
    var out := RunWithSavepoints(s, env, rows);
    Ok((Commit(out.0).committed, Report(|rows|, out.1, out.2, out.3)))
  }

  /** As written, a row that fails after a row that created an item rolls that item back,
      though the report still counts it as created. */
  lemma RollbackLosesCountedRow(s: Session, env: RowEnv, good: seq<Cell>, bad: seq<Cell>)
    requires s.committed.items == []
    requires ProcessRow(s.work, env, good).Ok? && ProcessRow(s.work, env, good).value.1 == Created
    requires !RowIsValid(env, bad)
    ensures var out := LoopAsWritten(s, (db, row) => ProcessRow(db, env, row), [good, bad], 0, 0, 0, []);
      out.1 == 1 && Commit(out.0).committed.items == []
  {
    var step := (db, row) => ProcessRow(db, env, row);
    var s1 := s.(work := ProcessRow(s.work, env, good).value.0);
    assert step(s1.work, bad).Err?;
    var out := LoopAsWritten(s, step, [good, bad], 0, 0, 0, []);
    assert out == LoopAsWritten(s1, step, [good, bad], 1, 1, 0, []);
    assert out == LoopAsWritten(Rollback(s1), step, [good, bad], 2, 1, 0, [RowFailure(3, ParseRow(env, bad).error)]);
  }

  /** With savepoints the same two rows leave the created item in place. */
  lemma SavepointKeepsCountedRow(s: Session, env: RowEnv, good: seq<Cell>, bad: seq<Cell>)
    requires ProcessRow(s.work, env, good).Ok? && ProcessRow(s.work, env, good).value.1 == Created
    requires !RowIsValid(env, bad)
    ensures var out := RunWithSavepoints(s, env, [good, bad]);
      out.1 == 1 && |Commit(out.0).committed.items| == |s.work.items| + 1
  {
    ProcessRowShape(env);
    var step := (db, row) => ProcessRow(db, env, row);
    var s1 := s.(work := ProcessRow(s.work, env, good).value.0);
    assert step(s1.work, bad).Err?;
    var out := LoopWithSavepoints(s, step, [good, bad], 0, 0, 0, []);
    assert out == LoopWithSavepoints(s1, step, [good, bad], 1, 1, 0, []);
    assert out == LoopWithSavepoints(s1, step, [good, bad], 2, 1, 0, [RowFailure(3, ParseRow(env, bad).error)]);
  }
}

=== FILE: config_loader.dfy ===
/** ConfigLoader: the `.env` parser and the lookup with its precedence. */
module ConfigLoader {
  import opened Wrappers
  import opened Text

  type Config = map<string, string>

  /** What one line of the file is. */
  datatype LineKind = Skip | Entry(key: string, value: string) | Malformed

  /** A stripped line that is empty or starts with '#' is skipped; otherwise it splits at
      its first '=' into a stripped key and a stripped value; without '=' the unpacking of
      the split raises. */
  function ParseLine(line: string): (r: LineKind)
    ensures r == Skip <==> Strip(line) == "" || StartsWith(Strip(line), "#")
    ensures r == Malformed <==> !(Strip(line) == "" || StartsWith(Strip(line), "#")) && '=' !in Strip(line)
    ensures r.Entry? ==> (
      && SplitFirst(Strip(line), '=').Some?
      && r.key == Strip(SplitFirst(Strip(line), '=').value.0)
      && r.value == Strip(SplitFirst(Strip(line), '=').value.1))
  {
    var t := Strip(line);
    if t == "" || StartsWith(t, "#") then Skip
    else match SplitFirst(t, '=')
      case None => Malformed
      case Some(parts) => Entry(Strip(parts.0), Strip(parts.1))
  }

  /** Every line of the file, parsed. */
  function ParseAll(lines: seq<string>): (r: seq<LineKind>)
    ensures |r| == |lines| && forall k :: 0 <= k < |lines| ==> r[k] == ParseLine(lines[k])
  {
    seq(|lines|, k requires 0 <= k < |lines| => ParseLine(lines[k]))
  }

  /** The loop of load_config over the parsed lines: entries are written into the
      configuration as they are read, a later key overwriting an earlier one; a malformed
      line raises, leaving what was read before it in place (`Err` carries that). */
  function Apply(config: Config, kinds: seq<LineKind>): (r: Result<Config, Config>)
    ensures r.Ok? ==> config.Keys <= r.value.Keys
    ensures r.Err? ==> config.Keys <= r.error.Keys
    decreases |kinds|
  {
    if |kinds| == 0 then Ok(config)
    else match kinds[0]
      case Skip => Apply(config, kinds[1..])
      case Malformed => Err(config)
      case Entry(k, v) => Apply(config[k := v], kinds[1..])
  }

  /** load_config over the lines of an existing file. */
  function LoadLines(config: Config, lines: seq<string>): (r: Result<Config, Config>)
    ensures r.Ok? ==> config.Keys <= r.value.Keys
    ensures r.Err? ==> config.Keys <= r.error.Keys
  {
    Apply(config, ParseAll(lines))
  }

  /** load_config: a missing file (None) leaves the configuration as it is. */
  function LoadConfig(config: Config, file: Option<seq<string>>): (r: Result<Config, Config>)
    ensures file.None? ==> r == Ok(config)
  {
    match file
    case None => Ok(config)
    case Some(lines) => LoadLines(config, lines)
  }

  /** The value the parsed lines give for `key`: the last entry for it, if any. */
  function LastValue(kinds: seq<LineKind>, key: string): Option<string> {
    if |kinds| == 0 then None
    else
      var p := kinds[|kinds| - 1];
      if p.Entry? && p.key == key then Some(p.value) else LastValue(kinds[..|kinds| - 1], key)
  }

  /** The value the file gives for `key`: the last entry for it, if any. */
  function LastEntry(lines: seq<string>, key: string): Option<string> {
    LastValue(ParseAll(lines), key)
  }

  /** A file without malformed lines loads to the earlier configuration overwritten by
      each key's last entry. */
  lemma LoadedValueIsLastEntry(config: Config, lines: seq<string>, key: string)
    requires forall k :: 0 <= k < |lines| ==> ParseLine(lines[k]) != Malformed
    ensures LoadLines(config, lines).Ok?
    ensures key in LoadLines(config, lines).value <==> key in config || LastEntry(lines, key).Some?
    ensures key in LoadLines(config, lines).value ==>
      LoadLines(config, lines).value[key] == if LastEntry(lines, key).Some? then LastEntry(lines, key).value else config[key]
  {
    AppliedIsLastValue(config, ParseAll(lines), key);
  }

  /** The same over the parsed lines, by induction on the last line. */
  lemma {:induction false} AppliedIsLastValue(config: Config, kinds: seq<LineKind>, key: string)
    requires forall k :: 0 <= k < |kinds| ==> kinds[k] != Malformed
    ensures Apply(config, kinds).Ok?
    ensures key in Apply(config, kinds).value <==> key in config || LastValue(kinds, key).Some?
    ensures key in Apply(config, kinds).value ==>
      Apply(config, kinds).value[key] == if LastValue(kinds, key).Some? then LastValue(kinds, key).value else config[key]
    decreases |kinds|
  {
    if |kinds| > 0 {
      var init := kinds[..|kinds| - 1];
      var last := kinds[|kinds| - 1];
      assert kinds == init + [last];
      assert forall k :: 0 <= k < |init| ==> init[k] == kinds[k];
      AppliedIsLastValue(config, init, key);
      var c := Apply(config, init).value;
      ApplySnoc(config, init, last);
      ApplyOne(c, last);
    }
  }

  /** Applying a single line. */
  lemma ApplyOne(config: Config, p: LineKind)
    ensures Apply(config, [p]) == match p
      case Skip => Ok(config)
      case Malformed => Err(config)
      case Entry(k, v) => Ok(config[k := v])
  {
    assert [p][1..] == [];
  }

  /** A malformed line anywhere makes loading raise. */
  lemma MalformedLineRaises(config: Config, lines: seq<string>, i: nat)
    requires i < |lines| && ParseLine(lines[i]).Malformed?
    ensures LoadLines(config, lines).Err?
  {
    MalformedRaises(config, ParseAll(lines), i);
  }

  /** The same over the parsed lines. */
  lemma {:induction false} MalformedRaises(config: Config, kinds: seq<LineKind>, i: nat)
    requires i < |kinds| && kinds[i].Malformed?
    ensures Apply(config, kinds).Err?
    decreases i
  {
    if i > 0 {
      var rest := kinds[1..];
      assert rest[i - 1] == kinds[i];
      match kinds[0]
      case Skip => MalformedRaises(config, rest, i - 1);
      case Malformed =>
      case Entry(k, v) => MalformedRaises(config[k := v], rest, i - 1);
    }
  }

  /** Applying the parsed lines is applying all but the last, then the last. */
  lemma {:induction false} ApplySnoc(config: Config, init: seq<LineKind>, last: LineKind)
    ensures Apply(config, init + [last]) ==
      match Apply(config, init)
      case Err(c) => Err(c)
      case Ok(c) => Apply(c, [last])
    decreases |init|
  {
    if |init| == 0 {
      assert init + [last] == [last];
    } else {
      assert (init + [last])[1..] == init[1..] + [last];
      assert (init + [last])[0] == init[0];
      match init[0]
      case Skip => ApplySnoc(config, init[1..], last);
      case Malformed =>
      case Entry(k, v) => ApplySnoc(config[k := v], init[1..], last);
    }
  }

  /** Loading a file is loading all but its last line, then that line. */
  lemma LoadSnoc(config: Config, init: seq<string>, last: string)
    ensures LoadLines(config, init + [last]) ==
      match LoadLines(config, init)
      case Err(c) => Err(c)
      case Ok(c) => LoadLines(c, [last])
  {
    assert ParseAll(init + [last]) == ParseAll(init) + [ParseLine(last)];
    assert ParseAll([last]) == [ParseLine(last)];
    ApplySnoc(config, ParseAll(init), ParseLine(last));
  }

  /** A text whose ends are not whitespace is its own strip. */
  lemma StripKeeps(s: string)
    requires |s| > 0 && !IsSpace(s[0]) && !IsSpace(s[|s| - 1])
    ensures Strip(s) == s
  {
  }

  /** Only the first '=' splits: a value may itself hold '='. */
  lemma ValueKeepsLaterEquals(key: string, value: string)
    requires |key| > 0 && !IsSpace(key[0]) && key[0] != '#' && '=' !in key
    requires |value| > 0 && !IsSpace(value[|value| - 1])
    ensures ParseLine(key + "=" + value) == Entry(Strip(key), Strip(value))
  {
    var line := key + "=" + value;
    assert line[0] == key[0] && line[|line| - 1] == value[|value| - 1];
    StripKeeps(line);
    SplitsAtKey(key, value);
    assert !StartsWith(line, "#");
  }

  /** A line splits at the '=' after the key, leaving the whole value, '=' included. */
  lemma SplitsAtKey(key: string, value: string)
    requires '=' !in key
    ensures SplitFirst(key + "=" + value, '=') == Some((key, value))
  {
    var line := key + "=" + value;
    FirstAfterPrefix(key, "=" + value, '=');
    assert line == key + ("=" + value);
    assert line[..|key|] == key;
    assert line[|key| + 1..] == value;
  }

  /** The first `c` in `prefix + rest` is the head of `rest` when `prefix` has none. */
  lemma {:induction false} FirstAfterPrefix(prefix: string, rest: string, c: char)
    requires c !in prefix && |rest| > 0 && rest[0] == c
    ensures Text.IndexOf(prefix + rest, c) == Some(|prefix|)
  {
    if |prefix| > 0 {
      assert (prefix + rest)[1..] == prefix[1..] + rest;
      FirstAfterPrefix(prefix[1..], rest, c);
    }
  }

  /** get: the file's value, else the environment's, else the default; with `required`,
      a resolved None raises (an empty string does not). */
  function Get(config: Config, env: map<string, string>, key: string, default: Option<string>, required: bool)
    : (r: Result<Option<string>, string>)
    ensures key in config ==> r == Ok(Some(config[key]))
    ensures key !in config && key in env ==> r == Ok(Some(env[key]))
    ensures key !in config && key !in env ==> (r.Err? <==> required && default.None?)
    ensures key !in config && key !in env && r.Ok? ==> r.value == default
    ensures r.Err? ==> r.error == key
  {
    var value := if key in config then Some(config[key]) else if key in env then Some(env[key]) else default;
    if required && value.None? then Err(key) else Ok(value)
  }
}

=== FILE: domain.dfy ===
/** The stock-room database: items, categories, sectors, users, withdrawal requests and
    alerts, each table a sequence of rows in storage order, plus the notifications the
    services push to connected clients.

    Instants (DateTime columns) and days (Date columns) are integers in microseconds; a
    day is the instant of its midnight. Row ids come from one counter that a transaction
    rollback does not rewind, as database sequences behave. */
module Domain {
  import opened Wrappers

  const Second: int := 1_000_000
  const Day: int := 86_400 * Second

  datatype Category = Category(id: int, name: string, originalName: string)

  datatype Sector = Sector(id: int, name: string)

  datatype Item = Item(
    id: int,
    name: string,            // normalized key (nome_item)
    originalName: string,    // as typed, stripped (nome_item_original)
    description: string,
    unit: string,
    quantity: int,
    minimum: Option<int>,
    categoryId: int,
    expiry: Option<int>,
    brand: Option<string>,
    entryDate: int,
    exitDate: Option<int>,
    auditUser: int,
    active: bool)

  /** The withdrawal workflow states with their stored codes. */
  datatype Status = Pending | Authorized | Completed | Denied {
    function Code(): int {
      match this
      case Pending => 1
      case Authorized => 2
      case Completed => 3
      case Denied => 4
    }
  }

  /** The status with a given code, if there is one. */
  function StatusOf(code: int): (r: Option<Status>)
    ensures r.Some? <==> 1 <= code <= 4
    ensures r.Some? ==> r.value.Code() == code
  {
    if code == 1 then Some(Pending)
    else if code == 2 then Some(Authorized)
    else if code == 3 then Some(Completed)
    else if code == 4 then Some(Denied)
    else None
  }

  lemma StatusCodeRoundTrip(s: Status)
    ensures StatusOf(s.Code()) == Some(s)
  {
  }

  /** One requested item of a withdrawal (retirada_item). */
  datatype Line = Line(itemId: int, quantity: int)

  datatype Withdrawal = Withdrawal(
    id: int,
    requester: int,
    authorizer: Option<int>,
    sectorId: int,
    status: Status,
    detail: Option<string>,
    justification: Option<string>,
    localRequester: Option<string>,
    requestedAt: int,
    active: bool,
    lines: seq<Line>)

  const LowStockKind: int := 1
  const NearExpiryKind: int := 2

  datatype Alert = Alert(
    id: int,
    kind: int,
    itemId: int,
    message: string,
    createdAt: int,
    viewed: bool,
    ignoreNew: bool)

  datatype User = User(
    id: int,
    name: string,
    email: string,
    username: Option<string>,
    siape: Option<int>,
    kind: int,
    sectorId: int,
    password: string,
    active: bool)

  datatype Db = Db(
    items: seq<Item>,
    categories: seq<Category>,
    sectors: seq<Sector>,
    users: seq<User>,
    withdrawals: seq<Withdrawal>,
    alerts: seq<Alert>,
    nextId: int)

  /** What the services send over the notification registry. */
  datatype Message =
    | NewAlert(alertId: int, text: string)
    | NewWithdrawalRequest(withdrawalId: int, sectorId: int)
    | StatusUpdate(withdrawalId: int, status: Status)

  datatype Push = Broadcast(message: Message) | ToUser(userId: int, message: Message)

  /** A unit of work: what other sessions see (`committed`) and what this one has
      written so far (`work`). */
  datatype Session = Session(committed: Db, work: Db)

  function Begin(db: Db): (s: Session)
    ensures s.committed == s.work == db
  {
    Session(db, db)
  }

  function Commit(s: Session): (r: Session)
    ensures r.committed == r.work == s.work
  {
    Session(s.work, s.work)
  }

  /** Discards the uncommitted writes; ids already drawn stay drawn. */
  function Rollback(s: Session): (r: Session)
    ensures r.committed == s.committed
    ensures r.work == s.committed.(nextId := s.work.nextId)
  {
    var back := s.committed.(nextId := s.work.nextId);
    Session(s.committed, back)
  }

  // ----- lookups by key -----

  /** Index of the first element of `s` whose key is `id`: the `filter_by(id=...).first()`
      of every table. */
  function FindBy<T>(s: seq<T>, key: T -> int, id: int): (r: Option<nat>)
    ensures r.Some? ==> r.value < |s| && key(s[r.value]) == id
    ensures r.Some? ==> forall k :: 0 <= k < r.value ==> key(s[k]) != id
    ensures r.None? ==> forall k :: 0 <= k < |s| ==> key(s[k]) != id
  {
    if |s| == 0 then None
    else if key(s[0]) == id then Some(0)
    else match FindBy(s[1..], key, id)
      case None => None
      case Some(j) => Some(j + 1)
  }

  /** Index of the first item with id `id`. */
  function FindItem(items: seq<Item>, id: int): (r: Option<nat>)
    ensures r.Some? ==> r.value < |items| && items[r.value].id == id
    ensures r.Some? ==> forall k :: 0 <= k < r.value ==> items[k].id != id
    ensures r.None? ==> forall k :: 0 <= k < |items| ==> items[k].id != id
  {
    FindBy(items, (x: Item) => x.id, id)
  }

  /** Index of the first withdrawal with id `id`. */
  function FindWithdrawal(ws: seq<Withdrawal>, id: int): (r: Option<nat>)
    ensures r.Some? ==> r.value < |ws| && ws[r.value].id == id
    ensures r.Some? ==> forall k :: 0 <= k < r.value ==> ws[k].id != id
    ensures r.None? ==> forall k :: 0 <= k < |ws| ==> ws[k].id != id
  {
    FindBy(ws, (x: Withdrawal) => x.id, id)
  }

  /** Index of the first alert with id `id`. */
  function FindAlert(alerts: seq<Alert>, id: int): (r: Option<nat>)
    ensures r.Some? ==> r.value < |alerts| && alerts[r.value].id == id
    ensures r.Some? ==> forall k :: 0 <= k < r.value ==> alerts[k].id != id
    ensures r.None? ==> forall k :: 0 <= k < |alerts| ==> alerts[k].id != id
  {
    FindBy(alerts, (x: Alert) => x.id, id)
  }

  /** Index of the first user with id `id`. */
  function FindUser(users: seq<User>, id: int): (r: Option<nat>)
    ensures r.Some? ==> r.value < |users| && users[r.value].id == id
    ensures r.Some? ==> forall k :: 0 <= k < r.value ==> users[k].id != id
    ensures r.None? ==> forall k :: 0 <= k < |users| ==> users[k].id != id
  {
    FindBy(users, (x: User) => x.id, id)
  }

  predicate CategoryExists(db: Db, id: int) {
    exists k :: 0 <= k < |db.categories| && db.categories[k].id == id
  }

  predicate SectorExists(db: Db, id: int) {
    exists k :: 0 <= k < |db.sectors| && db.sectors[k].id == id
  }

  predicate ItemExists(db: Db, id: int) {
    exists k :: 0 <= k < |db.items| && db.items[k].id == id
  }

  predicate UserExists(db: Db, id: int) {
    exists k :: 0 <= k < |db.users| && db.users[k].id == id
  }

  /** Rows that refer to item `id` through a foreign key: withdrawal lines and alerts. */
  predicate ItemReferenced(db: Db, id: int) {
    (exists w, l :: 0 <= w < |db.withdrawals| && 0 <= l < |db.withdrawals[w].lines|
       && db.withdrawals[w].lines[l].itemId == id)
    || (exists a :: 0 <= a < |db.alerts| && db.alerts[a].itemId == id)
  }

  /** Rows that refer to user `id` through a foreign key: an item's audit user, and a
      withdrawal's requester or authoriser. */
  predicate UserReferenced(db: Db, id: int) {
    (exists k :: 0 <= k < |db.items| && db.items[k].auditUser == id)
    || (exists w :: 0 <= w < |db.withdrawals|
          && (db.withdrawals[w].requester == id || db.withdrawals[w].authorizer == Some(id)))
  }

  /** No two rows of `s` share a key: a primary key. */
  predicate KeysUnique<T>(s: seq<T>, key: T -> int) {
    forall i, j :: 0 <= i < j < |s| ==> key(s[i]) != key(s[j])
  }

  /** Under a primary key, removing the row at `i` removes exactly the rows with its key. */
  lemma RemoveKeyed<T>(s: seq<T>, key: T -> int, i: nat)
    requires i < |s| && KeysUnique(s, key)
    ensures forall x :: x in RemoveAt(s, i) <==> x in s && key(x) != key(s[i])
  {
    var r := RemoveAt(s, i);
    forall x | x in r
      ensures x in s && key(x) != key(s[i])
    {
      var j :| 0 <= j < |r| && r[j] == x;
      if j < i {
        assert x == s[j];
      } else {
        assert x == s[j + 1];
      }
    }
    forall x | x in s && key(x) != key(s[i])
      ensures x in r
    {
      var j :| 0 <= j < |s| && s[j] == x;
      if j < i {
        assert r[j] == x;
      } else {
        assert j != i;
        assert r[j - 1] == x;
      }
    }
  }

  /** `s` without its element at index `i`. */
  function RemoveAt<T>(s: seq<T>, i: nat): (r: seq<T>)
    requires i < |s|
    ensures |r| == |s| - 1
    ensures forall k :: 0 <= k < i ==> r[k] == s[k]
    ensures forall k :: i <= k < |r| ==> r[k] == s[k + 1]
  {
    s[..i] + s[i + 1..]
  }
}

=== FILE: errors.dfy ===
/** The HTTP errors the services raise, one constructor per distinct cause. */
module Errors {

  datatype Reason =
    // withdrawals
    | InvalidStatus
    | WithdrawalNotFound
    | InsufficientStock(itemName: string, available: int, requested: int)
    | RequestFailed
    | StatusUpdateFailed
    | NoWithdrawals
    // paging
    | InvalidPageSize
    | InvalidPage
    // items
    | ItemNotFound
    | MissingFields(fields: seq<string>)
    | NonPositiveQuantity
    | BlankItemName
    | CategoryNotFound
    | ItemWriteFailed
    | InvalidContentType
    | MissingColumn(column: string)
    // alerts
    | AlertNotFound
    | NoAlerts
    // users
    | UsersAlreadyExist
    | UserNotFound
    | NoPermission
    | FieldInUse(field: string)
    | InvalidUserType
    | SectorNotFound
    | CooldownActive
    // an exception no handler turns into an HTTP error
    | UnhandledError

  /** The HTTP status code each cause is reported with. */
  function StatusCode(r: Reason): int {
    match r
    case InvalidStatus => 400
    case WithdrawalNotFound => 404
    case InsufficientStock(_, _, _) => 400
    case RequestFailed => 500
    case StatusUpdateFailed => 500
    case NoWithdrawals => 404
    case InvalidPageSize => 400
    case InvalidPage => 400
    case ItemNotFound => 404
    case MissingFields(_) => 400
    case NonPositiveQuantity => 400
    case BlankItemName => 400
    case CategoryNotFound => 400
    case ItemWriteFailed => 500
    case InvalidContentType => 400
    case MissingColumn(_) => 400
    case AlertNotFound => 404
    case NoAlerts => 404
    case UsersAlreadyExist => 403
    case UserNotFound => 404
    case NoPermission => 403
    case FieldInUse(_) => 400
    case InvalidUserType => 400
    case SectorNotFound => 404
    case CooldownActive => 429
    case UnhandledError => 500
  }
}

=== FILE: finder.dfy ===
/** ItemFinder.find_exact_match: the item identity used by create, update and bulk import.
    An item is identified by its normalized name, category, expiry day and brand; an absent
    expiry or brand matches only an absent one, and "" is a brand distinct from none. */
module Finder {
  import opened Wrappers
  import opened Domain

  /** The query's WHERE clause for one row, branch by branch: `= value` when a value is
      given and `IS NULL` when it is not. A category of None compares with `IS NULL`,
      which no stored item satisfies. */
  predicate Matches(item: Item, name: string, expiry: Option<int>, categoryId: Option<int>,
                    brand: Option<string>)
  {
    && item.name == name
    && categoryId.Some? && item.categoryId == categoryId.value
    && (if expiry.Some? then item.expiry.Some? && item.expiry.value == expiry.value
        else item.expiry.None?)
    && (if brand.Some? then item.brand.Some? && item.brand.value == brand.value
        else item.brand.None?)
  }

  /** The identity of an item as one value. */
  datatype Key = Key(name: string, categoryId: Option<int>, expiry: Option<int>, brand: Option<string>)

  function KeyOf(item: Item): Key {
    Key(item.name, Some(item.categoryId), item.expiry, item.brand)
  }

  /** The clause-by-clause test is equality of identity keys: None matches only None, and
      a given value only the same value. */
  lemma MatchesIffSameKey(item: Item, name: string, expiry: Option<int>, categoryId: Option<int>,
                          brand: Option<string>)
    ensures Matches(item, name, expiry, categoryId, brand)
      <==> KeyOf(item) == Key(name, categoryId, expiry, brand)
  {
  }

  /** The first item (in storage order) that matches, as an index into `items`. */
  function FindExactMatch(items: seq<Item>, name: string, expiry: Option<int>,
                          categoryId: Option<int>, brand: Option<string>): (r: Option<nat>)
    ensures r.Some? ==> r.value < |items| && Matches(items[r.value], name, expiry, categoryId, brand)
    ensures r.Some? ==> forall k :: 0 <= k < r.value ==> !Matches(items[k], name, expiry, categoryId, brand)
    ensures r.None? ==> forall k :: 0 <= k < |items| ==> !Matches(items[k], name, expiry, categoryId, brand)
  {
    if |items| == 0 then None
    else if Matches(items[0], name, expiry, categoryId, brand) then Some(0)
    else match FindExactMatch(items[1..], name, expiry, categoryId, brand)
      case None => None
      case Some(j) => Some(j + 1)
  }

  /** No match means no stored item carries that identity. */
  lemma NoMatchMeansNoSuchKey(items: seq<Item>, name: string, expiry: Option<int>,
                              categoryId: Option<int>, brand: Option<string>)
    requires FindExactMatch(items, name, expiry, categoryId, brand).None?
    ensures forall k :: 0 <= k < |items| ==> KeyOf(items[k]) != Key(name, categoryId, expiry, brand)
  {
    forall k | 0 <= k < |items|
      ensures KeyOf(items[k]) != Key(name, categoryId, expiry, brand)
    {
      MatchesIffSameKey(items[k], name, expiry, categoryId, brand);
    }
  }

  /** The finder answers with the position of the first matching row, wherever it is. */
  lemma {:induction false} FindsFirstMatch(items: seq<Item>, name: string, expiry: Option<int>,
                                           categoryId: Option<int>, brand: Option<string>, k: nat)
    requires k < |items| && Matches(items[k], name, expiry, categoryId, brand)
    requires forall j :: 0 <= j < k ==> !Matches(items[j], name, expiry, categoryId, brand)
    ensures FindExactMatch(items, name, expiry, categoryId, brand) == Some(k)
  {
    if k > 0 {
      assert !Matches(items[0], name, expiry, categoryId, brand);
      FindsFirstMatch(items[1..], name, expiry, categoryId, brand, k - 1);
    }
  }

  /** A brand of "" and no brand are different identities. */
  lemma EmptyBrandIsNotNoBrand(item: Item)
    requires item.brand == Some("")
    ensures !Matches(item, item.name, item.expiry, Some(item.categoryId), None)
    ensures Matches(item, item.name, item.expiry, Some(item.categoryId), Some(""))
  {
  }
}

=== FILE: frontend_state.dfy ===
/** estadoGlobal: the front end's shared state of the withdrawal screens, its two status
    tables and the setters that update it. */
module FrontendState {
  import opened Wrappers
  import opened Domain
  import opened Paging

  /** The page-size choices every listing offers. */
  const PageSizeOptions: seq<int> := [5, 10, 25, 50, 100]

  /** statusMap: status code to the label shown. */
  const StatusLabels: map<int, string> := map[1 := "PENDENTE", 2 := "AUTORIZADA", 3 := "CONCLUÍDA", 4 := "NEGADA"]

  /** statusMapUpdate: the name a form sends to the code the API expects. */
  const StatusCodes: map<string, int> := map["PENDENTE" := 1, "AUTORIZADA" := 2, "CONCLUIDA" := 3, "NEGADA" := 4]

  /** getStatusText: the label of a code, `Desconhecido` for any other value. */
  function StatusText(code: int): (r: string)
    ensures code in StatusLabels <==> StatusOf(code).Some?
    ensures StatusOf(code).None? ==> r == "Desconhecido"
  {
    if code in StatusLabels then StatusLabels[code] else "Desconhecido"
  }

  /** The labelled codes and the sendable codes are both exactly the codes of the API's
      statuses; the page sizes offered are the ones the API accepts. */
  lemma TablesMatchTheApi()
    ensures forall c :: c in StatusLabels <==> StatusOf(c).Some?
    ensures forall n | n in StatusCodes :: StatusOf(StatusCodes[n]).Some?
    ensures forall s: Status :: exists n :: n in StatusCodes && StatusCodes[n] == s.Code()
    ensures PageSizeOptions == PageSizes
  {
    forall s: Status
      ensures exists n :: n in StatusCodes && StatusCodes[n] == s.Code()
    {
      match s
      case Pending => assert StatusCodes["PENDENTE"] == 1;
      case Authorized => assert StatusCodes["AUTORIZADA"] == 2;
      case Completed => assert StatusCodes["CONCLUIDA"] == 3;
      case Denied => assert StatusCodes["NEGADA"] == 4;
    }
  }

  /** A label read back through the sending table gives its code again, except the label of
      a completed withdrawal, which carries an accent the sending key lacks. */
  lemma LabelsRoundTrip()
    ensures forall c | c in StatusLabels && c != Completed.Code() :: StatusLabels[c] in StatusCodes && StatusCodes[StatusLabels[c]] == c
    ensures StatusLabels[Completed.Code()] !in StatusCodes
  {
    assert StatusLabels[3] == "CONCLUÍDA";
    assert "CONCLUÍDA" != "CONCLUIDA" by {
      assert "CONCLUÍDA"[6] != "CONCLUIDA"[6];
    }
  }

  /** The listing state of one screen. */
  datatype Listing = Listing(current: int, totalPages: int, pageSize: int)

  /** The shared state. The rows are kept as the API sent them. */
  datatype State = State(
    allWithdrawals: seq<Withdrawal>,
    pendingWithdrawals: seq<Withdrawal>,
    ownWithdrawals: seq<Withdrawal>,
    history: Listing,
    historyFilters: map<string, string>,
    pending: Listing,
    own: Listing)

  /** The state at load: every listing on page 1 of 1 with 10 rows a page, no filter. */
  const Initial: State := State([], [], [], Listing(1, 1, 10), map[], Listing(1, 1, 10), Listing(1, 1, 10))

  /** The initial page size is one of the options offered, so the selector starts with a
      selection. */
  lemma InitialSizeIsOffered()
    ensures Initial.history.pageSize in PageSizeOptions && Initial.pending.pageSize in PageSizeOptions
    ensures Initial.own.pageSize in PageSizeOptions
  {
  }

  /** setHistoricoPagination: the history listing and a copy of its filters change, nothing
      else. */
  function SetHistoryPagination(s: State, current: int, totalPages: int, pageSize: int, filters: map<string, string>)
    : (r: State)
    ensures r.history == Listing(current, totalPages, pageSize) && r.historyFilters == filters
    ensures r.(history := s.history, historyFilters := s.historyFilters) == s
  {
    s.(history := Listing(current, totalPages, pageSize), historyFilters := filters)
  }

  /** setPendentesPagination: the pending listing changes, nothing else. */
  function SetPendingPagination(s: State, current: int, totalPages: int, pageSize: int): (r: State)
    ensures r.pending == Listing(current, totalPages, pageSize)
    ensures r.(pending := s.pending) == s
  {
    s.(pending := Listing(current, totalPages, pageSize))
  }

  /** setMinhasRetiradasPagination: the own-withdrawals listing changes, nothing else. */
  function SetOwnPagination(s: State, current: int, totalPages: int, pageSize: int): (r: State)
    ensures r.own == Listing(current, totalPages, pageSize)
    ensures r.(own := s.own) == s
  {
    s.(own := Listing(current, totalPages, pageSize))
  }

  /** setAllRetiradas, setPendentesRetiradas, setMinhasRetiradas: one list replaced. */
  function SetAll(s: State, rows: seq<Withdrawal>): (r: State)
    ensures r.allWithdrawals == rows && r.(allWithdrawals := s.allWithdrawals) == s
  {
    s.(allWithdrawals := rows)
  }

  function SetPending(s: State, rows: seq<Withdrawal>): (r: State)
    ensures r.pendingWithdrawals == rows && r.(pendingWithdrawals := s.pendingWithdrawals) == s
  {
    s.(pendingWithdrawals := rows)
  }

  function SetOwn(s: State, rows: seq<Withdrawal>): (r: State)
    ensures r.ownWithdrawals == rows && r.(ownWithdrawals := s.ownWithdrawals) == s
  {
    s.(ownWithdrawals := rows)
  }

  /** Setters of different screens commute, and setting one twice keeps the last values. */
  lemma SettersAreIndependent(s: State, a: Listing, b: Listing, c: Listing, f: map<string, string>,
                               g: map<string, string>)
    ensures SetPendingPagination(SetHistoryPagination(s, a.current, a.totalPages, a.pageSize, f), b.current, b.totalPages, b.pageSize)
      == SetHistoryPagination(SetPendingPagination(s, b.current, b.totalPages, b.pageSize), a.current, a.totalPages, a.pageSize, f)
    ensures SetOwnPagination(SetPendingPagination(s, b.current, b.totalPages, b.pageSize), c.current, c.totalPages, c.pageSize)
      == SetPendingPagination(SetOwnPagination(s, c.current, c.totalPages, c.pageSize), b.current, b.totalPages, b.pageSize)
    ensures SetOwnPagination(SetHistoryPagination(s, a.current, a.totalPages, a.pageSize, f), c.current, c.totalPages, c.pageSize)
      == SetHistoryPagination(SetOwnPagination(s, c.current, c.totalPages, c.pageSize), a.current, a.totalPages, a.pageSize, f)
    ensures SetHistoryPagination(SetHistoryPagination(s, b.current, b.totalPages, b.pageSize, g), a.current, a.totalPages, a.pageSize, f)
      == SetHistoryPagination(s, a.current, a.totalPages, a.pageSize, f)
    ensures SetPendingPagination(SetPendingPagination(s, a.current, a.totalPages, a.pageSize), b.current, b.totalPages, b.pageSize)
      == SetPendingPagination(s, b.current, b.totalPages, b.pageSize)
    ensures SetOwnPagination(SetOwnPagination(s, b.current, b.totalPages, b.pageSize), c.current, c.totalPages, c.pageSize)
      == SetOwnPagination(s, c.current, c.totalPages, c.pageSize)
  {
  }

  /** The three list setters commute, and setting a list twice keeps the last rows. */
  lemma ListSettersAreIndependent(s: State, x: seq<Withdrawal>, y: seq<Withdrawal>, z: seq<Withdrawal>)
    ensures SetPending(SetAll(s, x), y) == SetAll(SetPending(s, y), x)
    ensures SetOwn(SetAll(s, x), z) == SetAll(SetOwn(s, z), x)
    ensures SetOwn(SetPending(s, y), z) == SetPending(SetOwn(s, z), y)
    ensures SetAll(SetAll(s, y), x) == SetAll(s, x)
    ensures SetPending(SetPending(s, x), y) == SetPending(s, y)
    ensures SetOwn(SetOwn(s, y), z) == SetOwn(s, z)
  {
  }
}

=== FILE: item_repository.dfy ===
/** ItemRepository's queries over the item table. No query filters on the `active` flag. */
module ItemRepository {
  import opened Wrappers
  import opened Text
  import opened Domain
  import opened Seqs
  import opened Paging

  /** get_items_expiring_before: a stored expiry on or before `date`; NULL never compares. */
  predicate ExpiresBy(item: Item, date: int) {
    item.expiry.Some? && item.expiry.value <= date
  }

  function ExpiringBefore(items: seq<Item>, date: int): (r: seq<Item>)
    ensures forall k :: 0 <= k < |r| ==> r[k] in items && r[k].expiry.Some? && r[k].expiry.value <= date
    ensures forall k :: (0 <= k < |items| && items[k].expiry.Some? && items[k].expiry.value <= date
      ==> items[k] in r)
  {
    Filter(items, i => ExpiresBy(i, date))
  }

  /** find_low_stock: quantity at or below a stored minimum. */
  predicate AtOrBelowMinimum(item: Item) {
    item.minimum.Some? && item.quantity <= item.minimum.value
  }

  function FindLowStock(items: seq<Item>): (r: seq<Item>)
    ensures forall k :: 0 <= k < |r| ==> r[k] in items && r[k].minimum.Some? && r[k].quantity <= r[k].minimum.value
    ensures forall k :: (0 <= k < |items| && items[k].minimum.Some? && items[k].quantity <= items[k].minimum.value
      ==> items[k] in r)
  {
    Filter(items, AtOrBelowMinimum)
  }

  /** The search filter: an absent or empty id list and an absent or empty name apply no
      condition; the name is an ILIKE substring test against the normalized name. */
  predicate SearchMatches(item: Item, categoryIds: Option<seq<int>>, name: Option<string>) {
    && (categoryIds.Some? && categoryIds.value != [] ==> item.categoryId in categoryIds.value)
    && (name.Some? && name.value != "" ==> ContainsIgnoreCase(item.name, name.value))
  }

  function CountFiltered(items: seq<Item>, categoryIds: Option<seq<int>>, name: Option<string>): (n: nat)
    ensures n <= |items|
  {
    CountWhere(items, i => SearchMatches(i, categoryIds, name))
  }

  /** The rows the search pages through: the matching items, in the order the table
      yields them (the query has no ORDER BY). */
  function Searched(items: seq<Item>, categoryIds: Option<seq<int>>, name: Option<string>): (r: seq<Item>)
    ensures |r| == CountFiltered(items, categoryIds, name)
    ensures forall k :: 0 <= k < |r| ==> r[k] in items && SearchMatches(r[k], categoryIds, name)
    ensures forall k :: 0 <= k < |items| && SearchMatches(items[k], categoryIds, name) ==> items[k] in r
  {
    CountIsFilterLength(items, i => SearchMatches(i, categoryIds, name));
    Filter(items, i => SearchMatches(i, categoryIds, name))
  }

  /** get_filtered_paginated: OFFSET/LIMIT over the searched rows. */
  function FilteredPage(items: seq<Item>, categoryIds: Option<seq<int>>, name: Option<string>,
                        offset: nat, limit: nat): (r: seq<Item>)
    ensures offset >= CountFiltered(items, categoryIds, name) ==> r == []
    ensures offset < CountFiltered(items, categoryIds, name) ==>
      |r| == Min(limit, CountFiltered(items, categoryIds, name) - offset)
    ensures forall k :: 0 <= k < |r| ==>
      offset + k < CountFiltered(items, categoryIds, name) && r[k] == Searched(items, categoryIds, name)[offset + k]
    ensures forall k :: 0 <= k < |r| ==> r[k] in items && SearchMatches(r[k], categoryIds, name)
  {
    var all := Searched(items, categoryIds, name);
    var w := Window(all, offset, limit);
    assert forall k :: 0 <= k < |w| ==> w[k] in all;
    w
  }

  /** The searched row of rank `k` is on page `k / size + 1`, at position `k % size`. */
  lemma EverySearchedItemIsOnItsPage(items: seq<Item>, categoryIds: Option<seq<int>>, name: Option<string>,
                                     size: nat, k: nat)
    requires size > 0 && k < CountFiltered(items, categoryIds, name)
    ensures var page := k / size + 1;
      && 1 <= page <= CeilPages(CountFiltered(items, categoryIds, name), size)
      && Offset(page, size) >= 0
      && k % size < |FilteredPage(items, categoryIds, name, Offset(page, size), size)|
      && FilteredPage(items, categoryIds, name, Offset(page, size), size)[k % size]
         == Searched(items, categoryIds, name)[k]
  {
    RowIsOnItsPage(Searched(items, categoryIds, name), size, k);
  }

  /** The count equals the number of rows the page query draws its pages from. */
  lemma CountMatchesRows(items: seq<Item>, categoryIds: Option<seq<int>>, name: Option<string>)
    ensures CountFiltered(items, categoryIds, name)
      == |Filter(items, i => SearchMatches(i, categoryIds, name))|
  {
    CountIsFilterLength(items, i => SearchMatches(i, categoryIds, name));
  }

  /** With neither filter the search is the whole table. */
  lemma NoFilterIsEverything(items: seq<Item>)
    ensures Filter(items, i => SearchMatches(i, None, None)) == items
    ensures Filter(items, i => SearchMatches(i, Some([]), Some(""))) == items
  {
    FilterAll(items, i => SearchMatches(i, None, None));
    FilterAll(items, i => SearchMatches(i, Some([]), Some("")));
  }

  /** One row of get_items_period: the item joined with its category's original name. */
  datatype PeriodRow = PeriodRow(itemId: int, originalName: string, quantity: int, entryDate: int,
                                 categoryOriginalName: string)

  function CategoryName(categories: seq<Category>, id: int): (r: Option<string>)
    ensures r.Some? <==> exists k :: 0 <= k < |categories| && categories[k].id == id
  {
    if |categories| == 0 then None
    else if categories[0].id == id then Some(categories[0].originalName)
    else
      var rest := CategoryName(categories[1..], id);
      assert forall k :: 1 <= k < |categories| ==> categories[k] == categories[1..][k - 1];
      rest
  }

  /** The items get_items_period reports: entered between the two instants, both
      included, and joining with a category. */
  predicate Reported(it: Item, categories: seq<Category>, start: int, end: int) {
    start <= it.entryDate <= end && CategoryName(categories, it.categoryId).Some?
  }

  function ReportedIn(categories: seq<Category>, start: int, end: int): Item -> bool {
    (it: Item) => Reported(it, categories, start, end)
  }

  /** The row reported for an item: its id, original name, quantity and entry date, and the
      original name of the category it joins with. */
  function RowFor(it: Item, categories: seq<Category>): PeriodRow
    requires CategoryName(categories, it.categoryId).Some?
  {
    PeriodRow(it.id, it.originalName, it.quantity, it.entryDate, CategoryName(categories, it.categoryId).value)
  }

  /** `row` is the row of some reported item of `items`. */
  predicate RowOfReported(items: seq<Item>, categories: seq<Category>, start: int, end: int, row: PeriodRow) {
    exists m :: 0 <= m < |items| && Reported(items[m], categories, start, end) && row == RowFor(items[m], categories)
  }

  /** get_items_period: one row per reported item, in storage order. */
  function ItemsPeriod(items: seq<Item>, categories: seq<Category>, start: int, end: int): (r: seq<PeriodRow>)
    ensures |r| == CountWhere(items, ReportedIn(categories, start, end))
    ensures forall k :: 0 <= k < |r| ==> RowOfReported(items, categories, start, end, r[k])
    ensures forall m :: 0 <= m < |items| && Reported(items[m], categories, start, end) ==>
      RowFor(items[m], categories) in r
  {
    var chosen := Filter(items, ReportedIn(categories, start, end));
    CountIsFilterLength(items, ReportedIn(categories, start, end));
    var r := seq(|chosen|, k requires 0 <= k < |chosen| => RowFor(chosen[k], categories));
    RowsAreReported(items, categories, start, end, chosen, r);
    ReportedHaveRows(items, categories, start, end, chosen, r);
    r
  }

  lemma RowsAreReported(items: seq<Item>, categories: seq<Category>, start: int, end: int,
                        chosen: seq<Item>, r: seq<PeriodRow>)
    requires chosen == Filter(items, ReportedIn(categories, start, end))
    requires |r| == |chosen| && forall k :: 0 <= k < |r| ==> Reported(chosen[k], categories, start, end) && r[k] == RowFor(chosen[k], categories)
    ensures forall k :: 0 <= k < |r| ==> RowOfReported(items, categories, start, end, r[k])
  {
    forall k | 0 <= k < |r|
      ensures RowOfReported(items, categories, start, end, r[k])
    {
      assert chosen[k] in items;
      var m :| 0 <= m < |items| && items[m] == chosen[k];
      assert Reported(items[m], categories, start, end);
    }
  }

  lemma ReportedHaveRows(items: seq<Item>, categories: seq<Category>, start: int, end: int,
                         chosen: seq<Item>, r: seq<PeriodRow>)
    requires chosen == Filter(items, ReportedIn(categories, start, end))
    requires |r| == |chosen| && forall k :: 0 <= k < |r| ==> Reported(chosen[k], categories, start, end) && r[k] == RowFor(chosen[k], categories)
    ensures forall m :: 0 <= m < |items| && Reported(items[m], categories, start, end) ==>
      RowFor(items[m], categories) in r
  {
    forall m | 0 <= m < |items| && Reported(items[m], categories, start, end)
      ensures RowFor(items[m], categories) in r
    {
      assert ReportedIn(categories, start, end)(items[m]);
      assert items[m] in chosen;
      var j :| 0 <= j < |chosen| && chosen[j] == items[m];
      assert r[j] == RowFor(items[m], categories);
    }
  }

  /** Widening the period loses no row. */
  lemma PeriodWidens(items: seq<Item>, categories: seq<Category>, start: int, end: int, start2: int, end2: int)
    requires start2 <= start && end <= end2
    ensures forall k :: 0 <= k < |ItemsPeriod(items, categories, start, end)| ==>
      ItemsPeriod(items, categories, start, end)[k] in ItemsPeriod(items, categories, start2, end2)
  {
    var r := ItemsPeriod(items, categories, start, end);
    forall k | 0 <= k < |r|
      ensures r[k] in ItemsPeriod(items, categories, start2, end2)
    {
      assert RowOfReported(items, categories, start, end, r[k]);
      var m :| 0 <= m < |items| && Reported(items[m], categories, start, end) && r[k] == RowFor(items[m], categories);
      assert Reported(items[m], categories, start2, end2);
    }
  }

  /** An item entered exactly on either bound is reported. */
  lemma PeriodIsInclusive(it: Item, categories: seq<Category>, start: int, end: int)
    requires CategoryName(categories, it.categoryId).Some?
    requires it.entryDate == start || it.entryDate == end
    requires start <= end
    ensures |ItemsPeriod([it], categories, start, end)| == 1
  {
    assert [it][1..] == [];
  }
}

=== FILE: item_service.dfy ===
/** ItemService: item creation that merges into an existing item of the same identity,
    updates that either patch the item or merge it into another, deletion, and the two
    paginated listings. Every write commits at once; a failed write leaves the database
    as it was. */
module ItemService {
  import opened Wrappers
  import opened Text
  import opened Errors
  import opened Domain
  import opened Normalize
  import opened Finder
  import opened ItemValidator
  import opened Paging
  import opened ItemRepository

  // ----- total stock -----

  /** The total quantity held by a table of items. */
  function Stock(items: seq<Item>): int {
    if |items| == 0 then 0 else items[0].quantity + Stock(items[1..])
  }

  lemma {:induction false} StockAppend(items: seq<Item>, x: Item)
    ensures Stock(items + [x]) == Stock(items) + x.quantity
  {
    if |items| > 0 {
      assert (items + [x])[1..] == items[1..] + [x];
      StockAppend(items[1..], x);
    }
  }

  lemma {:induction false} StockUpdate(items: seq<Item>, j: nat, x: Item)
    requires j < |items|
    ensures Stock(items[j := x]) == Stock(items) - items[j].quantity + x.quantity
  {
    if j == 0 {
      assert items[j := x][1..] == items[1..];
    } else {
      assert items[j := x][1..] == items[1..][j - 1 := x];
      StockUpdate(items[1..], j - 1, x);
    }
  }

  lemma {:induction false} StockRemove(items: seq<Item>, k: nat)
    requires k < |items|
    ensures Stock(RemoveAt(items, k)) == Stock(items) - items[k].quantity
  {
    if k == 0 {
      assert RemoveAt(items, k) == items[1..];
    } else {
      assert RemoveAt(items, k) == [items[0]] + RemoveAt(items[1..], k - 1);
      StockRemove(items[1..], k - 1);
    }
  }

  // ----- create -----

  /** The normalized name a create request is filed under. */
  function CreateName(c: ItemCreate): string {
    NormalizeName(Strip(c.name.GetOr("")))
  }

  /** _increment_existing_item: adds the quantity and takes the entry date (or now); the
      expiry is replaced when given, the minimum when truthy (0 is ignored), the brand
      when truthy ("" is ignored). The audit user stays, as the request has none. */
  function Incremented(item: Item, c: ItemCreate, now: int): (r: Item)
    requires c.quantity.Some?
    ensures r.quantity == item.quantity + c.quantity.value
    ensures r == item.(quantity := r.quantity, entryDate := r.entryDate, expiry := r.expiry,
                       minimum := r.minimum, brand := r.brand)
    ensures c.expiry.None? ==> r.expiry == item.expiry
    ensures !TruthyInt(c.minimum) ==> r.minimum == item.minimum
    ensures !TruthyStr(c.brand) ==> r.brand == item.brand
  {
    item.(quantity := item.quantity + c.quantity.value,
          entryDate := c.entryDate.GetOr(now),
          expiry := if c.expiry.Some? then c.expiry else item.expiry,
          minimum := if TruthyInt(c.minimum) then c.minimum else item.minimum,
          brand := if TruthyStr(c.brand) then c.brand else item.brand)
  }

  /** Incrementing an item found under a key keeps it under that key. */
  lemma IncrementKeepsIdentity(item: Item, c: ItemCreate, now: int)
    requires c.quantity.Some?
    requires Matches(item, CreateName(c), c.expiry, c.categoryId, c.brand)
    ensures Matches(Incremented(item, c, now), CreateName(c), c.expiry, c.categoryId, c.brand)
  {
  }

  /** The row a create request inserts when nothing matches. */
  function NewItem(c: ItemCreate, id: int, user: int, now: int): (r: Item)
    requires c.categoryId.Some? && c.quantity.Some?
    ensures r.id == id && r.auditUser == user && r.active
    ensures Matches(r, CreateName(c), c.expiry, c.categoryId, c.brand)
    ensures r.originalName == Strip(c.name.GetOr("")) && r.quantity == c.quantity.value
    ensures r.description == c.description.GetOr("") && r.unit == c.unit.GetOr("")
    ensures r.minimum == c.minimum && r.exitDate.None?
    ensures r.entryDate == if c.entryDate.Some? then c.entryDate.value else now
  {
    Item(id, CreateName(c), Strip(c.name.GetOr("")), c.description.GetOr(""), c.unit.GetOr(""),
         c.quantity.value, c.minimum, c.categoryId.value, c.expiry, c.brand,
         c.entryDate.GetOr(now), None, user, true)
  }

  /** The merge branch of create_item: the found row is incremented in place and is still
      the first row under the request's identity. */
  function IncrementAt(db: Db, k: nat, c: ItemCreate, now: int): (r: (Db, Item))
    requires c.quantity.Some? && k < |db.items|
    requires FindExactMatch(db.items, CreateName(c), c.expiry, c.categoryId, c.brand) == Some(k)
    ensures r.0 == db.(items := db.items[k := r.1])
    ensures r.1 == Incremented(db.items[k], c, now)
    ensures Stock(r.0.items) == Stock(db.items) + c.quantity.value
    ensures FindExactMatch(r.0.items, CreateName(c), c.expiry, c.categoryId, c.brand) == Some(k)
  {
    var updated := Incremented(db.items[k], c, now);
    var items := db.items[k := updated];
    IncrementKeepsIdentity(db.items[k], c, now);
    FindsFirstMatch(items, CreateName(c), c.expiry, c.categoryId, c.brand, k);
    StockUpdate(db.items, k, updated);
    (db.(items := items), updated)
  }

  /** The insert branch of create_item: the new row goes last and is the first row under
      the request's identity. */
  function InsertNew(db: Db, c: ItemCreate, user: int, now: int): (r: (Db, Item))
    requires c.quantity.Some? && c.categoryId.Some?
    requires FindExactMatch(db.items, CreateName(c), c.expiry, c.categoryId, c.brand).None?
    ensures r.0 == db.(items := db.items + [r.1], nextId := db.nextId + 1)
    ensures r.1 == NewItem(c, db.nextId, user, now)
    ensures Stock(r.0.items) == Stock(db.items) + c.quantity.value
    ensures FindExactMatch(r.0.items, CreateName(c), c.expiry, c.categoryId, c.brand) == Some(|db.items|)
  {
    var row := NewItem(c, db.nextId, user, now);
    var items := db.items + [row];
    FindsFirstMatch(items, CreateName(c), c.expiry, c.categoryId, c.brand, |db.items|);
    StockAppend(db.items, row);
    (db.(items := items, nextId := db.nextId + 1), row)
  }

  /** create_item. A missing category is reported as the 400 the integrity handler gives
      for the item's category foreign key. */
  function CreateItem(db: Db, c: ItemCreate, user: int, now: int): (r: Result<(Db, Item), Reason>)
    ensures ValidateOnCreate(c).Some? ==> r == Err(ValidateOnCreate(c).value)
    ensures ValidateOnCreate(c).None? ==>
      (r.Err? <==> FindExactMatch(db.items, CreateName(c), c.expiry, c.categoryId, c.brand).None?
                   && !CategoryExists(db, c.categoryId.GetOr(0)))
    ensures ValidateOnCreate(c).None? && r.Err? ==> r.error == CategoryNotFound
    ensures r.Ok? ==> c.quantity.Some? && c.categoryId.Some?
    ensures r.Ok? && FindExactMatch(db.items, CreateName(c), c.expiry, c.categoryId, c.brand).Some? ==>
      var k := FindExactMatch(db.items, CreateName(c), c.expiry, c.categoryId, c.brand).value;
      r.value.1 == Incremented(db.items[k], c, now) && r.value.0.items == db.items[k := r.value.1]
    ensures r.Ok? && FindExactMatch(db.items, CreateName(c), c.expiry, c.categoryId, c.brand).None? ==>
      r.value.1 == NewItem(c, db.nextId, user, now)
    ensures r.Ok? ==> r.value.0 == db.(items := r.value.0.items, nextId := r.value.0.nextId)
    ensures r.Ok? ==> Stock(r.value.0.items) == Stock(db.items) + c.quantity.GetOr(0)
    ensures r.Ok? ==> (match FindExactMatch(r.value.0.items, CreateName(c), c.expiry, c.categoryId, c.brand)
      case Some(k) => k < |r.value.0.items| && r.value.0.items[k] == r.value.1
      case None => false)
    ensures r.Ok? && FindExactMatch(db.items, CreateName(c), c.expiry, c.categoryId, c.brand).Some? ==>
      |r.value.0.items| == |db.items| && r.value.0.nextId == db.nextId
    ensures r.Ok? && FindExactMatch(db.items, CreateName(c), c.expiry, c.categoryId, c.brand).None? ==>
      r.value.0.items == db.items + [r.value.1] && r.value.1.id == db.nextId
      && r.value.0.nextId == db.nextId + 1
  {
    match ValidateOnCreate(c)
    case Some(e) => Err(e)
    case None =>
      PassingCreateIsComplete(c);
      match FindExactMatch(db.items, CreateName(c), c.expiry, c.categoryId, c.brand)
      case Some(k) => Ok(IncrementAt(db, k, c, now))
      case None =>
        if !CategoryExists(db, c.categoryId.value) then Err(CategoryNotFound)
        else Ok(InsertNew(db, c, user, now))
  }

  /** Sending the same create request twice adds no second row: the second request finds
      the first one's row and increments it. */
  lemma CreateTwiceAddsOneRow(db: Db, c: ItemCreate, user: int, now: int, later: int)
    requires CreateItem(db, c, user, now).Ok?
    ensures CreateItem(CreateItem(db, c, user, now).value.0, c, user, later).Ok?
    ensures |CreateItem(CreateItem(db, c, user, now).value.0, c, user, later).value.0.items|
      == |CreateItem(db, c, user, now).value.0.items|
  {
  }

  // ----- update -----

  /** A sent null on a NOT NULL column (or on the name, whose `.strip()` then fails) makes
      the update end in an unhandled error. */
  predicate ClearsRequired(u: ItemUpdate) {
    || u.name.Null? || u.description.Null? || u.unit.Null? || u.quantity.Null?
    || u.categoryId.Null? || u.entryDate.Null? || u.active.Null?
  }

  /** The identity the item would have after the update. */
  function NewName(item: Item, u: ItemUpdate): string {
    if u.name.Value? then NormalizeName(Strip(u.name.v)) else item.name
  }

  function NewCategory(item: Item, u: ItemUpdate): Option<int> {
    u.categoryId.ApplyTo(Some(item.categoryId))
  }

  /** The patch path: each sent field overwrites the column, the name in both its stripped
      and normalized forms, and the audit user becomes the caller. */
  function Patched(item: Item, u: ItemUpdate, user: int): (r: Item)
    requires !ClearsRequired(u)
    ensures r.id == item.id && r.auditUser == user
    ensures u.name.Absent? ==> r.name == item.name && r.originalName == item.originalName
    ensures u.name.Value? ==> r.originalName == Strip(u.name.v) && r.name == NormalizeName(r.originalName)
    ensures u.description.Absent? ==> r.description == item.description
    ensures u.unit.Absent? ==> r.unit == item.unit
    ensures u.quantity.Absent? ==> r.quantity == item.quantity
    ensures u.quantity.Value? ==> r.quantity == u.quantity.v
    ensures Some(r.categoryId) == NewCategory(item, u)
    ensures r.expiry == u.expiry.ApplyTo(item.expiry) && r.brand == u.brand.ApplyTo(item.brand)
    ensures r.minimum == u.minimum.ApplyTo(item.minimum) && r.exitDate == u.exitDate.ApplyTo(item.exitDate)
    ensures u.entryDate.Absent? ==> r.entryDate == item.entryDate
    ensures u.active.Absent? ==> r.active == item.active
  {
    item.(name := NewName(item, u),
          originalName := if u.name.Value? then Strip(u.name.v) else item.originalName,
          description := u.description.ApplyTo(Some(item.description)).GetOr(item.description),
          unit := u.unit.ApplyTo(Some(item.unit)).GetOr(item.unit),
          quantity := u.quantity.ApplyTo(Some(item.quantity)).GetOr(item.quantity),
          categoryId := NewCategory(item, u).GetOr(item.categoryId),
          expiry := u.expiry.ApplyTo(item.expiry),
          entryDate := u.entryDate.ApplyTo(Some(item.entryDate)).GetOr(item.entryDate),
          exitDate := u.exitDate.ApplyTo(item.exitDate),
          minimum := u.minimum.ApplyTo(item.minimum),
          brand := u.brand.ApplyTo(item.brand),
          active := u.active.ApplyTo(Some(item.active)).GetOr(item.active),
          auditUser := user)
  }

  /** The merge path: the target takes the edited item's stored quantity (a quantity sent
      in the update plays no part), and minimum, expiry and brand when they were sent. */
  function Merged(target: Item, item: Item, u: ItemUpdate, user: int): (r: Item)
    ensures r.id == target.id && r.quantity == target.quantity + item.quantity
    ensures r == target.(quantity := r.quantity, minimum := r.minimum, expiry := r.expiry,
                         brand := r.brand, auditUser := user)
    ensures r.minimum == u.minimum.ApplyTo(target.minimum)
    ensures r.expiry == u.expiry.ApplyTo(target.expiry) && r.brand == u.brand.ApplyTo(target.brand)
  {
    target.(quantity := target.quantity + item.quantity,
            minimum := u.minimum.ApplyTo(target.minimum),
            expiry := u.expiry.ApplyTo(target.expiry),
            brand := u.brand.ApplyTo(target.brand),
            auditUser := user)
  }

  /** Where the update goes: the first item matching the new identity, when it is another
      item than the edited one. */
  function MergeTarget(db: Db, item: Item, u: ItemUpdate): (r: Option<nat>)
    ensures r.Some? ==> r.value < |db.items| && db.items[r.value].id != item.id
    ensures r.Some? ==> Matches(db.items[r.value], NewName(item, u), u.expiry.ApplyTo(item.expiry),
                                NewCategory(item, u), u.brand.ApplyTo(item.brand))
  {
    match FindExactMatch(db.items, NewName(item, u), u.expiry.ApplyTo(item.expiry),
                         NewCategory(item, u), u.brand.ApplyTo(item.brand))
    case Some(j) => if db.items[j].id != item.id then Some(j) else None
    case None => None
  }

  /** update_item. */
  function UpdateItem(db: Db, id: int, u: ItemUpdate, user: int): (r: Result<(Db, Item), Reason>)
    ensures FindItem(db.items, id).None? ==> r == Err(ItemNotFound)
    ensures FindItem(db.items, id).Some? && ValidateOnUpdate(u).Some? ==> r == Err(ValidateOnUpdate(u).value)
    ensures FindItem(db.items, id).Some? && ValidateOnUpdate(u).None? && u.name.Null? ==> r == Err(UnhandledError)
    ensures r.Ok? ==> r.value.0 == db.(items := r.value.0.items)
    ensures r.Ok? ==> FindItem(db.items, id).Some?
    ensures r.Ok? && |r.value.0.items| == |db.items| ==>
      var k := FindItem(db.items, id).value;
      !ClearsRequired(u) && r.value.0.items == db.items[k := r.value.1] && r.value.1 == Patched(db.items[k], u, user)
    ensures r.Ok? && |r.value.0.items| != |db.items| ==>
      |r.value.0.items| == |db.items| - 1 && r.value.1.id != id
      && Stock(r.value.0.items) == Stock(db.items)
    ensures (FindItem(db.items, id).Some? && ValidateOnUpdate(u).None? && !u.name.Null?
             && MergeTarget(db, db.items[FindItem(db.items, id).value], u).Some?) ==>
      var k := FindItem(db.items, id).value;
      var j := MergeTarget(db, db.items[k], u).value;
      if ItemReferenced(db, id) then r == Err(UnhandledError)
      else
        && r.Ok? && r.value.1 == Merged(db.items[j], db.items[k], u, user)
        && r.value.0.items == RemoveAt(db.items[j := r.value.1], k)
    ensures (FindItem(db.items, id).Some? && ValidateOnUpdate(u).None? && !u.name.Null?
             && MergeTarget(db, db.items[FindItem(db.items, id).value], u).None?) ==>
      var k := FindItem(db.items, id).value;
      if ClearsRequired(u) || (u.categoryId.Value? && !CategoryExists(db, u.categoryId.v)) then r == Err(UnhandledError)
      else
        && r.Ok? && r.value.1 == Patched(db.items[k], u, user)
        && r.value.0.items == db.items[k := r.value.1]
  {
    match FindItem(db.items, id)
    case None => Err(ItemNotFound)
    case Some(k) =>
      var item := db.items[k];
      match ValidateOnUpdate(u)
      case Some(e) => Err(e)
      case None =>
        if u.name.Null? then Err(UnhandledError)
        else match MergeTarget(db, item, u)
          case Some(j) =>
            if ItemReferenced(db, id) then Err(UnhandledError)
            else
              var merged := Merged(db.items[j], item, u, user);
              var step := db.items[j := merged];
              StockUpdate(db.items, j, merged);
              assert step[k] == item;
              StockRemove(step, k);
              Ok((db.(items := RemoveAt(step, k)), merged))
          case None =>
            if ClearsRequired(u) then Err(UnhandledError)
            else if u.categoryId.Value? && !CategoryExists(db, u.categoryId.v) then Err(UnhandledError)
            else
              var patched := Patched(item, u, user);
              Ok((db.(items := db.items[k := patched]), patched))
  }

  /** A merge moves stock and never creates or loses any: the target gains exactly what
      the removed item held. */
  lemma MergeMovesStock(db: Db, id: int, u: ItemUpdate, user: int)
    requires UpdateItem(db, id, u, user).Ok?
    requires |UpdateItem(db, id, u, user).value.0.items| != |db.items|
    ensures var k := FindItem(db.items, id).value;
      UpdateItem(db, id, u, user).value.1.quantity
        == db.items[MergeTarget(db, db.items[k], u).value].quantity + db.items[k].quantity
  {
  }

  /** An update that sends nothing but the same name keeps the item where it is, changes
      nothing but the audit user, and never merges into another item. */
  lemma EmptyUpdateOnlyStampsUser(db: Db, id: int, user: int)
    requires FindItem(db.items, id).Some?
    requires FindExactMatch(db.items, db.items[FindItem(db.items, id).value].name,
      db.items[FindItem(db.items, id).value].expiry, Some(db.items[FindItem(db.items, id).value].categoryId),
      db.items[FindItem(db.items, id).value].brand) == FindItem(db.items, id)
    ensures var none := ItemUpdate(Absent, Absent, Absent, Absent, Absent, Absent, Absent, Absent, Absent, Absent, Absent);
      var k := FindItem(db.items, id).value;
      UpdateItem(db, id, none, user) == Ok((db.(items := db.items[k := db.items[k].(auditUser := user)]),
                                            db.items[k].(auditUser := user)))
  {
  }

  // ----- reads and delete -----

  /** get_itens: every item, or 404 when there are none. */
  function AllItems(db: Db): (r: Result<seq<Item>, Reason>)
    ensures r.Err? <==> db.items == []
    ensures r.Err? ==> r.error == ItemNotFound
    ensures r.Ok? ==> r.value == db.items
  {
    if db.items == [] then Err(ItemNotFound) else Ok(db.items)
  }

  /** get_item_by_id. */
  function ItemById(db: Db, id: int): (r: Result<Item, Reason>)
    ensures r.Err? <==> forall k :: 0 <= k < |db.items| ==> db.items[k].id != id
    ensures r.Err? ==> r.error == ItemNotFound
    ensures r.Ok? ==> r.value.id == id && r.value in db.items
  {
    match FindItem(db.items, id)
    case None => Err(ItemNotFound)
    case Some(k) => Ok(db.items[k])
  }

  /** delete_item: 404 for an unknown id; an item a withdrawal line or an alert refers to
      cannot be deleted (the foreign key fails and nothing changes). */
  function DeleteItem(db: Db, id: int): (r: Result<Db, Reason>)
    ensures r.Err? <==> (forall k :: 0 <= k < |db.items| ==> db.items[k].id != id) || ItemReferenced(db, id)
    ensures FindItem(db.items, id).None? ==> r == Err(ItemNotFound)
    ensures FindItem(db.items, id).Some? && ItemReferenced(db, id) ==> r == Err(UnhandledError)
    ensures r.Ok? ==> r.value == db.(items := r.value.items)
    ensures r.Ok? ==>
      var k := FindItem(db.items, id).value;
      r.value.items == db.items[..k] + db.items[k + 1..]
    ensures r.Ok? ==> Stock(r.value.items) == Stock(db.items) - db.items[FindItem(db.items, id).value].quantity
  {
    match FindItem(db.items, id)
    case None => Err(ItemNotFound)
    case Some(k) =>
      if ItemReferenced(db, id) then Err(UnhandledError)
      else
        StockRemove(db.items, k);
        Ok(db.(items := RemoveAt(db.items, k)))
  }

  /** Under the items' primary key, deleting removes that item and keeps every other. */
  lemma DeleteKeepsOtherItems(db: Db, id: int)
    requires KeysUnique(db.items, ItemKey)
    requires DeleteItem(db, id).Ok?
    ensures forall x :: x in DeleteItem(db, id).value.items <==> x in db.items && x.id != id
    ensures FindItem(DeleteItem(db, id).value.items, id).None?
  {
    RemoveKeyed(db.items, ItemKey, FindItem(db.items, id).value);
  }

  function ItemKey(x: Item): int {
    x.id
  }

  datatype ItemPage = ItemPage(page: int, size: int, total: nat, totalPages: nat, items: seq<Item>)

  /** get_items_paginated: every item, active or not, in storage order. */
  function ItemsPage(db: Db, page: int, size: int): (r: Result<ItemPage, Reason>)
    ensures r.Err? <==> CheckPage(page, size).Some?
    ensures r.Err? ==> r.error == CheckPage(page, size).value
    ensures r.Ok? ==> r.value.total == |db.items| && r.value.totalPages == CeilPages(|db.items|, size)
    ensures r.Ok? ==> r.value.items == Window(db.items, Offset(page, size), size)
  {
    match CheckPage(page, size)
    case Some(e) => Err(e)
    case None =>
      DivModPagesIsCeil(|db.items|, size);
      Ok(ItemPage(page, size, |db.items|, DivModPages(|db.items|, size),
                  Window(db.items, Offset(page, size), size)))
  }

  /** The name filter of the search: the normalized product name, when one is given. */
  function NameFilter(productName: Option<string>): (r: Option<string>)
    ensures r.Some? <==> TruthyStr(productName)
  {
    if TruthyStr(productName) then Some(NormalizeName(productName.value)) else None
  }

  /** search_items_paginated. A category name makes the service call a category lookup
      the category repository does not define, which fails as an unhandled error; a
      product name filters on its normalized form (an empty normalized form filters
      nothing). */
  function SearchItems(db: Db, productName: Option<string>, categoryName: Option<string>, page: int, size: int)
    : (r: Result<ItemPage, Reason>)
    ensures CheckPage(page, size).Some? ==> r == Err(CheckPage(page, size).value)
    ensures CheckPage(page, size).None? ==> (r.Err? <==> TruthyStr(categoryName))
    ensures r.Ok? ==> r.value.total == CountFiltered(db.items, None, NameFilter(productName))
    ensures r.Ok? ==> r.value.page == page && r.value.size == size
    ensures r.Ok? ==> r.value.totalPages == CeilPages(r.value.total, size) && |r.value.items| <= size
    ensures r.Ok? ==> (forall k :: 0 <= k < |r.value.items| ==>
      r.value.items[k] in db.items && SearchMatches(r.value.items[k], None, NameFilter(productName)))
    ensures r.Ok? ==>
      Offset(page, size) >= 0 && r.value.items == FilteredPage(db.items, None, NameFilter(productName), Offset(page, size), size)
  {
    match CheckPage(page, size)
    case Some(e) => Err(e)
    case None =>
      if TruthyStr(categoryName) then Err(UnhandledError)
      else
        var name := NameFilter(productName);
        var total := CountFiltered(db.items, None, name);
        DivModPagesIsCeil(total, size);
        Ok(ItemPage(page, size, total, DivModPages(total, size),
                    FilteredPage(db.items, None, name, Offset(page, size), size)))
  }

  /** With any accepted size and no category name, every searched item is on the page its
      rank implies, within the page count. */
  lemma EverySearchedItemIsPaged(db: Db, productName: Option<string>, size: int, k: nat)
    requires size in PageSizes && k < CountFiltered(db.items, None, NameFilter(productName))
    ensures var r := SearchItems(db, productName, None, k / size + 1, size);
      && r.Ok? && k / size + 1 <= r.value.totalPages
      && k % size < |r.value.items| && r.value.items[k % size] == Searched(db.items, None, NameFilter(productName))[k]
  {
    EverySearchedItemIsOnItsPage(db.items, None, NameFilter(productName), size, k);
  }
}

=== FILE: item_validator.dfy ===
/** The item request bodies and ItemValidator: create checks every required field and
    reports all failures at once; update checks only the quantity and the name, and only
    when they are sent with a value. */
module ItemValidator {
  import opened Wrappers
  import opened Text
  import opened Errors

  /** A field of a partial update: not sent, sent as null, or sent with a value. */
  datatype Patch<+T> = Absent | Null | Value(v: T) {
    /** Sent at all (the key is in `model_dump(exclude_unset=True)`). */
    predicate Sent() {
      !Absent?
    }

    /** What the request model holds: None unless a value was sent. */
    function AsOption(): (r: Option<T>)
      ensures r.Some? <==> Value?
    {
      if Value? then Some(v) else None
    }

    /** The stored value after the update: `current` unchanged when not sent, cleared by null. */
    function ApplyTo(current: Option<T>): (r: Option<T>)
      ensures Absent? ==> r == current
      ensures Sent() ==> r == AsOption()
    {
      match this
      case Absent => current
      case Null => None
      case Value(x) => Some(x)
    }
  }

  /** ItemCreate. The validator is written to cope with missing values, so the fields it
      checks are optional here. */
  datatype ItemCreate = ItemCreate(
    name: Option<string>,
    description: Option<string>,
    unit: Option<string>,
    quantity: Option<int>,
    categoryId: Option<int>,
    expiry: Option<int>,
    minimum: Option<int>,
    entryDate: Option<int>,
    brand: Option<string>)

  /** ItemUpdate as sent: every field may be absent, null or a value. */
  datatype ItemUpdate = ItemUpdate(
    name: Patch<string>,
    description: Patch<string>,
    quantity: Patch<int>,
    categoryId: Patch<int>,
    expiry: Patch<int>,
    entryDate: Patch<int>,
    exitDate: Patch<int>,
    minimum: Patch<int>,
    brand: Patch<string>,
    unit: Patch<string>,
    active: Patch<bool>)

  /** `not s or not s.strip()` for an optional string. */
  predicate Missing(s: Option<string>) {
    s.None? || IsBlank(s.value)
  }

  /** The fields the create check tests, in the order it lists failures. */
  datatype Field = NameField | DescriptionField | UnitField | QuantityField | CategoryField {
    function Position(): int {
      match this
      case NameField => 0
      case DescriptionField => 1
      case UnitField => 2
      case QuantityField => 3
      case CategoryField => 4
    }

    /** The text the error message uses for the field. */
    function Label(): string {
      match this
      case NameField => "nome_item"
      case DescriptionField => "descricao_item"
      case UnitField => "unidade_medida_item"
      case QuantityField => "quantidade_item (deve ser maior que zero)"
      case CategoryField => "categoria_id"
    }
  }

  /** Whether the create check on `field` fails for `c`. */
  predicate FieldFails(c: ItemCreate, field: Field) {
    match field
    case NameField => Missing(c.name)
    case DescriptionField => Missing(c.description)
    case UnitField => Missing(c.unit)
    case QuantityField => c.quantity.None? || c.quantity.value <= 0
    case CategoryField => c.categoryId.None?
  }

  const FieldOrder: seq<Field> := [NameField, DescriptionField, UnitField, QuantityField, CategoryField]

  predicate Ascending(fs: seq<Field>) {
    forall i, j :: 0 <= i < j < |fs| ==> fs[i].Position() < fs[j].Position()
  }

  /** The fields of `fs` whose check fails, in the order of `fs`. */
  function Failing(c: ItemCreate, fs: seq<Field>): (r: seq<Field>)
    ensures forall f :: f in r <==> f in fs && FieldFails(c, f)
    ensures Ascending(fs) ==> Ascending(r)
  {
    if |fs| == 0 then []
    else
      var rest := Failing(c, fs[1..]);
      if FieldFails(c, fs[0]) then
        assert Ascending(fs) ==> forall k :: 0 <= k < |rest| ==> rest[k] in fs[1..];
        [fs[0]] + rest
      else rest
  }

  lemma OrderIsComplete()
    ensures forall f: Field :: f in FieldOrder
    ensures Ascending(FieldOrder)
  {
    forall f: Field
      ensures f in FieldOrder
    {
      match f
      case NameField => assert FieldOrder[0] == f;
      case DescriptionField => assert FieldOrder[1] == f;
      case UnitField => assert FieldOrder[2] == f;
      case QuantityField => assert FieldOrder[3] == f;
      case CategoryField => assert FieldOrder[4] == f;
    }
  }

  /** The failing fields, each once, in the fixed order. */
  function MissingFieldList(c: ItemCreate): (r: seq<Field>)
    ensures forall f :: f in r <==> FieldFails(c, f)
    ensures Ascending(r)
  {
    OrderIsComplete();
    Failing(c, FieldOrder)
  }

  function Labels(fs: seq<Field>): (r: seq<string>)
    ensures |r| == |fs| && forall i :: 0 <= i < |fs| ==> r[i] == fs[i].Label()
  {
    seq(|fs|, i requires 0 <= i < |fs| => fs[i].Label())
  }

  /** validate_on_create: one 400 naming every failing field in the fixed order, or nothing. */
  function ValidateOnCreate(c: ItemCreate): (r: Option<Reason>)
    ensures r.None? <==> forall f: Field :: !FieldFails(c, f)
    ensures r.Some? ==> r.value == MissingFields(Labels(MissingFieldList(c)))
  {
    var missing := MissingFieldList(c);
    if missing != [] then
      assert FieldFails(c, missing[0]);
      Some(MissingFields(Labels(missing)))
    else
      assert forall f: Field :: f !in missing;
      None
  }

  /** A request that passes the create check carries every required field, and a
      positive quantity. */
  lemma PassingCreateIsComplete(c: ItemCreate)
    requires ValidateOnCreate(c).None?
    ensures c.name.Some? && !IsBlank(c.name.value) && c.description.Some? && c.unit.Some?
    ensures c.quantity.Some? && c.quantity.value > 0 && c.categoryId.Some?
  {
    NothingFailingIsComplete(c);
  }

  /** A request none of whose fields fails the check carries them all. */
  lemma NothingFailingIsComplete(c: ItemCreate)
    requires forall f: Field :: !FieldFails(c, f)
    ensures c.name.Some? && !IsBlank(c.name.value) && c.description.Some? && c.unit.Some?
    ensures c.quantity.Some? && c.quantity.value > 0 && c.categoryId.Some?
  {
    assert !FieldFails(c, NameField);
    assert !FieldFails(c, DescriptionField);
    assert !FieldFails(c, UnitField);
    assert !FieldFails(c, QuantityField);
    assert !FieldFails(c, CategoryField);
  }

  /** validate_on_update: a sent quantity must be positive, then a sent name non-blank;
      null passes both checks. */
  function ValidateOnUpdate(u: ItemUpdate): (r: Option<Reason>)
    ensures r.None? <==> !(u.quantity.Value? && u.quantity.v <= 0) && !(u.name.Value? && IsBlank(u.name.v))
    ensures u.quantity.Value? && u.quantity.v <= 0 ==> r == Some(NonPositiveQuantity)
    ensures !(u.quantity.Value? && u.quantity.v <= 0) && u.name.Value? && IsBlank(u.name.v)
      ==> r == Some(BlankItemName)
  {
    if u.quantity.Value? && u.quantity.v <= 0 then Some(NonPositiveQuantity)
    else if u.name.Value? && IsBlank(u.name.v) then Some(BlankItemName)
    else None
  }

  /** The update check never looks at description, unit, category or the other fields. */
  lemma UpdateIgnoresOtherFields(u: ItemUpdate, v: ItemUpdate)
    requires u.quantity == v.quantity && u.name == v.name
    ensures ValidateOnUpdate(u) == ValidateOnUpdate(v)
  {
  }
}

=== FILE: limiter.dfy ===
/** check_user_creation_cooldown: at most one user-creation request per requester every
    two seconds, remembered in an in-memory table of last request times. */
module Limiter {
  import opened Wrappers
  import opened Errors
  import opened Domain

  /** COOLDOWN_PERIOD_SECONDS, in clock units. */
  const Cooldown: int := 2 * Second

  /** A requester: a user id or, when no one is logged in, an address. */
  datatype Requester = ById(id: int) | ByAddress(address: string)

  /** `last_request_timestamps`. */
  type Timestamps = map<Requester, int>

  /** The check: a requester seen less than the cooldown ago is refused with 429 and the
      table is left alone; otherwise the request goes through and `now` is recorded. */
  function CheckCooldown(last: Timestamps, who: Requester, now: int): (r: (Timestamps, Option<Reason>))
    ensures r.1.Some? <==> who in last && now - last[who] < Cooldown
    ensures r.1.Some? ==> r.0 == last && r.1.value == CooldownActive
    ensures r.1.None? ==> r.0.Keys == last.Keys + {who} && r.0[who] == now
    ensures forall other :: other != who ==> (other in r.0 <==> other in last) && (other in last ==> r.0[other] == last[other])
  {
    if who in last && now - last[who] < Cooldown then (last, Some(CooldownActive))
    else (last[who := now], None)
  }

  /** Two requests from one requester within the cooldown: the first passes, the second
      is refused, and a third at least the cooldown after the first passes again. */
  lemma CooldownSpacing(last: Timestamps, who: Requester, t: int, dt: int)
    requires who !in last
    requires 0 <= dt < Cooldown
    ensures var first := CheckCooldown(last, who, t);
      && first.1.None?
      && CheckCooldown(first.0, who, t + dt) == (first.0, Some(CooldownActive))
      && CheckCooldown(first.0, who, t + Cooldown).1.None?
  {
  }

  /** A refused request does not push the window forward: after any run of refused
      requests, the cooldown still ends two seconds after the last accepted one. */
  lemma {:induction false} RefusalsKeepTheWindow(last: Timestamps, who: Requester, times: seq<int>)
    requires who in last
    requires forall k :: 0 <= k < |times| ==> times[k] - last[who] < Cooldown
    ensures Refusing(last, who, times) == last
    decreases |times|
  {
    if |times| > 0 {
      RefusalsKeepTheWindow(last, who, times[1..]);
    }
  }

  /** The table after a sequence of requests by one requester. */
  function Refusing(last: Timestamps, who: Requester, times: seq<int>): (r: Timestamps)
    ensures forall other :: other != who ==> (other in r <==> other in last) && (other in last ==> r[other] == last[other])
    decreases |times|
  {
    if |times| == 0 then last else Refusing(CheckCooldown(last, who, times[0]).0, who, times[1..])
  }
}

=== FILE: name_lookup.dfy ===
/** DataService: the names a withdrawal listing shows beside the ids it receives. The ids
    of a page are collected without repetition, each is resolved once through the API, and
    every row is decorated from the resulting maps. */
module NameLookup {
  import opened Wrappers
  import opened Domain
  import opened WithdrawalService
  import opened Text

  // ----- collecting the ids -----

  /** The elements of `s` not in `seen`, each once, in the order of first appearance
      (`[...new Set(s)]` when `seen` is empty). */
  function DedupFrom(s: seq<int>, seen: set<int>): (r: seq<int>)
    ensures forall i, j :: 0 <= i < j < |r| ==> r[i] != r[j]
    ensures forall x :: x in r <==> x in s && x !in seen
    decreases |s|
  {
    if |s| == 0 then []
    else if s[0] in seen then DedupFrom(s[1..], seen)
    else [s[0]] + DedupFrom(s[1..], seen + {s[0]})
  }

  function Dedup(s: seq<int>): (r: seq<int>)
    ensures forall i, j :: 0 <= i < j < |r| ==> r[i] != r[j]
    ensures forall x :: x in r <==> x in s
  {
    DedupFrom(s, {})
  }

  predicate Distinct(s: seq<int>) {
    forall i, j :: 0 <= i < j < |s| ==> s[i] != s[j]
  }

  /** Removing repetitions keeps the order: a list without repetitions comes back as it was. */
  lemma {:induction false} DedupKeepsOrder(s: seq<int>, seen: set<int>)
    requires Distinct(s) && forall k :: 0 <= k < |s| ==> s[k] !in seen
    ensures DedupFrom(s, seen) == s
    decreases |s|
  {
    if |s| > 0 {
      assert forall k :: 0 <= k < |s[1..]| ==> s[1..][k] == s[k + 1];
      DedupKeepsOrder(s[1..], seen + {s[0]});
    }
  }

  /** The requester of every row. */
  function Requesters(ws: seq<Withdrawal>): (r: seq<int>)
    ensures |r| == |ws| && forall k :: 0 <= k < |ws| ==> r[k] == ws[k].requester
  {
    seq(|ws|, k requires 0 <= k < |ws| => ws[k].requester)
  }

  /** The authorisers of the rows that have one (null ones are dropped). */
  function Authorizers(ws: seq<Withdrawal>): (r: seq<int>)
    ensures forall x :: x in r <==> exists k :: 0 <= k < |ws| && ws[k].authorizer == Some(x)
  {
    if |ws| == 0 then []
    else
      var rest := Authorizers(ws[1..]);
      assert forall k :: 1 <= k < |ws| ==> ws[k] == ws[1..][k - 1];
      (if ws[0].authorizer.Some? then [ws[0].authorizer.value] else []) + rest
  }

  /** The sector of every row. */
  function Sectors(ws: seq<Withdrawal>): (r: seq<int>)
    ensures |r| == |ws| && forall k :: 0 <= k < |ws| ==> r[k] == ws[k].sectorId
  {
    seq(|ws|, k requires 0 <= k < |ws| => ws[k].sectorId)
  }

  /** The users to resolve: requesters and authorisers together, each once. */
  function UserIds(ws: seq<Withdrawal>): seq<int> {
    Dedup(Dedup(Requesters(ws)) + Dedup(Authorizers(ws)))
  }

  function SectorIds(ws: seq<Withdrawal>): seq<int> {
    Dedup(Sectors(ws))
  }

  /** Every user a row mentions is resolved exactly once, and no one else is. */
  lemma UserIdsAreTheMentionedUsers(ws: seq<Withdrawal>)
    ensures Distinct(UserIds(ws)) && Distinct(SectorIds(ws))
    ensures forall x :: x in UserIds(ws) <==>
      exists k :: 0 <= k < |ws| && (ws[k].requester == x || ws[k].authorizer == Some(x))
    ensures forall x :: x in SectorIds(ws) <==> exists k :: 0 <= k < |ws| && ws[k].sectorId == x
  {
  }

  // ----- resolving them -----

  /** The decimal digits of a natural number. */
  function Digits(n: nat): (r: string)
    ensures IsDigits(r)
    ensures DigitsValue(r) == n
  {
    var d := ['0' + (n % 10) as char];
    if n < 10 then d
    else
      var front := Digits(n / 10);
      assert (front + d)[..|front + d| - 1] == front;
      front + d
  }

  /** What the API's getUsuarioById / getSetorById answer: the name, or `#<id>` when the
      request fails (`None` in `fetch`). */
  function Resolve(fetch: int -> Option<string>, id: int): (r: string)
    ensures fetch(id).Some? ==> r == fetch(id).value
    ensures fetch(id).None? ==> |r| >= 2 && r[0] == '#'
    ensures fetch(id).None? && id >= 0 ==> IsDigits(r[1..]) && DigitsValue(r[1..]) == id
    ensures fetch(id).None? && id < 0 ==> |r| >= 3 && r[1] == '-' && IsDigits(r[2..]) && DigitsValue(r[2..]) == -id
  {
    match fetch(id)
    case Some(name) => name
    case None =>
      if id < 0 then
        var r := "#" + "-" + Digits(-id);
        assert r[2..] == Digits(-id);
        r
      else
        var r := "#" + Digits(id);
        assert r[1..] == Digits(id);
        r
  }

  /** `Object.fromEntries` of the resolved pairs. */
  function NameMap(ids: seq<int>, fetch: int -> Option<string>): (m: map<int, string>)
    ensures forall x :: x in m <==> x in ids
    ensures forall x :: x in m ==> m[x] == Resolve(fetch, x)
  {
    map x | x in ids :: Resolve(fetch, x)
  }

  // ----- decorating the rows -----

  /** A row as the listing shows it. */
  datatype Shown = Shown(withdrawal: Withdrawal, userName: string, sectorName: string, authorizerName: string)

  /** JavaScript's `a || b` on strings: the empty string is false. */
  function OrElse(a: string, b: string): string {
    if a != "" then a else b
  }

  /** One row: whoever asked in person, else the requester's name, else N/A; the sector's
      name, else N/A; the authoriser's name when the id is truthy, else N/A. */
  function Decorate(w: Withdrawal, users: map<int, string>, sectors: map<int, string>): (r: Shown)
    requires w.requester in users && w.sectorId in sectors
    requires w.authorizer.Some? ==> w.authorizer.value in users
    ensures r.withdrawal == w
  {
    Shown(
      w,
      OrElse(if w.localRequester.Some? then w.localRequester.value else "", OrElse(users[w.requester], "N/A")),
      OrElse(sectors[w.sectorId], "N/A"),
      if TruthyInt(w.authorizer) then users[w.authorizer.value] else "N/A")
  }

  /** getProcessedRetiradas on the rows of one page. */
  function Process(ws: seq<Withdrawal>, userFetch: int -> Option<string>, sectorFetch: int -> Option<string>)
    : (r: seq<Shown>)
    ensures |r| == |ws| && forall k :: 0 <= k < |ws| ==> r[k].withdrawal == ws[k]
  {
    var users := NameMap(UserIds(ws), userFetch);
    var sectors := NameMap(SectorIds(ws), sectorFetch);
    UserIdsAreTheMentionedUsers(ws);
    seq(|ws|, k requires 0 <= k < |ws| => Decorate(ws[k], users, sectors))
  }

  /** A page keeps its counts; only its rows are decorated. */
  datatype ShownPage = ShownPage(total: nat, page: int, pages: nat, items: seq<Shown>)

  function ProcessPage(data: WithdrawalPage, userFetch: int -> Option<string>, sectorFetch: int -> Option<string>)
    : (r: ShownPage)
    ensures r.total == data.total && r.page == data.page && r.pages == data.pages
    ensures |r.items| == |data.items| && forall k :: 0 <= k < |data.items| ==> r.items[k].withdrawal == data.items[k]
  {
    ShownPage(data.total, data.page, data.pages, Process(data.items, userFetch, sectorFetch))
  }

  /** A row of the result is that row decorated from the maps of the whole page. */
  lemma ProcessAt(ws: seq<Withdrawal>, userFetch: int -> Option<string>, sectorFetch: int -> Option<string>, k: nat)
    requires k < |ws|
    ensures var users := NameMap(UserIds(ws), userFetch);
      var sectors := NameMap(SectorIds(ws), sectorFetch);
      && ws[k].requester in users && ws[k].sectorId in sectors
      && (ws[k].authorizer.Some? ==> ws[k].authorizer.value in users)
      && Process(ws, userFetch, sectorFetch)[k] == Decorate(ws[k], users, sectors)
  {
    UserIdsAreTheMentionedUsers(ws);
    assert ws[k].requester in UserIds(ws);
    assert ws[k].authorizer.Some? ==> ws[k].authorizer.value in UserIds(ws);
    assert ws[k].sectorId in SectorIds(ws);
  }

  /** Going through the maps is the same as asking the API for each row directly: the names
      shown are those the API gives for the row's own ids. */
  lemma ShownNamesAreTheRowsOwn(ws: seq<Withdrawal>, userFetch: int -> Option<string>,
                               sectorFetch: int -> Option<string>, k: nat)
    requires k < |ws|
    ensures var s := Process(ws, userFetch, sectorFetch)[k];
      var w := ws[k];
      && (TruthyStr(w.localRequester) ==> s.userName == w.localRequester.value)
      && (!TruthyStr(w.localRequester) ==> s.userName == OrElse(Resolve(userFetch, w.requester), "N/A"))
      && s.sectorName == OrElse(Resolve(sectorFetch, w.sectorId), "N/A")
      && (TruthyInt(w.authorizer) ==> s.authorizerName == Resolve(userFetch, w.authorizer.value))
      && (!TruthyInt(w.authorizer) ==> s.authorizerName == "N/A")
  {
    ProcessAt(ws, userFetch, sectorFetch, k);
    var users := NameMap(UserIds(ws), userFetch);
    var sectors := NameMap(SectorIds(ws), sectorFetch);
    var w := ws[k];
    assert users[w.requester] == Resolve(userFetch, w.requester);
    assert sectors[w.sectorId] == Resolve(sectorFetch, w.sectorId);
    if w.authorizer.Some? {
      assert users[w.authorizer.value] == Resolve(userFetch, w.authorizer.value);
    }
  }
}

=== FILE: normalize.dfy ===
/** normalize_name: the key under which item and category names are compared.
    Unicode NFKD is modelled by a decomposition table for the accented Latin letters of
    Portuguese, the ordinal indicators and the superscript digits; every other character
    decomposes to itself, and only ASCII letters and digits count as alphanumeric. */
module Normalize {
  import opened Text

  /** NFKD of one character: an accented letter becomes its base letter followed by a
      combining mark (U+0300 grave, U+0301 acute, U+0302 circumflex, U+0303 tilde,
      U+0308 diaeresis, U+0327 cedilla); the ordinal indicators º and ª and the
      superscript digits are compatibility forms of a plain letter or digit. */
  function Decompose(c: char): (r: string)
    ensures 1 <= |r| <= 2
    ensures forall i :: 0 <= i < |r| ==> r[i] != 'ç' && r[i] != 'Ç'
    ensures '\0' <= c <= '\U{7F}' ==> r == [c]
  {
    match c
    case 'á' => "a\U{0301}"  case 'à' => "a\U{0300}"  case 'â' => "a\U{0302}"
    case 'ã' => "a\U{0303}"  case 'ä' => "a\U{0308}"
    case 'é' => "e\U{0301}"  case 'è' => "e\U{0300}"  case 'ê' => "e\U{0302}"
    case 'ë' => "e\U{0308}"
    case 'í' => "i\U{0301}"  case 'ì' => "i\U{0300}"  case 'î' => "i\U{0302}"
    case 'ï' => "i\U{0308}"
    case 'ó' => "o\U{0301}"  case 'ò' => "o\U{0300}"  case 'ô' => "o\U{0302}"
    case 'õ' => "o\U{0303}"  case 'ö' => "o\U{0308}"
    case 'ú' => "u\U{0301}"  case 'ù' => "u\U{0300}"  case 'û' => "u\U{0302}"
    case 'ü' => "u\U{0308}"
    case 'ç' => "c\U{0327}"  case 'ñ' => "n\U{0303}"
    case 'Á' => "A\U{0301}"  case 'À' => "A\U{0300}"  case 'Â' => "A\U{0302}"
    case 'Ã' => "A\U{0303}"  case 'Ä' => "A\U{0308}"
    case 'É' => "E\U{0301}"  case 'È' => "E\U{0300}"  case 'Ê' => "E\U{0302}"
    case 'Ë' => "E\U{0308}"
    case 'Í' => "I\U{0301}"  case 'Ì' => "I\U{0300}"  case 'Î' => "I\U{0302}"
    case 'Ï' => "I\U{0308}"
    case 'Ó' => "O\U{0301}"  case 'Ò' => "O\U{0300}"  case 'Ô' => "O\U{0302}"
    case 'Õ' => "O\U{0303}"  case 'Ö' => "O\U{0308}"
    case 'Ú' => "U\U{0301}"  case 'Ù' => "U\U{0300}"  case 'Û' => "U\U{0302}"
    case 'Ü' => "U\U{0308}"
    case 'Ç' => "C\U{0327}"  case 'Ñ' => "N\U{0303}"
    case 'º' => "o"  case 'ª' => "a"
    case '¹' => "1"  case '²' => "2"  case '³' => "3"
    case _ => [c]
  }

  /** unicodedata.normalize('NFKD', s), character by character. */
  function Nfkd(s: string): (r: string)
    ensures forall i :: 0 <= i < |r| ==> r[i] != 'ç' && r[i] != 'Ç'
  {
    if |s| == 0 then "" else Decompose(s[0]) + Nfkd(s[1..])
  }

  predicate IsAlnum(c: char) {
    IsDigit(c) || IsAsciiLower(c) || IsAsciiUpper(c)
  }

  /** The filter's test: `char.isalnum() or char in "çÇ"`. */
  predicate Kept(c: char) {
    IsAlnum(c) || c == 'ç' || c == 'Ç'
  }

  /** The characters of `s` that pass the filter, in order. */
  function KeepAlnum(s: string): (r: string)
    ensures |r| <= |s|
    ensures forall i :: 0 <= i < |r| ==> Kept(r[i])
    ensures forall i :: 0 <= i < |r| ==> r[i] in s
  {
    if |s| == 0 then ""
    else (if Kept(s[0]) then [s[0]] else "") + KeepAlnum(s[1..])
  }

  /** str.upper() on the characters the filter keeps. */
  function UpperKept(c: char): char {
    if c == 'ç' then 'Ç' else UpperChar(c)
  }

  function UpperAll(s: string): (r: string)
    ensures |r| == |s|
    ensures forall i :: 0 <= i < |s| ==> r[i] == UpperKept(s[i])
  {
    seq(|s|, i requires 0 <= i < |s| => UpperKept(s[i]))
  }

  /** normalize_name: "" for empty input (None behaves the same), otherwise the
      decomposed text with everything but letters, digits and ç/Ç dropped, uppercased. */
  function NormalizeName(name: string): string {
    if name == "" then "" else UpperAll(KeepAlnum(Nfkd(name)))
  }

  /** A normalized name holds only ASCII digits and upper-case ASCII letters: no spaces,
      no punctuation, no lower case and no accent survives. */
  lemma NormalizedChars(name: string)
    ensures forall i :: 0 <= i < |NormalizeName(name)| ==>
      IsDigit(NormalizeName(name)[i]) || IsAsciiUpper(NormalizeName(name)[i])
  {
    if name != "" {
      var d := Nfkd(name);
      var k := KeepAlnum(d);
      forall i | 0 <= i < |k|
        ensures IsDigit(UpperKept(k[i])) || IsAsciiUpper(UpperKept(k[i]))
      {
        assert k[i] in d;
      }
    }
  }

  lemma {:induction false} KeepAlnumConcat(a: string, b: string)
    ensures KeepAlnum(a + b) == KeepAlnum(a) + KeepAlnum(b)
  {
    if |a| > 0 {
      assert (a + b)[1..] == a[1..] + b;
      KeepAlnumConcat(a[1..], b);
    } else {
      assert a + b == b;
    }
  }

  /** Each input character contributes at most one output character. */
  lemma {:induction false} NormalizedLength(name: string)
    ensures |NormalizeName(name)| <= |name|
  {
    if name != "" {
      KeptDecomposedLength(name);
    }
  }

  lemma {:induction false} KeptDecomposedLength(s: string)
    ensures |KeepAlnum(Nfkd(s))| <= |s|
  {
    if |s| > 0 {
      var d := Decompose(s[0]);
      KeepAlnumConcat(d, Nfkd(s[1..]));
      if |d| == 2 {
        assert !Kept(d[1]);
        assert d[1..][1..] == "";
      }
      KeptDecomposedLength(s[1..]);
    }
  }

  lemma {:induction false} NfkdAscii(s: string)
    requires forall i :: 0 <= i < |s| ==> IsAlnum(s[i])
    ensures Nfkd(s) == s
  {
    if |s| > 0 {
      NfkdAscii(s[1..]);
    }
  }

  lemma {:induction false} KeepAllKept(s: string)
    requires forall i :: 0 <= i < |s| ==> Kept(s[i])
    ensures KeepAlnum(s) == s
  {
    if |s| > 0 {
      KeepAllKept(s[1..]);
    }
  }

  /** Normalizing a normalized name changes nothing. */
  lemma NormalizeIdempotent(name: string)
    ensures NormalizeName(NormalizeName(name)) == NormalizeName(name)
  {
    var n := NormalizeName(name);
    NormalizedChars(name);
    if n != "" {
      NfkdAscii(n);
      KeepAllKept(n);
    }
  }

  /** The only way to a normalized name is its own characters: a normalized name is a
      fixed point exactly when it is empty or made of ASCII digits and capitals. */
  lemma FixedPointIffUpperAlnum(s: string)
    ensures NormalizeName(s) == s <==>
      forall i :: 0 <= i < |s| ==> IsDigit(s[i]) || IsAsciiUpper(s[i])
  {
    if forall i :: 0 <= i < |s| ==> IsDigit(s[i]) || IsAsciiUpper(s[i]) {
      if s != "" {
        NfkdAscii(s);
        KeepAllKept(s);
      }
    }
    if NormalizeName(s) == s {
      NormalizedChars(s);
    }
  }

  /** NFKD splits a precomposed 'ç' before the filter sees it, so the cedilla is dropped
      and 'ç' normalizes like a plain 'c'. */
  lemma CedillaIsDropped()
    ensures NormalizeName("ç") == "C"
  {
    var s := "ç";
    assert Nfkd(s) == Decompose('ç') + Nfkd(s[1..]);
    var d := "c\U{0327}";
    assert Nfkd(s) == d;
    assert KeepAlnum(d) == "c" + KeepAlnum(d[1..]);
    assert KeepAlnum(d[1..]) == KeepAlnum(d[2..]);
    assert KeepAlnum(d[2..]) == "";
  }

  /** An ordinal indicator is a plain letter to NFKD: "Nº" and "No" are the same name. */
  lemma OrdinalIsALetter()
    ensures NormalizeName("Nº") == NormalizeName("No")
  {
    var a, b := "Nº", "No";
    assert Nfkd(a[1..]) == "o" by { assert Nfkd(a[2..]) == ""; }
    assert Nfkd(b[1..]) == "o" by { assert Nfkd(b[2..]) == ""; }
    assert Nfkd(a) == "No" && Nfkd(b) == "No";
  }

  /** Accents go the same way, and so do the space and the trailing punctuation. */
  lemma AccentsAreDropped()
    ensures NormalizeName("ã o!") == "AO"
  {
    SampleDecomposes();
    SampleFilters();
  }

  lemma SampleDecomposes()
    ensures Nfkd("ã o!") == "a\U{0303} o!"
  {
    var s := "ã o!";
    assert Decompose('ã') == "a\U{0303}";
    assert Nfkd(s[3..]) == "!" by {
      assert Nfkd(s[4..]) == "";
    }
    assert Nfkd(s[2..]) == "o!" by {
      assert Nfkd(s[2..]) == Decompose('o') + Nfkd(s[3..]);
    }
    assert Nfkd(s[1..]) == " o!" by {
      assert Nfkd(s[1..]) == Decompose(' ') + Nfkd(s[2..]);
    }
    assert Nfkd(s) == Decompose('ã') + Nfkd(s[1..]);
  }

  lemma SampleFilters()
    ensures KeepAlnum("a\U{0303} o!") == "ao"
  {
    var d := "a\U{0303} o!";
    assert KeepAlnum(d[4..]) == "";
    assert KeepAlnum(d[3..]) == "o";
    assert KeepAlnum(d[2..]) == "o";
    assert KeepAlnum(d[1..]) == "o";
    assert KeepAlnum(d) == "a" + KeepAlnum(d[1..]);
  }
}

=== FILE: paging.dfy ===
/** Page arithmetic shared by the paginated listings: the page-size whitelist, OFFSET/LIMIT
    windows, and the three page-count formulas the services use. */
module Paging {
  import opened Wrappers
  import opened Errors

  /** The page sizes the item and alert listings accept. */
  const PageSizes: seq<int> := [5, 10, 25, 50, 100]

  /** The request check of the item and alert listings: the size is checked first, then the page. */
  function CheckPage(page: int, size: int): (r: Option<Reason>)
    ensures r.None? <==> size in PageSizes && page >= 1
    ensures r.Some? ==> r.value == (if size in PageSizes then InvalidPage else InvalidPageSize)
  {
    if size !in PageSizes then Some(InvalidPageSize)
    else if page < 1 then Some(InvalidPage)
    else None
  }

  /** `(page - 1) * size`: the number of rows before the page. */
  function Offset(page: int, size: int): int {
    (page - 1) * size
  }

  function Min(a: int, b: int): int {
    if a < b then a else b
  }

  /** SQL `OFFSET offset LIMIT limit` over rows in result order. */
  function Window<T>(rows: seq<T>, offset: nat, limit: nat): (w: seq<T>)
    ensures |w| <= limit
    ensures offset >= |rows| ==> w == []
    ensures offset < |rows| ==> |w| == if limit < |rows| - offset then limit else |rows| - offset
    ensures forall k :: 0 <= k < |w| ==> offset + k < |rows| && w[k] == rows[offset + k]
  {
    if offset >= |rows| then []
    else if limit < |rows| - offset then rows[offset..offset + limit]
    else rows[offset..]
  }

  /** `(total + page_size - 1) // page_size`, the withdrawal listings' page count. */
  function CeilPages(total: nat, size: nat): nat
    requires size > 0
  {
    (total + size - 1) / size
  }

  /** `total // size + (1 if total % size else 0)`, the item listings' page count. */
  function DivModPages(total: nat, size: nat): nat
    requires size > 0
  {
    total / size + (if total % size != 0 then 1 else 0)
  }

  /** `math.ceil(total / size) if total > 0 else 1`, the alert listing's page count. */
  function AlertPages(total: nat, size: nat): nat
    requires size > 0
  {
    if total > 0 then CeilPages(total, size) else 1
  }

  lemma MulMonotone(a: int, b: int, c: int)
    requires a <= b && c >= 0
    ensures a * c <= b * c
  {
    assert b * c - a * c == (b - a) * c;
  }

  lemma DivIsUnique(a: int, b: int, q: int, r: int)
    requires b > 0 && 0 <= r < b && a == q * b + r
    ensures a / b == q && a % b == r
  {
    var q0, r0 := a / b, a % b;
    assert a == q0 * b + r0;
    if q0 > q {
      MulMonotone(q + 1, q0, b);
    } else if q0 < q {
      MulMonotone(q0 + 1, q, b);
    }
  }

  /** The page count is the least number of pages of `size` rows that hold `total` rows. */
  lemma CeilPagesBounds(total: nat, size: nat)
    requires size > 0
    ensures CeilPages(total, size) * size >= total
    ensures total > 0 ==> (CeilPages(total, size) - 1) * size < total
    ensures CeilPages(total, size) == 0 <==> total == 0
  {
    var q, r := total / size, total % size;
    if r == 0 {
      DivIsUnique(total + size - 1, size, q, size - 1);
    } else {
      DivIsUnique(total + size - 1, size, q + 1, r - 1);
    }
  }

  /** `pages` is the least number of pages of `size` rows holding `total` rows, and one
      page when there are none. */
  predicate LeastCover(total: nat, size: nat, pages: int) {
    && pages >= 1 && pages * size >= total
    && (total > 0 ==> (pages - 1) * size < total)
    && (total == 0 ==> pages == 1)
  }

  /** The alert listing's page count is the least cover of its rows. */
  lemma AlertPagesBounds(total: nat, size: nat)
    requires size > 0
    ensures LeastCover(total, size, AlertPages(total, size))
  {
    CeilPagesBounds(total, size);
  }

  /** The item listings' formula and the withdrawal listings' formula give the same count. */
  lemma DivModPagesIsCeil(total: nat, size: nat)
    requires size > 0
    ensures DivModPages(total, size) == CeilPages(total, size)
  {
    var q, r := total / size, total % size;
    if r == 0 {
      DivIsUnique(total + size - 1, size, q, size - 1);
    } else {
      DivIsUnique(total + size - 1, size, q + 1, r - 1);
    }
  }

  /** The page showing the row of rank `k` (counted from 0): the page whose window starts
      at or before `k` and ends after it. */
  function PageOfRank(k: nat, size: int): (page: int)
    requires size >= 1
    ensures page >= 1 && Offset(page, size) <= k < Offset(page, size) + size
  {
    assert k == (k / size) * size + k % size;
    k / size + 1
  }

  /** Row `k` of the result is shown on page `k / size + 1`, at position `k % size`, and that
      page is within the page count: paging loses no row. */
  lemma RowIsOnItsPage<T>(rows: seq<T>, size: nat, k: nat)
    requires size > 0 && k < |rows|
    ensures var page := k / size + 1;
      && 1 <= page <= CeilPages(|rows|, size)
      && Offset(page, size) >= 0
      && k % size < |Window(rows, Offset(page, size), size)|
      && Window(rows, Offset(page, size), size)[k % size] == rows[k]
  {
    var q := k / size;
    var page := q + 1;
    var off := q * size;
    assert k == off + k % size;
    assert Offset(page, size) == off;
    CeilPagesBounds(|rows|, size);
    var c := CeilPages(|rows|, size);
    if page > c {
      MulMonotone(c, q, size);
      assert false;
    }
    var w := Window(rows, off, size);
    assert off < |rows|;
    assert k % size < |w|;
    assert w[k % size] == rows[off + k % size];
  }
}

=== FILE: registry.dfy ===
/** ConnectionManager: the open notification connections, per user and general, and the
    bookkeeping of connect, disconnect, broadcast and send_to_user. Sending is abstract:
    `fails(c)` says whether a send on connection `c` raises. */
module Registry {
  import opened Wrappers
  import opened Seqs

  /** A connection, by identity. */
  type Conn = nat

  /** `active_connections` (user id to that user's connections, in connection order) and
      `general_connections`. */
  datatype Registry = Registry(users: map<int, seq<Conn>>, general: seq<Conn>)

  /** The registry's invariant: no user maps to an empty list. */
  predicate NoEmptyLists(reg: Registry) {
    forall u :: u in reg.users ==> reg.users[u] != []
  }

  function Empty(): (r: Registry)
    ensures NoEmptyLists(r) && r.general == []
  {
    Registry(map[], [])
  }

  /** connect: a truthy user id files the connection under that user, creating the entry
      if needed; a missing or 0 id makes it a general connection. */
  function Connect(reg: Registry, c: Conn, userId: Option<int>): (r: Registry)
    ensures TruthyInt(userId) ==> (
      && r.general == reg.general
      && r.users.Keys == reg.users.Keys + {userId.value}
      && r.users[userId.value] == (if userId.value in reg.users then reg.users[userId.value] else []) + [c]
      && forall u :: u in reg.users && u != userId.value ==> r.users[u] == reg.users[u])
    ensures !TruthyInt(userId) ==> r.users == reg.users && r.general == reg.general + [c]
    ensures NoEmptyLists(reg) ==> NoEmptyLists(r)
  {
    if TruthyInt(userId) then
      var u := userId.value;
      var before := if u in reg.users then reg.users[u] else [];
      reg.(users := reg.users[u := before + [c]])
    else reg.(general := reg.general + [c])
  }

  /** Index of the first occurrence of `c`. */
  function IndexOf(s: seq<Conn>, c: Conn): (r: Option<nat>)
    ensures r.None? <==> c !in s
    ensures r.Some? ==> r.value < |s| && s[r.value] == c && c !in s[..r.value]
  {
    if |s| == 0 then None
    else if s[0] == c then Some(0)
    else match IndexOf(s[1..], c)
      case None => None
      case Some(i) =>
        assert s[..i + 1] == [s[0]] + s[1..][..i];
        Some(i + 1)
  }

  /** Python's `list.remove`: drops the first occurrence; `None` stands for the ValueError
      raised when there is none. */
  function RemoveFirst(s: seq<Conn>, c: Conn): (r: Option<seq<Conn>>)
    ensures r.None? <==> c !in s
    ensures r.Some? ==> multiset(r.value) == multiset(s) - multiset{c}
    ensures r.Some? ==> exists i :: 0 <= i < |s| && s[i] == c && c !in s[..i] && r.value == s[..i] + s[i + 1..]
    ensures r.Some? ==> r.value == s[..IndexOf(s, c).value] + s[IndexOf(s, c).value + 1..]
  {
    match IndexOf(s, c)
    case None => None
    case Some(i) =>
      assert s == s[..i] + [c] + s[i + 1..];
      Some(s[..i] + s[i + 1..])
  }

  /** The user entry `u` set to `rest`, or dropped when `rest` is empty. */
  function DropOrReplace(reg: Registry, u: int, rest: seq<Conn>): (r: Registry)
    ensures r.general == reg.general
    ensures u in r.users <==> rest != []
    ensures u in r.users ==> r.users[u] == rest
    ensures forall v :: v != u ==> (v in r.users <==> v in reg.users) && (v in reg.users ==> r.users[v] == reg.users[v])
    ensures NoEmptyLists(reg) ==> NoEmptyLists(r)
  {
    if rest == [] then reg.(users := reg.users - {u}) else reg.(users := reg.users[u := rest])
  }

  /** disconnect: with a truthy user id that has an entry, drop the connection from that
      user's list and drop the entry once empty; otherwise drop it from the general list.
      A connection that is not there is ignored. */
  function Disconnect(reg: Registry, c: Conn, userId: Option<int>): (r: Registry)
    ensures TruthyInt(userId) && userId.value in reg.users ==> (
      var u := userId.value;
      && r.general == reg.general
      && (c !in reg.users[u] ==> r == reg)
      && (c in reg.users[u] ==>
            var i := IndexOf(reg.users[u], c).value;
            var rest := reg.users[u][..i] + reg.users[u][i + 1..];
            && (u in r.users <==> rest != [])
            && (u in r.users ==> r.users[u] == rest)
            && forall v :: v != u ==> (v in r.users <==> v in reg.users) && (v in reg.users ==> r.users[v] == reg.users[v])))
    ensures !(TruthyInt(userId) && userId.value in reg.users) ==> (
      && r.users == reg.users
      && (c !in reg.general ==> r.general == reg.general)
      && (c in reg.general ==>
            var i := IndexOf(reg.general, c).value;
            r.general == reg.general[..i] + reg.general[i + 1..]))
    ensures NoEmptyLists(reg) ==> NoEmptyLists(r)
  {
    if TruthyInt(userId) && userId.value in reg.users then
      var u := userId.value;
      match RemoveFirst(reg.users[u], c)
      case None => reg
      case Some(rest) => DropOrReplace(reg, u, rest)
    else
      match RemoveFirst(reg.general, c)
      case None => reg
      case Some(rest) => reg.(general := rest)
  }

  /** The send loop over a copy of a list: `todo` is what is left of the copy, `cur` the
      live list; a failing send removes that connection from the live list. */
  function Sweep(todo: seq<Conn>, cur: seq<Conn>, fails: Conn -> bool): seq<Conn>
  {
    if |todo| == 0 then cur
    else if fails(todo[0]) then
      match RemoveFirst(cur, todo[0])
      case None => Sweep(todo[1..], cur, fails)
      case Some(rest) => Sweep(todo[1..], rest, fails)
    else Sweep(todo[1..], cur, fails)
  }

  /** The connections whose send succeeds. */
  function Survivors(s: seq<Conn>, fails: Conn -> bool): seq<Conn> {
    Filter(s, Delivers(fails))
  }

  function Delivers(fails: Conn -> bool): Conn -> bool {
    (c: Conn) => !fails(c)
  }

  /** Sending again to the survivors loses nobody. */
  lemma SurvivorsSurvive(s: seq<Conn>, fails: Conn -> bool)
    ensures Survivors(Survivors(s, fails), fails) == Survivors(s, fails)
  {
    FilterAll(Survivors(s, fails), Delivers(fails));
  }

  /** The heart of the send loop: when the live list is a filtered prefix followed by what
      is left of the copy, the loop leaves exactly the prefix and the survivors of the rest. */
  lemma {:induction false} SweepKeepsSurvivors(kept: seq<Conn>, todo: seq<Conn>, fails: Conn -> bool)
    requires forall k :: 0 <= k < |kept| ==> !fails(kept[k])
    ensures Sweep(todo, kept + todo, fails) == kept + Survivors(todo, fails)
    decreases |todo|
  {
    if |todo| == 0 {
      assert kept + todo == kept;
    } else if fails(todo[0]) {
      FailingHeadIsRemoved(kept, todo, fails);
      SweepKeepsSurvivors(kept, todo[1..], fails);
    } else {
      PassingHeadStays(kept, todo, fails);
      SweepKeepsSurvivors(kept + [todo[0]], todo[1..], fails);
    }
  }

  /** One successful send: the head joins the kept prefix. */
  lemma PassingHeadStays(kept: seq<Conn>, todo: seq<Conn>, fails: Conn -> bool)
    requires |todo| > 0 && !fails(todo[0])
    ensures Sweep(todo, kept + todo, fails) == Sweep(todo[1..], (kept + [todo[0]]) + todo[1..], fails)
    ensures kept + Survivors(todo, fails) == (kept + [todo[0]]) + Survivors(todo[1..], fails)
  {
    assert kept + todo == (kept + [todo[0]]) + todo[1..];
    var rest := Survivors(todo[1..], fails);
    assert Survivors(todo, fails) == [todo[0]] + rest;
    assert kept + ([todo[0]] + rest) == (kept + [todo[0]]) + rest;
  }

  /** One failing send: the live list loses exactly the copy's head. */
  lemma FailingHeadIsRemoved(kept: seq<Conn>, todo: seq<Conn>, fails: Conn -> bool)
    requires forall k :: 0 <= k < |kept| ==> !fails(kept[k])
    requires |todo| > 0 && fails(todo[0])
    ensures Sweep(todo, kept + todo, fails) == Sweep(todo[1..], kept + todo[1..], fails)
    ensures Survivors(todo, fails) == Survivors(todo[1..], fails)
  {
    var c := todo[0];
    assert c !in kept;
    IndexOfAfter(kept, todo);
    var s := kept + todo;
    assert s[..|kept|] == kept;
    assert s[|kept| + 1..] == todo[1..];
    assert RemoveFirst(s, c) == Some(kept + todo[1..]);
  }

  /** A connection absent from `kept` is first found right after it. */
  lemma IndexOfAfter(kept: seq<Conn>, todo: seq<Conn>)
    requires |todo| > 0 && todo[0] !in kept
    ensures IndexOf(kept + todo, todo[0]) == Some(|kept|)
  {
    if |kept| > 0 {
      assert (kept + todo)[1..] == kept[1..] + todo;
      IndexOfAfter(kept[1..], todo);
    }
  }

  /** Sending to a list over a copy of it leaves exactly the connections whose send
      succeeded, in their order. */
  lemma SendLoopFilters(s: seq<Conn>, fails: Conn -> bool)
    ensures Sweep(s, s, fails) == Survivors(s, fails)
  {
    SweepKeepsSurvivors([], s, fails);
    assert [] + s == s;
  }

  /** A user's list after sending to it, or None when it emptied and the key is dropped. */
  function AfterSend(s: seq<Conn>, fails: Conn -> bool): (r: Option<seq<Conn>>)
    ensures r.Some? ==> r.value == Survivors(s, fails) && r.value != []
    ensures r.None? <==> Survivors(s, fails) == []
  {
    SendLoopFilters(s, fails);
    var left := Sweep(s, s, fails);
    if left == [] then None else Some(left)
  }

  /** broadcast: every general connection and every user connection is sent to; a failed
      send removes just that connection; users left with no connection are dropped. */
  function Broadcast(reg: Registry, fails: Conn -> bool): (r: Registry)
    ensures r.general == Survivors(reg.general, fails)
    ensures forall u :: u in r.users <==> u in reg.users && Survivors(reg.users[u], fails) != []
    ensures forall u :: u in r.users ==> r.users[u] == Survivors(reg.users[u], fails)
    ensures NoEmptyLists(r)
  {
    SendLoopFilters(reg.general, fails);
    Registry(map u | u in reg.users && AfterSend(reg.users[u], fails).Some? :: AfterSend(reg.users[u], fails).value,
             Sweep(reg.general, reg.general, fails))
  }

  /** send_to_user: only the connections of `userId` are sent to and pruned; an unknown
      user leaves the registry as it is. */
  function SendToUser(reg: Registry, userId: int, fails: Conn -> bool): (r: Registry)
    ensures r.general == reg.general
    ensures userId !in reg.users ==> r == reg
    ensures userId in reg.users ==> (
      && (userId in r.users <==> Survivors(reg.users[userId], fails) != [])
      && (userId in r.users ==> r.users[userId] == Survivors(reg.users[userId], fails)))
    ensures forall u :: u != userId ==> (u in r.users <==> u in reg.users) && (u in reg.users ==> r.users[u] == reg.users[u])
    ensures NoEmptyLists(reg) ==> NoEmptyLists(r)
  {
    if userId in reg.users then
      match AfterSend(reg.users[userId], fails)
      case None => reg.(users := reg.users - {userId})
      case Some(left) => reg.(users := reg.users[userId := left])
    else reg
  }

  /** A connection that failed once is gone after a broadcast, and a second broadcast
      with the same failures changes nothing. */
  lemma BroadcastIsIdempotent(reg: Registry, fails: Conn -> bool)
    ensures Broadcast(Broadcast(reg, fails), fails) == Broadcast(reg, fails)
  {
    var once := Broadcast(reg, fails);
    SurvivorsSurvive(reg.general, fails);
    forall u | u in once.users
      ensures Survivors(once.users[u], fails) == once.users[u]
    {
      SurvivorsSurvive(reg.users[u], fails);
    }
    var twice := Broadcast(once, fails);
    assert twice.users == once.users;
  }

  /** Removing a connection appended to a list without it gives back the list. */
  lemma RemoveAppended(s: seq<Conn>, c: Conn)
    requires c !in s
    ensures RemoveFirst(s + [c], c) == Some(s)
  {
    IndexOfAfter(s, [c]);
    assert (s + [c])[..|s|] + (s + [c])[|s| + 1..] == s;
  }

  /** Connecting and then disconnecting the same new connection gives back the registry. */
  lemma ConnectThenDisconnect(reg: Registry, c: Conn, userId: Option<int>)
    requires NoEmptyLists(reg)
    requires forall u :: u in reg.users ==> c !in reg.users[u]
    requires c !in reg.general
    ensures Disconnect(Connect(reg, c, userId), c, userId) == reg
  {
    if TruthyInt(userId) {
      UserConnectThenDisconnect(reg, c, userId.value);
    } else {
      RemoveAppended(reg.general, c);
    }
  }

  lemma UserConnectThenDisconnect(reg: Registry, c: Conn, u: int)
    requires NoEmptyLists(reg) && u != 0
    requires u in reg.users ==> c !in reg.users[u]
    ensures Disconnect(Connect(reg, c, Some(u)), c, Some(u)) == reg
  {
    var mid := Connect(reg, c, Some(u));
    if u in reg.users {
      var before := reg.users[u];
      assert mid == reg.(users := reg.users[u := before + [c]]);
      RemoveAppended(before, c);
      assert before != [];
      assert Disconnect(mid, c, Some(u)) == mid.(users := mid.users[u := before]);
      assert mid.users[u := before] == reg.users;
    } else {
      var none: seq<Conn> := [];
      assert none + [c] == [c];
      assert mid == reg.(users := reg.users[u := [c]]);
      RemoveAppended([], c);
      assert Disconnect(mid, c, Some(u)) == mid.(users := mid.users - {u});
      assert mid.users - {u} == reg.users;
    }
  }
}

=== FILE: seqs.dfy ===
/** Filtering and counting rows of a table: `SELECT ... WHERE p` and `SELECT count(*) ... WHERE p`. */
module Seqs {

  /** The rows of `s` satisfying `p`, in order. */
  function Filter<T>(s: seq<T>, p: T -> bool): (r: seq<T>)
    ensures |r| <= |s|
    ensures forall k :: 0 <= k < |r| ==> r[k] in s && p(r[k])
    ensures forall k :: 0 <= k < |s| && p(s[k]) ==> s[k] in r
  {
    if |s| == 0 then []
    else (if p(s[0]) then [s[0]] else []) + Filter(s[1..], p)
  }

  /** The number of rows of `s` satisfying `p`, counted one by one. */
  function CountWhere<T>(s: seq<T>, p: T -> bool): (n: nat)
    ensures n <= |s|
  {
    if |s| == 0 then 0
    else (if p(s[0]) then 1 else 0) + CountWhere(s[1..], p)
  }

  /** The count query and the list query agree. */
  lemma {:induction false} CountIsFilterLength<T>(s: seq<T>, p: T -> bool)
    ensures CountWhere(s, p) == |Filter(s, p)|
  {
    if |s| > 0 {
      CountIsFilterLength(s[1..], p);
    }
  }

  lemma {:induction false} FilterConcat<T>(a: seq<T>, b: seq<T>, p: T -> bool)
    ensures Filter(a + b, p) == Filter(a, p) + Filter(b, p)
  {
    if |a| == 0 {
      assert a + b == b;
    } else {
      assert (a + b)[1..] == a[1..] + b;
      FilterConcat(a[1..], b, p);
    }
  }

  /** Filtering keeps every row, in order, when every row passes. */
  lemma {:induction false} FilterAll<T>(s: seq<T>, p: T -> bool)
    requires forall k :: 0 <= k < |s| ==> p(s[k])
    ensures Filter(s, p) == s
  {
    if |s| > 0 {
      FilterAll(s[1..], p);
    }
  }

  /** Filtering drops every row when no row passes. */
  lemma {:induction false} FilterNone<T>(s: seq<T>, p: T -> bool)
    requires forall k :: 0 <= k < |s| ==> !p(s[k])
    ensures Filter(s, p) == []
  {
    if |s| > 0 {
      FilterNone(s[1..], p);
    }
  }

  /** Filtering twice is filtering by the conjunction. */
  lemma {:induction false} FilterFilter<T>(s: seq<T>, p: T -> bool, q: T -> bool)
    ensures Filter(Filter(s, p), q) == Filter(s, x => p(x) && q(x))
  {
    if |s| > 0 {
      FilterFilter(s[1..], p, q);
      var head := if p(s[0]) then [s[0]] else [];
      FilterConcat(head, Filter(s[1..], p), q);
    }
  }

  /** An element of a sequence is an element of any reordering of it. */
  lemma InReordering<T>(x: T, a: seq<T>, b: seq<T>)
    requires multiset(a) == multiset(b) && x in a
    ensures x in b
  {
    assert x in multiset(a);
  }

  /** A reordering of the rows a filter selects holds exactly the rows satisfying it. */
  lemma ReorderedFilter<T>(s: seq<T>, p: T -> bool, r: seq<T>)
    requires multiset(r) == multiset(Filter(s, p))
    ensures forall k :: 0 <= k < |r| ==> r[k] in s && p(r[k])
    ensures forall k :: 0 <= k < |s| && p(s[k]) ==> s[k] in r
  {
    var f := Filter(s, p);
    forall k | 0 <= k < |r|
      ensures r[k] in s && p(r[k])
    {
      InReordering(r[k], r, f);
      var j :| 0 <= j < |f| && f[j] == r[k];
    }
    forall k | 0 <= k < |s| && p(s[k])
      ensures s[k] in r
    {
      InReordering(s[k], f, r);
    }
  }
}

=== FILE: sorting.dfy ===
/** ORDER BY <key> DESC over an in-memory table: an insertion sort on sequences.
    SQL leaves the order of rows with equal keys unspecified; this sort keeps them in
    storage order, which is one of the orders the database may return. */
module Sorting {

  predicate SortedDesc<T>(s: seq<T>, key: T -> int) {
    forall i, j :: 0 <= i < j < |s| ==> key(s[i]) >= key(s[j])
  }

  /** A run of consecutive rows of a sorted list is sorted. */
  lemma SortedWindow<T>(all: seq<T>, w: seq<T>, offset: int, key: T -> int)
    requires SortedDesc(all, key)
    requires |w| > 0 ==> 0 <= offset && offset + |w| <= |all|
    requires forall k :: 0 <= k < |w| ==> w[k] == all[offset + k]
    ensures SortedDesc(w, key)
  {
  }

  lemma InsertBound<T>(x: T, s: seq<T>, r: seq<T>, key: T -> int, top: int)
    requires multiset(r) == multiset(s) + multiset{x}
    requires key(x) <= top
    requires forall k :: 0 <= k < |s| ==> key(s[k]) <= top
    ensures forall k :: 0 <= k < |r| ==> key(r[k]) <= top
  {
    forall k | 0 <= k < |r|
      ensures key(r[k]) <= top
    {
      assert r[k] in multiset(r);
      if r[k] != x {
        assert r[k] in multiset(s);
        var m :| 0 <= m < |s| && s[m] == r[k];
      }
    }
  }

  /** Places `x` into a descending sequence. */
  function Insert<T>(x: T, s: seq<T>, key: T -> int): (r: seq<T>)
    requires SortedDesc(s, key)
    ensures SortedDesc(r, key)
    ensures multiset(r) == multiset(s) + multiset{x}
  {
    if |s| == 0 then [x]
    else if key(x) >= key(s[0]) then [x] + s
    else
      var rest := Insert(x, s[1..], key);
      assert s == [s[0]] + s[1..];
      InsertBound(x, s[1..], rest, key, key(s[0]));
      [s[0]] + rest
  }

  /** The rows of `s` ordered by descending key. */
  function SortDesc<T>(s: seq<T>, key: T -> int): (r: seq<T>)
    ensures SortedDesc(r, key)
    ensures multiset(r) == multiset(s)
    ensures |r| == |s|
  {
    if |s| == 0 then []
    else
      assert s == [s[0]] + s[1..];
      Insert(s[0], SortDesc(s[1..], key), key)
  }
}

=== FILE: text.dfy ===
/** String helpers with Python's meaning: strip, isdigit, int(), lower/upper, split on the
    first separator, and SQL ILIKE '%needle%' as a case-insensitive substring test.
    Character classes cover ASCII; non-ASCII whitespace and digits are not modelled. */
module Text {
  import opened Wrappers

  /** Python's str.isspace on ASCII: tab, newline, vertical tab, form feed, carriage return,
      the four information separators and the space. */
  predicate IsSpace(c: char) {
    ('\t' <= c <= '\r') || ('\U{1C}' <= c <= '\U{1F}') || c == ' '
  }

  predicate IsDigit(c: char) {
    '0' <= c <= '9'
  }

  predicate IsAsciiLower(c: char) {
    'a' <= c <= 'z'
  }

  predicate IsAsciiUpper(c: char) {
    'A' <= c <= 'Z'
  }

  function LowerChar(c: char): char {
    if IsAsciiUpper(c) then (c as int + 32) as char else c
  }

  function UpperChar(c: char): char {
    if IsAsciiLower(c) then (c as int - 32) as char else c
  }

  /** str.lower() on ASCII letters. */
  function Lower(s: string): (r: string)
    ensures |r| == |s|
    ensures forall i :: 0 <= i < |s| ==> r[i] == LowerChar(s[i])
  {
    seq(|s|, i requires 0 <= i < |s| => LowerChar(s[i]))
  }

  /** Leading whitespace removed (str.lstrip()). */
  function TrimStart(s: string): (r: string)
    ensures |r| <= |s| && r == s[|s| - |r|..]
    ensures forall i :: 0 <= i < |s| - |r| ==> IsSpace(s[i])
    ensures |r| > 0 ==> !IsSpace(r[0])
  {
    if |s| > 0 && IsSpace(s[0]) then TrimStart(s[1..]) else s
  }

  /** Trailing whitespace removed (str.rstrip()). */
  function TrimEnd(s: string): (r: string)
    ensures |r| <= |s| && r == s[..|r|]
    ensures forall i :: |r| <= i < |s| ==> IsSpace(s[i])
    ensures |r| > 0 ==> !IsSpace(r[|r| - 1])
  {
    if |s| > 0 && IsSpace(s[|s| - 1]) then TrimEnd(s[..|s| - 1]) else s
  }

  /** str.strip(): whitespace removed from both ends. */
  function Strip(s: string): string {
    TrimEnd(TrimStart(s))
  }

  /** `not s or not s.strip()`: empty or whitespace only. */
  predicate IsBlank(s: string) {
    Strip(s) == ""
  }

  /** A string is blank exactly when every character in it is whitespace. */
  lemma BlankIffAllSpace(s: string)
    ensures IsBlank(s) <==> forall i :: 0 <= i < |s| ==> IsSpace(s[i])
  {
  }

  /** The stripped string is a slice of the input with no whitespace at either end. */
  lemma StripShape(s: string)
    ensures var r := Strip(s);
      && |r| <= |s|
      && (exists i :: 0 <= i <= |s| - |r| && OccursAt(s, r, i))
      && (|r| > 0 ==> !IsSpace(r[0]) && !IsSpace(r[|r| - 1]))
  {
    var t := TrimStart(s);
    var r := TrimEnd(t);
    var i := |s| - |t|;
    assert t == s[i..];
    assert r == t[..|r|];
    assert s[i..][..|r|] == s[i..i + |r|];
    assert OccursAt(s, r, i);
    if |r| > 0 {
      assert r[0] == t[0];
    }
  }

  /** Stripping twice is stripping once. */
  lemma StripIdempotent(s: string)
    ensures Strip(Strip(s)) == Strip(s)
  {
    var r := Strip(s);
    StripShape(s);
    if |r| > 0 {
      assert TrimStart(r) == r;
      assert TrimEnd(r) == r;
    }
  }

  predicate StartsWith(s: string, prefix: string) {
    |prefix| <= |s| && s[..|prefix|] == prefix
  }

  /** `needle` occurs in `hay` starting at position `i`. */
  predicate OccursAt(hay: string, needle: string, i: int) {
    0 <= i <= |hay| - |needle| && hay[i..i + |needle|] == needle
  }

  /** `needle in hay` for Python strings. */
  predicate Contains(hay: string, needle: string) {
    exists i :: 0 <= i <= |hay| - |needle| && OccursAt(hay, needle, i)
  }

  /** SQL `hay ILIKE '%needle%'`, with the needle's characters taken literally. */
  predicate ContainsIgnoreCase(hay: string, needle: string) {
    Contains(Lower(hay), Lower(needle))
  }

  /** str.isdigit() on ASCII: non-empty and all digits. */
  predicate IsDigits(s: string) {
    |s| > 0 && forall i :: 0 <= i < |s| ==> IsDigit(s[i])
  }

  /** The decimal value of a run of digits. */
  function DigitsValue(s: string): (n: nat)
    requires forall i :: 0 <= i < |s| ==> IsDigit(s[i])
    ensures |s| == 0 ==> n == 0
  {
    if |s| == 0 then 0
    else
      assert IsDigit(s[|s| - 1]);
      DigitsValue(s[..|s| - 1]) * 10 + (s[|s| - 1] as int - '0' as int)
  }

  /** Digits in the grouping int() accepts: a digit first and last, and every underscore
      a single one followed by a digit. */
  predicate IsGroupedDigits(s: string) {
    && |s| > 0 && IsDigit(s[0]) && IsDigit(s[|s| - 1])
    && (forall i :: 0 <= i < |s| ==> IsDigit(s[i]) || s[i] == '_')
    && (forall i :: 1 <= i < |s| && s[i - 1] == '_' ==> IsDigit(s[i]))
  }

  /** The text with its underscores taken out. */
  function DropUnderscores(s: string): (r: string)
    ensures '_' !in r && |r| <= |s|
    ensures '_' !in s ==> r == s
    ensures (forall i :: 0 <= i < |s| ==> IsDigit(s[i]) || s[i] == '_') ==> forall k :: 0 <= k < |r| ==> IsDigit(r[k])
    ensures |s| > 0 && s[0] != '_' ==> |r| > 0 && r[0] == s[0]
  {
    if |s| == 0 then []
    else
      var rest := DropUnderscores(s[1..]);
      assert forall i :: 1 <= i < |s| ==> s[1..][i - 1] == s[i];
      if s[0] == '_' then rest else [s[0]] + rest
  }

  /** The value of grouped digits. */
  function GroupedValue(s: string): (n: nat)
    requires IsGroupedDigits(s)
    ensures '_' !in s ==> n == DigitsValue(s)
  {
    DigitsValue(DropUnderscores(s))
  }

  /** Python's int(s) on text: surrounding whitespace, an optional sign, then digits that
      single underscores may group; None where int() raises ValueError. */
  function ParseInt(s: string): (r: Option<int>)
    ensures r.Some? ==> |Strip(s)| > 0
    ensures IsDigits(Strip(s)) ==> r == Some(DigitsValue(Strip(s)))
    ensures IsGroupedDigits(Strip(s)) ==> r == Some(GroupedValue(Strip(s)))
    ensures r.Some? <==> (IsGroupedDigits(Strip(s))
      || (|Strip(s)| >= 2 && (Strip(s)[0] == '+' || Strip(s)[0] == '-') && IsGroupedDigits(Strip(s)[1..])))
  {
    var t := Strip(s);
    if IsGroupedDigits(t) then Some(GroupedValue(t))
    else if |t| >= 2 && (t[0] == '+' || t[0] == '-') && IsGroupedDigits(t[1..]) then
      var magnitude: int := GroupedValue(t[1..]);
      Some(if t[0] == '-' then -magnitude else magnitude)
    else None
  }

  /** Text with no whitespace at either end is its own strip. */
  lemma StripKeepsTrimmed(s: string)
    requires |s| > 0 && !IsSpace(s[0]) && !IsSpace(s[|s| - 1])
    ensures Strip(s) == s
  {
    assert TrimStart(s) == s;
    assert TrimEnd(s) == s;
  }

  /** Text with no whitespace at either end parses as grouped digits, or as a minus sign
      before them. */
  lemma ParsesTrimmed(s: string)
    requires |s| > 0 && !IsSpace(s[0]) && !IsSpace(s[|s| - 1])
    ensures IsGroupedDigits(s) ==> ParseInt(s) == Some(GroupedValue(s))
    ensures |s| >= 2 && s[0] == '-' && IsGroupedDigits(s[1..]) ==> ParseInt(s) == Some(-(GroupedValue(s[1..]) as int))
  {
    StripKeepsTrimmed(s);
  }

  /** "1_0" is grouped digits worth ten. */
  lemma TenIsGrouped()
    ensures IsGroupedDigits("1_0") && GroupedValue("1_0") == 10
  {
    assert DropUnderscores("1_0") == "10" by {
      assert "1_0"[1..] == "_0" && "_0"[1..] == "0" && "0"[1..] == [];
    }
    assert DigitsValue("10") == 10 by {
      assert "10"[..1] == "1" && "1"[..0] == [];
    }
  }

  /** int() reads "1_0" as 10, and "-1_0" as -10. */
  lemma UnderscoresGroupDigits()
    ensures ParseInt("1_0") == Some(10)
    ensures ParseInt("-1_0") == Some(-10)
  {
    TenIsGrouped();
    ParsesTrimmed("1_0");
    assert "-1_0"[1..] == "1_0";
    ParsesTrimmed("-1_0");
  }

  /** A leading, a trailing or a doubled underscore breaks the grouping. */
  lemma StrayUnderscoresBreakGroups()
    ensures !IsGroupedDigits("_1") && !IsGroupedDigits("1_") && !IsGroupedDigits("1__0")
  {
    assert "_1"[0] == '_' && "1_"[1] == '_';
    assert "1__0"[1] == '_' && "1__0"[2] == '_';
  }

  /** int() refuses a leading, a trailing or a doubled underscore. */
  lemma StrayUnderscoresAreRefused()
    ensures ParseInt("_1").None? && ParseInt("1_").None? && ParseInt("1__0").None?
  {
    StrayUnderscoresBreakGroups();
    StripKeepsTrimmed("_1");
    StripKeepsTrimmed("1_");
    StripKeepsTrimmed("1__0");
  }

  /** Position of the first occurrence of `c` in `s`. */
  function IndexOf(s: string, c: char): (r: Option<nat>)
    ensures r.Some? ==> r.value < |s| && s[r.value] == c && c !in s[..r.value]
    ensures r.None? ==> c !in s
  {
    if |s| == 0 then None
    else if s[0] == c then Some(0)
    else match IndexOf(s[1..], c)
      case None => None
      case Some(j) => assert s[1..][..j] == s[1..j + 1]; Some(j + 1)
  }

  /** `s.split(sep, 1)` unpacked into two names: the text before the first separator and
      everything after it; None when there is no separator (the unpacking raises). */
  function SplitFirst(s: string, sep: char): (r: Option<(string, string)>)
    ensures r.None? <==> sep !in s
    ensures r.Some? ==> r.value.0 + [sep] + r.value.1 == s && sep !in r.value.0
  {
    match IndexOf(s, sep)
    case None => None
    case Some(i) => Some((s[..i], s[i + 1..]))
  }
}

=== FILE: ui_pagination.dfy ===
/** UiService on the page: the table a listing renders and the navigation bar beneath it.
    The markup is reduced to the structure it carries: rows of cells, and the sequence of
    links of the pagination bar. */
module UiPagination {
  import opened Wrappers
  import opened Paging

  // ----- renderTable -----

  /** One body row: a record's cells followed by its actions cell, or the single
      message row of an empty table spanning `colspan` columns. */
  datatype BodyRow = Cells(cells: seq<string>, actions: string) | Message(colspan: int, text: string)

  datatype Table = Table(header: seq<string>, body: seq<BodyRow>)

  const DefaultNoRecords: string := "Nenhum registro encontrado."

  /** The number of table columns a body row occupies. */
  function Width(row: BodyRow): int {
    match row
    case Cells(cells, _) => |cells| + 1
    case Message(colspan, _) => colspan
  }

  /** renderTable: one row per record, in order, holding the mapped cells and the actions;
      with no record, one message row spanning the headers and the actions column. */
  function RenderTable<T>(headers: seq<string>, rows: seq<T>, rowMapper: T -> seq<string>,
                          actions: T -> string, noRecords: Option<string>): (r: Table)
    ensures r.header == headers
    ensures |rows| == 0 ==> r.body == [Message(|headers| + 1, if noRecords.Some? then noRecords.value else DefaultNoRecords)]
    ensures |rows| > 0 ==> |r.body| == |rows|
    ensures |rows| > 0 ==> forall k :: 0 <= k < |rows| ==> r.body[k] == Cells(rowMapper(rows[k]), actions(rows[k]))
  {
    if |rows| > 0 then
      Table(headers, seq(|rows|, k requires 0 <= k < |rows| => Cells(rowMapper(rows[k]), actions(rows[k]))))
    else
      Table(headers, [Message(|headers| + 1, if noRecords.Some? then noRecords.value else DefaultNoRecords)])
  }

  /** When the mapper yields one cell per header, every body row, the message row included,
      is exactly as wide as the header plus the actions column. */
  lemma TableIsRectangular<T>(headers: seq<string>, rows: seq<T>, rowMapper: T -> seq<string>,
                              actions: T -> string, noRecords: Option<string>)
    requires forall k :: 0 <= k < |rows| ==> |rowMapper(rows[k])| == |headers|
    ensures |RenderTable(headers, rows, rowMapper, actions, noRecords).body| >= 1
    ensures forall row <- RenderTable(headers, rows, rowMapper, actions, noRecords).body :: Width(row) == |headers| + 1
  {
    var t := RenderTable(headers, rows, rowMapper, actions, noRecords);
    forall row <- t.body
      ensures Width(row) == |headers| + 1
    {
      if |rows| > 0 {
        var k :| 0 <= k < |t.body| && t.body[k] == row;
        assert row == Cells(rowMapper(rows[k]), actions(rows[k]));
      }
    }
  }

  // ----- renderPagination -----

  /** The range of numbered links around the current page: at most two on each side,
      widened to five pages at either end of the range. */
  function PageWindow(current: int, total: int): (r: (int, int))
    ensures 1 <= current <= total ==> 1 <= r.0 <= current <= r.1 <= total
    ensures 1 <= current <= total ==> r.1 - r.0 + 1 == if total <= 5 then total else 5
  {
    var start := if 1 > current - 2 then 1 else current - 2;
    var end := if total < current + 2 then total else current + 2;
    if total <= 5 then (1, total)
    else if current <= 3 then (1, 5)
    else if current + 2 > total then (total - 4, total)
    else (start, end)
  }

  /** A link of the navigation bar. */
  datatype Link = Prev(disabled: bool) | Page(n: int, active: bool) | Gap | Next(disabled: bool)

  /** The numbered links from `lo` to `hi`, the current one marked active. */
  function PageLinks(lo: int, hi: int, current: int): (r: seq<Link>)
    ensures |r| == if hi < lo then 0 else hi - lo + 1
    ensures forall k :: 0 <= k < |r| ==> r[k] == Page(lo + k, (lo + k == current))
    decreases hi + 1 - lo
  {
    if hi < lo then [] else [Page(lo, lo == current)] + PageLinks(lo + 1, hi, current)
  }

  /** The first page and a gap, when the window does not reach them. */
  function Lead(start: int): seq<Link> {
    if start > 1 then [Page(1, false)] + (if start > 2 then [Gap] else []) else []
  }

  /** A gap and the last page, when the window does not reach them. */
  function Trail(end: int, total: int): seq<Link> {
    if end < total then (if end < total - 1 then [Gap] else []) + [Page(total, false)] else []
  }

  /** The links between Previous and Next: the lead, the window, the trail. */
  function MiddleLinks(current: int, total: int): seq<Link> {
    var (start, end) := PageWindow(current, total);
    Lead(start) + PageLinks(start, end, current) + Trail(end, total)
  }

  /** renderPagination's bar: Previous is disabled on page 1, Next on the last page or when
      there is none. */
  function Pagination(current: int, total: int): (r: seq<Link>)
    ensures |r| >= 2 && r[0] == Prev(current == 1) && r[|r| - 1] == Next(current == total || total == 0)
    ensures forall k :: 0 < k < |r| - 1 ==> r[k].Page? || r[k].Gap?
  {
    [Prev(current == 1)] + MiddleLinks(current, total) + [Next(current == total || total == 0)]
  }

  /** Where each link of the middle comes from. */
  lemma MiddleAt(current: int, total: int, k: int)
    requires 1 <= current <= total && 0 <= k < |MiddleLinks(current, total)|
    ensures var (start, end) := PageWindow(current, total);
      var lead := Lead(start);
      var m := MiddleLinks(current, total);
      && |m| == |lead| + (end - start + 1) + |Trail(end, total)|
      && (k < |lead| ==> m[k] == lead[k])
      && (|lead| <= k < |lead| + (end - start + 1) ==> m[k] == Page(start + k - |lead|, start + k - |lead| == current))
      && (|lead| + (end - start + 1) <= k ==> m[k] == Trail(end, total)[k - |lead| - (end - start + 1)])
  {
  }

  /** The middle begins with page 1 and ends with the last page. */
  lemma MiddleEnds(current: int, total: int)
    requires 1 <= current <= total
    ensures var m := MiddleLinks(current, total);
      |m| >= 1 && m[0] == Page(1, current == 1) && m[|m| - 1] == Page(total, current == total)
  {
    var m := MiddleLinks(current, total);
    MiddleAt(current, total, 0);
    MiddleAt(current, total, |m| - 1);
  }

  /** Every numbered link is a page of the range, and it is active exactly when it is the
      current page, which is among them. */
  lemma MiddleMarksCurrent(current: int, total: int)
    requires 1 <= current <= total
    ensures var m := MiddleLinks(current, total);
      && (forall k :: 0 <= k < |m| && m[k].Page? ==> 1 <= m[k].n <= total && (m[k].active <==> m[k].n == current))
      && (exists k :: 0 <= k < |m| && m[k] == Page(current, true))
  {
    var m := MiddleLinks(current, total);
    forall k | 0 <= k < |m| && m[k].Page?
      ensures 1 <= m[k].n <= total && (m[k].active <==> m[k].n == current)
    {
      MiddleAt(current, total, k);
    }
    var (start, _) := PageWindow(current, total);
    var j := |Lead(start)| + current - start;
    MiddleAt(current, total, j);
  }

  /** Side by side, two numbered links are consecutive pages; a gap stands only between two
      numbered links that skip at least one page. */
  lemma MiddleNeighbours(current: int, total: int)
    requires 1 <= current <= total
    ensures var m := MiddleLinks(current, total);
      && (forall k :: 0 <= k < |m| - 1 && m[k].Page? && m[k + 1].Page? ==> m[k + 1].n == m[k].n + 1)
      && (forall k :: 0 <= k < |m| && m[k].Gap? ==> 0 < k < |m| - 1 && m[k - 1].Page? && m[k + 1].Page? && m[k + 1].n >= m[k - 1].n + 2)
  {
    var m := MiddleLinks(current, total);
    forall k | 0 <= k < |m| - 1 && m[k].Page? && m[k + 1].Page?
      ensures m[k + 1].n == m[k].n + 1
    {
      MiddleAt(current, total, k);
      MiddleAt(current, total, k + 1);
    }
    forall k | 0 <= k < |m| && m[k].Gap?
      ensures 0 < k < |m| - 1 && m[k - 1].Page? && m[k + 1].Page? && m[k + 1].n >= m[k - 1].n + 2
    {
      MiddleAt(current, total, k);
      MiddleEnds(current, total);
      MiddleAt(current, total, k - 1);
      MiddleAt(current, total, k + 1);
    }
  }

  /** A bar with no page at all offers only the two disabled ends. */
  lemma NoPagesIsTwoDisabledEnds()
    ensures Pagination(1, 0) == [Prev(true), Next(true)]
  {
    assert PageWindow(1, 0) == (1, 0);
  }

  /** The page-size selector: one option per allowed size, the current size selected. */
  function SizeOptions(currentSize: int): (r: seq<(int, bool)>)
    ensures |r| == |PageSizes|
    ensures forall k :: 0 <= k < |r| ==> r[k].0 == PageSizes[k] && (r[k].1 <==> PageSizes[k] == currentSize)
  {
    seq(|PageSizes|, k requires 0 <= k < |PageSizes| => (PageSizes[k], PageSizes[k] == currentSize))
  }

  /** Exactly one option is selected when the current size is an allowed one, none otherwise. */
  lemma OneSizeIsSelected(currentSize: int)
    ensures currentSize in PageSizes ==> exists k :: 0 <= k < |PageSizes| && SizeOptions(currentSize)[k].1
    ensures forall j, k :: 0 <= j < k < |PageSizes| ==> !(SizeOptions(currentSize)[j].1 && SizeOptions(currentSize)[k].1)
    ensures currentSize !in PageSizes ==> forall k :: 0 <= k < |PageSizes| ==> !SizeOptions(currentSize)[k].1
  {
    if currentSize in PageSizes {
      var k :| 0 <= k < |PageSizes| && PageSizes[k] == currentSize;
      assert SizeOptions(currentSize)[k].1;
    }
  }
}

=== FILE: user_service.dfy ===
/** UsuarioService: creating the first user, creating, deleting and updating users, and the
    validations behind them (unique fields, user type, sector, permission). Password
    hashing is a parameter `hash`.

    The request models as declared carry no `username`, and _validate_unique_fields reads
    it first, so as written every create, first-user and update call that gets past the
    404 and 403 checks raises an unhandled AttributeError. The `AsWritten` members model
    that; the other members model the service with the request models completed
    (`username` declared, the password of an update given as text) and the username
    stored on insert. */
module UserService {
  import opened Wrappers
  import opened Text
  import opened Errors
  import opened Domain

  /** The role that may manage users (USUARIO_DIRECAO). */
  const Direction: int := 3

  /** The user types RoleEnum allows. */
  predicate ValidKind(kind: int) {
    kind in {1, 2, 3}
  }

  // ----- the request models as declared -----

  /** UsuarioCreate as declared: no username. */
  datatype DeclaredCreate = DeclaredCreate(
    name: string,
    email: string,
    siape: Option<int>,
    kind: int,
    sectorId: int,
    password: string)

  /** UsuarioUpdate as declared: no username and no SIAPE, and the password typed as an
      optional integer. */
  datatype DeclaredUpdate = DeclaredUpdate(
    name: Option<string>,
    email: Option<string>,
    kind: Option<int>,
    sectorId: Option<int>,
    password: Option<int>)

  // ----- the request models completed -----

  /** UsuarioCreate with the username the `username` column requires. */
  datatype UserCreate = UserCreate(
    name: string,
    email: string,
    username: string,
    siape: Option<int>,
    kind: int,
    sectorId: int,
    password: string)

  /** UsuarioUpdate with every field the service reads, all optional. */
  datatype UserUpdate = UserUpdate(
    name: Option<string>,
    email: Option<string>,
    username: Option<string>,
    siape: Option<int>,
    kind: Option<int>,
    sectorId: Option<int>,
    password: Option<string>)

  /** A declared create request completed with a username. */
  function WithUsername(d: DeclaredCreate, username: string): (c: UserCreate)
    ensures c.username == username && c.name == d.name && c.email == d.email && c.siape == d.siape
    ensures c.kind == d.kind && c.sectorId == d.sectorId && c.password == d.password
  {
    UserCreate(d.name, d.email, username, d.siape, d.kind, d.sectorId, d.password)
  }

  /** Whether a user other than `exclude` already has the given value in a field. */
  predicate UsernameTaken(users: seq<User>, value: string, exclude: Option<int>) {
    exists k :: 0 <= k < |users| && users[k].username == Some(value) && (exclude.None? || users[k].id != exclude.value)
  }

  predicate EmailTaken(users: seq<User>, value: string, exclude: Option<int>) {
    exists k :: 0 <= k < |users| && users[k].email == value && (exclude.None? || users[k].id != exclude.value)
  }

  predicate SiapeTaken(users: seq<User>, value: int, exclude: Option<int>) {
    exists k :: 0 <= k < |users| && users[k].siape == Some(value) && (exclude.None? || users[k].id != exclude.value)
  }

  /** What the unique columns of `usuario` (an e-mail, a non-null SIAPE) refuse at the
      commit: a value another row already has. */
  predicate UniqueClash(users: seq<User>, email: string, siape: Option<int>, exclude: Option<int>) {
    EmailTaken(users, email, exclude) || (siape.Some? && SiapeTaken(users, siape.value, exclude))
  }

  /** _validate_unique_fields, once every field it reads is declared: username, then
      e-mail, then SIAPE; each is checked only when given (truthy), and the first one
      another user already has is reported. */
  function CheckUnique(users: seq<User>, username: Option<string>, email: Option<string>, siape: Option<int>,
                       exclude: Option<int>): (r: Option<Reason>)
    ensures r.None? <==> (
      && !(TruthyStr(username) && UsernameTaken(users, username.value, exclude))
      && !(TruthyStr(email) && EmailTaken(users, email.value, exclude))
      && !(TruthyInt(siape) && SiapeTaken(users, siape.value, exclude)))
    ensures TruthyStr(username) && UsernameTaken(users, username.value, exclude) ==> r == Some(FieldInUse("Username"))
    ensures (!(TruthyStr(username) && UsernameTaken(users, username.value, exclude))
             && TruthyStr(email) && EmailTaken(users, email.value, exclude))
      ==> r == Some(FieldInUse("Email_Usuario"))
    ensures (!(TruthyStr(username) && UsernameTaken(users, username.value, exclude))
             && !(TruthyStr(email) && EmailTaken(users, email.value, exclude))
             && TruthyInt(siape) && SiapeTaken(users, siape.value, exclude))
      ==> r == Some(FieldInUse("Siape_Usuario"))
  {
    if TruthyStr(username) && UsernameTaken(users, username.value, exclude) then Some(FieldInUse("Username"))
    else if TruthyStr(email) && EmailTaken(users, email.value, exclude) then Some(FieldInUse("Email_Usuario"))
    else if TruthyInt(siape) && SiapeTaken(users, siape.value, exclude) then Some(FieldInUse("Siape_Usuario"))
    else None
  }

  /** create_usuario as written: the unique-field check reads `username`, which
      UsuarioCreate does not declare, so every call raises before any write. */
  function CreateUserAsWritten(db: Db, data: DeclaredCreate): (r: (Db, Result<User, Reason>))
    ensures r.0 == db && r.1 == Err(UnhandledError)
  {
    (db, Err(UnhandledError))
  }

  /** create_usuario with the username declared and stored: the validations, then the
      insert of the name, e-mail, username, SIAPE, type, sector and hashed password. The
      unique check skips an empty e-mail and a SIAPE of 0, so those can still meet the
      unique columns at the commit, an unhandled 500. */
  function CreateUser(db: Db, data: UserCreate, hash: string -> string): (r: (Db, Result<User, Reason>))
    ensures r.1.Err? ==> r.0 == db
    ensures r.1.Err? ==> r.1.error in {FieldInUse("Username"), FieldInUse("Email_Usuario"), FieldInUse("Siape_Usuario"),
                                       InvalidUserType, SectorNotFound, UnhandledError}
    ensures (CheckUnique(db.users, Some(data.username), Some(data.email), data.siape, None).None?
             && ValidKind(data.kind) && SectorExists(db, data.sectorId)
             && UniqueClash(db.users, data.email, data.siape, None))
      ==> r == (db, Err(UnhandledError))
    ensures CheckUnique(db.users, Some(data.username), Some(data.email), data.siape, None).Some?
      ==> r.1 == Err(CheckUnique(db.users, Some(data.username), Some(data.email), data.siape, None).value)
    ensures !ValidKind(data.kind) && CheckUnique(db.users, Some(data.username), Some(data.email), data.siape, None).None?
      ==> r.1 == Err(InvalidUserType)
    ensures r.1.Ok? <==> (
      && CheckUnique(db.users, Some(data.username), Some(data.email), data.siape, None).None?
      && ValidKind(data.kind) && SectorExists(db, data.sectorId)
      && !UniqueClash(db.users, data.email, data.siape, None))
    ensures r.1.Ok? ==> (
      && r.1.value == User(db.nextId, data.name, data.email, Some(data.username), data.siape, data.kind, data.sectorId,
                           hash(data.password), true)
      && r.0 == db.(users := db.users + [r.1.value], nextId := db.nextId + 1))
  {
    match CheckUnique(db.users, Some(data.username), Some(data.email), data.siape, None)
    case Some(e) => (db, Err(e))
    case None =>
      if !ValidKind(data.kind) then (db, Err(InvalidUserType))
      else if !SectorExists(db, data.sectorId) then (db, Err(SectorNotFound))
      else if UniqueClash(db.users, data.email, data.siape, None) then (db, Err(UnhandledError))
      else
        var u := User(db.nextId, data.name, data.email, Some(data.username), data.siape, data.kind, data.sectorId,
                      hash(data.password), true);
        (db.(users := db.users + [u], nextId := db.nextId + 1), Ok(u))
  }

  /** Every request the completed service would accept fails as written, and nothing is
      stored. */
  lemma NoUserIsCreatedAsWritten(db: Db, data: DeclaredCreate, username: string, hash: string -> string)
    requires CreateUser(db, WithUsername(data, username), hash).1.Ok?
    ensures CreateUserAsWritten(db, data) == (db, Err(UnhandledError))
    ensures |CreateUser(db, WithUsername(data, username), hash).0.users| == |db.users| + 1
  {
  }

  /** create_first_user as written: refused with 403 once any user exists; otherwise it
      calls SetorService.create_root_setor, which the sector service does not define, and
      raises. */
  function CreateFirstUserAsWritten(db: Db, data: DeclaredCreate): (r: (Db, Result<User, Reason>))
    ensures |db.users| > 0 ==> r == (db, Err(UsersAlreadyExist))
    ensures |db.users| == 0 ==> r == (db, Err(UnhandledError))
  {
    if |db.users| > 0 then (db, Err(UsersAlreadyExist)) else (db, Err(UnhandledError))
  }

  /** create_first_user completed: refused with 403 once any user exists; otherwise the
      new user is made a direction user in the root sector. The sector `rootSectorId`
      stands for the root sector the service means to create. */
  function CreateFirstUser(db: Db, data: UserCreate, rootSectorId: int, hash: string -> string)
    : (r: (Db, Result<User, Reason>))
    requires SectorExists(db, rootSectorId)
    ensures |db.users| > 0 ==> r == (db, Err(UsersAlreadyExist))
    ensures |db.users| == 0 ==> (
      && r.1.Ok?
      && r.1.value.kind == Direction && r.1.value.sectorId == rootSectorId
      && r.1.value.name == data.name && r.1.value.email == data.email
      && r.1.value.username == Some(data.username)
      && r.0.users == [r.1.value])
  {
    if |db.users| > 0 then (db, Err(UsersAlreadyExist))
    else CreateUser(db, data.(kind := Direction, sectorId := rootSectorId), hash)
  }

  /** As written no first user is ever created; completed, the first call creates one
      and any later call is refused. */
  lemma FirstUserOnlyOnce(db: Db, declared: DeclaredCreate, a: UserCreate, b: UserCreate, rootSectorId: int,
                          hash: string -> string)
    requires |db.users| == 0 && SectorExists(db, rootSectorId)
    ensures CreateFirstUserAsWritten(db, declared).1.Err?
    ensures var first := CreateFirstUser(db, a, rootSectorId, hash);
      && |first.0.users| == 1
      && SectorExists(first.0, rootSectorId)
      && CreateFirstUser(first.0, b, rootSectorId, hash) == (first.0, Err(UsersAlreadyExist))
  {
    var first := CreateFirstUser(db, a, rootSectorId, hash);
    assert first.0.sectors == db.sectors;
  }

  /** delete_usuario: 404 for an unknown id, then 403 unless the caller is a direction
      user; otherwise the row is deleted, and the commit fails with an unhandled 500 when
      an item or a withdrawal still refers to the user. */
  function DeleteUser(db: Db, id: int, current: User): (r: (Db, Option<Reason>))
    ensures FindUser(db.users, id).None? ==> r == (db, Some(UserNotFound))
    ensures FindUser(db.users, id).Some? && current.kind != Direction ==> r == (db, Some(NoPermission))
    ensures FindUser(db.users, id).Some? && current.kind == Direction && UserReferenced(db, id)
      ==> r == (db, Some(UnhandledError))
    ensures r.1.None? <==> FindUser(db.users, id).Some? && current.kind == Direction && !UserReferenced(db, id)
    ensures r.1.None? ==> (
      var k := FindUser(db.users, id).value;
      k < |db.users| && r.0 == db.(users := db.users[..k] + db.users[k + 1..]))
  {
    match FindUser(db.users, id)
    case None => (db, Some(UserNotFound))
    case Some(k) =>
      if current.kind != Direction then (db, Some(NoPermission))
      else if UserReferenced(db, id) then (db, Some(UnhandledError))
      else (db.(users := db.users[..k] + db.users[k + 1..]), None)
  }

  /** A deletion never leaves an item or a withdrawal pointing at a missing user. */
  lemma DeleteKeepsReferencesValid(db: Db, id: int, current: User)
    requires KeysUnique(db.users, UserKey)
    requires DeleteUser(db, id, current).1.None?
    ensures forall k :: 0 <= k < |db.items| && UserExists(db, db.items[k].auditUser) ==>
      UserExists(DeleteUser(db, id, current).0, db.items[k].auditUser)
    ensures forall w :: 0 <= w < |db.withdrawals| && UserExists(db, db.withdrawals[w].requester) ==>
      UserExists(DeleteUser(db, id, current).0, db.withdrawals[w].requester)
  {
    var after := DeleteUser(db, id, current).0;
    var i := FindUser(db.users, id).value;
    RemoveKeyed(db.users, UserKey, i);
    forall k | 0 <= k < |db.items| && UserExists(db, db.items[k].auditUser)
      ensures UserExists(after, db.items[k].auditUser)
    {
      var u := db.items[k].auditUser;
      var j :| 0 <= j < |db.users| && db.users[j].id == u;
      assert u != id;
      assert db.users[j] in after.users;
      var m :| 0 <= m < |after.users| && after.users[m] == db.users[j];
    }
    forall w | 0 <= w < |db.withdrawals| && UserExists(db, db.withdrawals[w].requester)
      ensures UserExists(after, db.withdrawals[w].requester)
    {
      var u := db.withdrawals[w].requester;
      var j :| 0 <= j < |db.users| && db.users[j].id == u;
      assert u != id;
      assert db.users[j] in after.users;
      var m :| 0 <= m < |after.users| && after.users[m] == db.users[j];
    }
  }

  /** Under the primary key, deleting a user removes that user and keeps every other one. */
  lemma DeleteKeepsOtherUsers(db: Db, id: int, current: User)
    requires KeysUnique(db.users, UserKey)
    requires DeleteUser(db, id, current).1.None?
    ensures forall x :: x in DeleteUser(db, id, current).0.users <==> x in db.users && x.id != id
    ensures FindUser(DeleteUser(db, id, current).0.users, id).None?
  {
    RemoveKeyed(db.users, UserKey, FindUser(db.users, id).value);
  }

  function UserKey(x: User): int {
    x.id
  }

  /** _prepare_update_fields: copies each given field (truthy texts, non-None numbers),
      lower-casing e-mail and username and hashing the password; reports whether any was
      given. SIAPE is checked for uniqueness but never copied. */
  function PrepareUpdate(u: User, data: UserUpdate, hash: string -> string): (r: (User, bool))
    ensures r.1 <==> (TruthyStr(data.name) || TruthyStr(data.email) || TruthyStr(data.username)
                      || data.kind.Some? || data.sectorId.Some? || TruthyStr(data.password))
    ensures !r.1 ==> r.0 == u
    ensures r.0.name == if TruthyStr(data.name) then data.name.value else u.name
    ensures r.0.email == if TruthyStr(data.email) then Lower(data.email.value) else u.email
    ensures r.0.username == if TruthyStr(data.username) then Some(Lower(data.username.value)) else u.username
    ensures r.0.kind == if data.kind.Some? then data.kind.value else u.kind
    ensures r.0.sectorId == if data.sectorId.Some? then data.sectorId.value else u.sectorId
    ensures r.0.password == if TruthyStr(data.password) then hash(data.password.value) else u.password
    ensures r.0.id == u.id && r.0.siape == u.siape && r.0.active == u.active
  {
    var u1 := if TruthyStr(data.name) then u.(name := data.name.value) else u;
    var u2 := if TruthyStr(data.email) then u1.(email := Lower(data.email.value)) else u1;
    var u3 := if TruthyStr(data.username) then u2.(username := Some(Lower(data.username.value))) else u2;
    var u4 := if data.kind.Some? then u3.(kind := data.kind.value) else u3;
    var u5 := if data.sectorId.Some? then u4.(sectorId := data.sectorId.value) else u4;
    var u6 := if TruthyStr(data.password) then u5.(password := hash(data.password.value)) else u5;
    (u6, TruthyStr(data.name) || TruthyStr(data.email) || TruthyStr(data.username)
         || data.kind.Some? || data.sectorId.Some? || TruthyStr(data.password))
  }

  /** update_usuario as written: 404 for an unknown id, then 403 unless the caller is a
      direction user; past those checks the unique-field check reads `username`, which
      UsuarioUpdate does not declare, and raises before any write. */
  function UpdateUserAsWritten(db: Db, id: int, data: DeclaredUpdate, current: User): (r: (Db, Result<User, Reason>))
    ensures r.0 == db
    ensures FindUser(db.users, id).None? ==> r.1 == Err(UserNotFound)
    ensures FindUser(db.users, id).Some? && current.kind != Direction ==> r.1 == Err(NoPermission)
    ensures FindUser(db.users, id).Some? && current.kind == Direction ==> r.1 == Err(UnhandledError)
  {
    match FindUser(db.users, id)
    case None => (db, Err(UserNotFound))
    case Some(_) => if current.kind != Direction then (db, Err(NoPermission)) else (db, Err(UnhandledError))
  }

  /** update_usuario completed, with the type check as a parameter: lookup, permission,
      unique fields (the user itself excluded), type, then the copy, committed only when
      something was given. The sector is not checked before the commit, whose foreign key
      refuses an unknown one with an unhandled 500. The e-mail is checked as sent but
      stored lower-cased, so one that differs from another user's only in case passes the
      check and meets the unique column at the commit, also a 500. */
  function UpdateUserWith(db: Db, id: int, data: UserUpdate, current: User, hash: string -> string,
                          kindOk: Option<int> -> bool): (r: (Db, Result<User, Reason>))
    ensures FindUser(db.users, id).None? ==> r == (db, Err(UserNotFound))
    ensures FindUser(db.users, id).Some? && current.kind != Direction ==> r == (db, Err(NoPermission))
    ensures r.1.Err? ==> r.0 == db
    ensures r.1.Ok? ==> (
      && FindUser(db.users, id).Some?
      && var k := FindUser(db.users, id).value;
      && k < |db.users|
      && current.kind == Direction
      && CheckUnique(db.users, data.username, data.email, data.siape, Some(id)).None?
      && kindOk(data.kind)
      && (data.sectorId.Some? ==> SectorExists(db, data.sectorId.value))
      && !(TruthyStr(data.email) && EmailTaken(db.users, Lower(data.email.value), Some(id)))
      && r.1.value == PrepareUpdate(db.users[k], data, hash).0
      && r.0 == db.(users := db.users[k := r.1.value]))
  {
    match FindUser(db.users, id)
    case None => (db, Err(UserNotFound))
    case Some(k) =>
      if current.kind != Direction then (db, Err(NoPermission))
      else match CheckUnique(db.users, data.username, data.email, data.siape, Some(id))
        case Some(e) => (db, Err(e))
        case None =>
          if !kindOk(data.kind) then (db, Err(InvalidUserType))
          else if data.sectorId.Some? && !SectorExists(db, data.sectorId.value) then (db, Err(UnhandledError))
          else if TruthyStr(data.email) && EmailTaken(db.users, Lower(data.email.value), Some(id)) then
            (db, Err(UnhandledError))
          else
            var prepared := PrepareUpdate(db.users[k], data, hash);
            if prepared.1 then (db.(users := db.users[k := prepared.0]), Ok(prepared.0))
            else (db, Ok(db.users[k]))
  }

  /** The type check as written: the possibly absent type must be one of 1, 2, 3. */
  predicate KindCheckAsWritten(kind: Option<int>) {
    kind.Some? && ValidKind(kind.value)
  }

  /** The type check as intended: only a given type is checked. */
  predicate KindCheck(kind: Option<int>) {
    kind.None? || ValidKind(kind.value)
  }

  /** update_usuario with the request model completed but the type check left as written:
      _validate_tipo_usuario also runs on updates, where the type is optional, so an update
      that leaves the type alone is refused with 400. The crash on the undeclared
      username hides this as the code stands. */
  function UpdateUserCheckingAbsentKind(db: Db, id: int, data: UserUpdate, current: User, hash: string -> string)
    : (r: (Db, Result<User, Reason>))
    ensures r.1.Err? ==> r.0 == db
    ensures data.kind.None? && FindUser(db.users, id).Some? && current.kind == Direction
      && CheckUnique(db.users, data.username, data.email, data.siape, Some(id)).None?
      ==> r == (db, Err(InvalidUserType))
  {
    UpdateUserWith(db, id, data, current, hash, KindCheckAsWritten)
  }

  /** update_usuario completed, with the type validated only when given. */
  function UpdateUser(db: Db, id: int, data: UserUpdate, current: User, hash: string -> string)
    : (r: (Db, Result<User, Reason>))
    ensures FindUser(db.users, id).None? ==> r == (db, Err(UserNotFound))
    ensures FindUser(db.users, id).Some? && current.kind != Direction ==> r == (db, Err(NoPermission))
    ensures r.1.Err? ==> r.0 == db
    ensures (FindUser(db.users, id).Some? && current.kind == Direction
             && CheckUnique(db.users, data.username, data.email, data.siape, Some(id)).None?
             && KindCheck(data.kind) && data.sectorId.Some? && !SectorExists(db, data.sectorId.value))
      ==> r == (db, Err(UnhandledError))
    ensures (FindUser(db.users, id).Some? && current.kind == Direction
             && CheckUnique(db.users, data.username, data.email, data.siape, Some(id)).None?
             && KindCheck(data.kind) && TruthyStr(data.email)
             && EmailTaken(db.users, Lower(data.email.value), Some(id)))
      ==> r == (db, Err(UnhandledError))
    ensures r.1.Ok? <==> (
      && FindUser(db.users, id).Some? && current.kind == Direction
      && CheckUnique(db.users, data.username, data.email, data.siape, Some(id)).None?
      && KindCheck(data.kind)
      && (data.sectorId.Some? ==> SectorExists(db, data.sectorId.value))
      && !(TruthyStr(data.email) && EmailTaken(db.users, Lower(data.email.value), Some(id))))
    ensures r.1.Ok? ==>
      var k := FindUser(db.users, id).value;
      && r.1.value == PrepareUpdate(db.users[k], data, hash).0
      && r.0 == db.(users := db.users[k := r.1.value])
  {
    UpdateUserWith(db, id, data, current, hash, KindCheck)
  }

  /** An update rewrites only the user it names: the id stays, every other row is kept in
      place, and the user is found at the same position afterwards. */
  lemma UpdateKeepsOtherUsers(db: Db, id: int, data: UserUpdate, current: User, hash: string -> string)
    requires UpdateUser(db, id, data, current, hash).1.Ok?
    ensures var k := FindUser(db.users, id).value;
      var after := UpdateUser(db, id, data, current, hash).0.users;
      && |after| == |db.users|
      && after[k].id == id
      && (forall j :: 0 <= j < |after| && j != k ==> after[j] == db.users[j])
      && FindUser(after, id) == Some(k)
  {
    var k := FindUser(db.users, id).value;
    var after := UpdateUser(db, id, data, current, hash).0.users;
    assert after[k].id == id;
    assert forall j :: 0 <= j < k ==> after[j].id != id;
  }

  /** A rename alone: as written it fails with 500 on the undeclared username; with the
      username declared but the type check unchanged it is refused with 400; completed it
      succeeds and changes only the name. */
  lemma RenameBehindTheCrash(db: Db, id: int, name: string, current: User, hash: string -> string)
    requires FindUser(db.users, id).Some? && current.kind == Direction && name != ""
    ensures UpdateUserAsWritten(db, id, DeclaredUpdate(Some(name), None, None, None, None), current)
      == (db, Err(UnhandledError))
    ensures var data := UserUpdate(Some(name), None, None, None, None, None, None);
      && UpdateUserCheckingAbsentKind(db, id, data, current, hash) == (db, Err(InvalidUserType))
      && UpdateUser(db, id, data, current, hash).1.Ok?
      && UpdateUser(db, id, data, current, hash).1.value == db.users[FindUser(db.users, id).value].(name := name)
  {
  }

  /** The permission check does not look at the target: a direction user may change any
      user, and no other user may change anyone, themselves included. */
  lemma PermissionIgnoresTarget(db: Db, id: int, data: UserUpdate, current: User, hash: string -> string)
    requires FindUser(db.users, id).Some? && current.kind != Direction
    ensures UpdateUser(db, id, data, current, hash) == (db, Err(NoPermission))
    ensures DeleteUser(db, id, current) == (db, Some(NoPermission))
  {
  }

  /** The sector is checked before the insert but not before an update's commit: an
      unknown sector is a 404 on create and an unhandled 500 on update, while a known one
      is accepted by both. */
  lemma UnknownSectorOnUpdateIsServerError(db: Db, id: int, sectorId: int, current: User, data: UserCreate,
                                           hash: string -> string)
    requires FindUser(db.users, id).Some? && current.kind == Direction
    requires CheckUnique(db.users, Some(data.username), Some(data.email), data.siape, None).None?
    requires ValidKind(data.kind) && !UniqueClash(db.users, data.email, data.siape, None)
    ensures var move := UserUpdate(None, None, None, None, None, Some(sectorId), None);
      && (!SectorExists(db, sectorId) ==>
            && UpdateUser(db, id, move, current, hash) == (db, Err(UnhandledError))
            && CreateUser(db, data.(sectorId := sectorId), hash).1 == Err(SectorNotFound))
      && (SectorExists(db, sectorId) ==>
            && UpdateUser(db, id, move, current, hash).1.Ok?
            && UpdateUser(db, id, move, current, hash).1.value.sectorId == sectorId
            && CreateUser(db, data.(sectorId := sectorId), hash).1.Ok?)
  {
  }

  /** A user may keep its own e-mail: the uniqueness check leaves the user itself out, and
      so does the unique column once no other user has the e-mail's lower-case form. */
  lemma OwnEmailIsNotInUse(db: Db, id: int, current: User, hash: string -> string)
    requires FindUser(db.users, id).Some? && current.kind == Direction
    requires var own := db.users[FindUser(db.users, id).value].email;
      forall k :: 0 <= k < |db.users| && db.users[k].id != id ==> db.users[k].email != own && db.users[k].email != Lower(own)
    ensures var own := db.users[FindUser(db.users, id).value].email;
      UpdateUser(db, id, UserUpdate(None, Some(own), None, None, None, None, None), current, hash).1.Ok?
  {
  }

  /** An e-mail that another user has up to case passes the check as sent, and the stored
      lower-case copy then fails the unique column at the commit: a 500, nothing changed. */
  lemma CaseOnlyEmailClashIsServerError(db: Db, id: int, email: string, current: User, hash: string -> string)
    requires FindUser(db.users, id).Some? && current.kind == Direction && email != ""
    requires !EmailTaken(db.users, email, Some(id)) && EmailTaken(db.users, Lower(email), Some(id))
    ensures var data := UserUpdate(None, Some(email), None, None, None, None, None);
      && CheckUnique(db.users, None, Some(email), None, Some(id)).None?
      && UpdateUser(db, id, data, current, hash) == (db, Err(UnhandledError))
  {
  }

  /** The same with concrete rows: user 1 holds "b@x.com", and user 2 is updated to
      "B@x.com". */
  lemma UpperCaseEmailDuplicates(u1: User, u2: User, current: User, hash: string -> string)
    requires u1.id == 1 && u1.email == "b@x.com" && u2.id == 2 && u2.email == "c@x.com"
    requires current.kind == Direction
    ensures var db := Db([], [], [], [u1, u2], [], [], 0);
      UpdateUser(db, 2, UserUpdate(None, Some("B@x.com"), None, None, None, None, None), current, hash)
        == (db, Err(UnhandledError))
  {
    var db := Db([], [], [], [u1, u2], [], [], 0);
    assert Lower("B@x.com") == "b@x.com";
    assert db.users[0].email == Lower("B@x.com");
    assert db.users[1].id == 2 && db.users[0].id != 2;
    assert db.users[0].email != "B@x.com";
    CaseOnlyEmailClashIsServerError(db, 2, "B@x.com", current, hash);
  }

  /** A SIAPE of 0 is falsy, so the unique check skips it; a second user with SIAPE 0 then
      fails the unique column at the insert's commit: a 500, nothing stored. */
  lemma ZeroSiapeClashesAtCommit(db: Db, data: UserCreate, hash: string -> string)
    requires data.siape == Some(0) && SiapeTaken(db.users, 0, None)
    requires !(data.username != "" && UsernameTaken(db.users, data.username, None))
    requires !(data.email != "" && EmailTaken(db.users, data.email, None))
    requires ValidKind(data.kind) && SectorExists(db, data.sectorId)
    ensures CheckUnique(db.users, Some(data.username), Some(data.email), data.siape, None).None?
    ensures CreateUser(db, data, hash) == (db, Err(UnhandledError))
  {
  }
}

=== FILE: withdrawal_cart.dfy ===
/** The withdrawal request form: the list of items the user gathers before sending, and
    the request it sends to RetiradaService. */
module WithdrawalCart {
  import opened Wrappers
  import opened Text
  import opened Seqs
  import opened Domain
  import opened WithdrawalService

  /** One gathered item: its id, the name shown, the quantity asked for. */
  datatype Entry = Entry(itemId: int, name: string, quantity: int)

  type Cart = seq<Entry>

  /** The item picked in the search box, with the stock it showed. */
  datatype Selection = Selection(itemId: int, name: string, available: int)

  /** Why the form refuses an action (each is a warning shown to the user). */
  datatype CartError = NoSelection | InvalidQuantity | ExceedsStock(available: int) | NoSector | EmptyCart

  /** No item appears twice in the list. */
  predicate UniqueIds(cart: Cart) {
    forall i, j :: 0 <= i < j < |cart| ==> cart[i].itemId != cart[j].itemId
  }

  /** Every gathered quantity is positive. */
  predicate Positive(cart: Cart) {
    forall k :: 0 <= k < |cart| ==> cart[k].quantity > 0
  }

  /** The request lines the list turns into. */
  function Lines(cart: Cart): (r: seq<Line>)
    ensures |r| == |cart|
    ensures forall k :: 0 <= k < |cart| ==> r[k].itemId == cart[k].itemId && r[k].quantity == cart[k].quantity
  {
    seq(|cart|, k requires 0 <= k < |cart| => Line(cart[k].itemId, cart[k].quantity))
  }

  /** The position of the first entry for `id` (the `find` of the form). */
  function FindEntry(cart: Cart, id: int): (r: Option<nat>)
    ensures r.Some? ==> r.value < |cart| && cart[r.value].itemId == id
    ensures r.Some? ==> forall k :: 0 <= k < r.value ==> cart[k].itemId != id
    ensures r.None? <==> forall k :: 0 <= k < |cart| ==> cart[k].itemId != id
  {
    if |cart| == 0 then None
    else if cart[0].itemId == id then Some(0)
    else match FindEntry(cart[1..], id)
      case None =>
        assert forall k :: 1 <= k < |cart| ==> cart[k] == cart[1..][k - 1];
        None
      case Some(j) => Some(j + 1)
  }

  /** _adicionarItemParaRetirada: with an item selected and a positive quantity that, added
      to what the list already holds of the item, stays within the stock shown, the quantity
      joins the item's entry, or a new entry at the end; otherwise the list is left alone. */
  function Add(cart: Cart, selection: Option<Selection>, quantity: Option<int>): (r: Result<Cart, CartError>)
    ensures selection.None? ==> r == Err(NoSelection)
    ensures selection.Some? && (quantity.None? || quantity.value <= 0) ==> r == Err(InvalidQuantity)
    ensures r.Err? && r.error.ExceedsStock? ==> selection.Some? && r.error.available == selection.value.available
    ensures r.Ok? ==> selection.Some? && quantity.Some? && quantity.value > 0
    ensures r.Ok? && FindEntry(cart, selection.value.itemId).None? ==>
      r.value == cart + [Entry(selection.value.itemId, selection.value.name, quantity.value)]
    ensures r.Ok? && FindEntry(cart, selection.value.itemId).Some? ==>
      var k := FindEntry(cart, selection.value.itemId).value;
      |r.value| == |cart| && r.value[k].quantity == cart[k].quantity + quantity.value
      && r.value[k] == cart[k].(quantity := r.value[k].quantity)
      && forall j :: 0 <= j < |cart| && j != k ==> r.value[j] == cart[j]
  {
    match selection
    case None => Err(NoSelection)
    case Some(sel) =>
      if quantity.None? || quantity.value <= 0 then Err(InvalidQuantity)
      else
        var q := quantity.value;
        var existing := FindEntry(cart, sel.itemId);
        var already := if existing.Some? then cart[existing.value].quantity else 0;
        if q + already > sel.available then Err(ExceedsStock(sel.available))
        else if existing.Some? then
          Ok(cart[existing.value := cart[existing.value].(quantity := cart[existing.value].quantity + q)])
        else Ok(cart + [Entry(sel.itemId, sel.name, q)])
  }

  /** The quantity the list takes from item `id`, as the request will carry it. */
  function Held(cart: Cart, id: int): int {
    Requested(Lines(cart), id)
  }

  /** Adding raises the item's total by the quantity, and only that item's; a refusal for the
      stock happens exactly when the new total would exceed the stock shown; the list keeps
      one positive entry per item. */
  lemma AddTakesQuantity(cart: Cart, sel: Selection, quantity: int)
    requires UniqueIds(cart) && Positive(cart) && quantity > 0
    ensures var r := Add(cart, Some(sel), Some(quantity));
      && (r.Err? <==> Held(cart, sel.itemId) + quantity > sel.available)
      && (r.Ok? ==> UniqueIds(r.value) && Positive(r.value))
      && (r.Ok? ==> Held(r.value, sel.itemId) == Held(cart, sel.itemId) + quantity <= sel.available)
      && (r.Ok? ==> forall id :: id != sel.itemId ==> Held(r.value, id) == Held(cart, id))
  {
    var r := Add(cart, Some(sel), Some(quantity));
    var existing := FindEntry(cart, sel.itemId);
    if existing.Some? {
      var k := existing.value;
      HeldIsTheEntry(cart, k);
      if r.Ok? {
        var e := r.value[k];
        assert r.value == cart[k := e];
        assert Lines(r.value) == Lines(cart)[k := Line(e.itemId, e.quantity)];
        forall id
          ensures Held(r.value, id) == Held(cart, id) + (if id == sel.itemId then quantity else 0)
        {
          RequestedUpdate(Lines(cart), k, Line(e.itemId, e.quantity), id);
        }
      }
    } else {
      HeldIsZero(cart, sel.itemId);
      if r.Ok? {
        var e := Entry(sel.itemId, sel.name, quantity);
        assert Lines(r.value) == Lines(cart) + [Line(sel.itemId, quantity)];
        forall id
          ensures Held(r.value, id) == Held(cart, id) + (if id == sel.itemId then quantity else 0)
        {
          RequestedConcat(Lines(cart), [Line(sel.itemId, quantity)], id);
          assert [Line(sel.itemId, quantity)][1..] == [];
        }
      }
    }
  }

  /** What the lines take of `id` is the sum over any split of them. */
  lemma {:induction false} RequestedConcat(a: seq<Line>, b: seq<Line>, id: int)
    ensures Requested(a + b, id) == Requested(a, id) + Requested(b, id)
  {
    if |a| > 0 {
      assert (a + b)[1..] == a[1..] + b;
      RequestedConcat(a[1..], b, id);
    } else {
      assert a + b == b;
    }
  }

  /** Replacing one line changes the total by the difference of the two lines. */
  lemma RequestedUpdate(lines: seq<Line>, k: nat, line: Line, id: int)
    requires k < |lines|
    ensures Requested(lines[k := line], id) == Requested(lines, id)
      - (if lines[k].itemId == id then lines[k].quantity else 0)
      + (if line.itemId == id then line.quantity else 0)
  {
    assert lines == lines[..k] + [lines[k]] + lines[k + 1..];
    assert lines[k := line] == lines[..k] + [line] + lines[k + 1..];
    RequestedConcat(lines[..k] + [lines[k]], lines[k + 1..], id);
    RequestedConcat(lines[..k], [lines[k]], id);
    RequestedConcat(lines[..k] + [line], lines[k + 1..], id);
    RequestedConcat(lines[..k], [line], id);
    assert [line][1..] == [] && [lines[k]][1..] == [];
  }

  /** An item absent from the list is not taken at all. */
  lemma {:induction false} HeldIsZero(cart: Cart, id: int)
    requires forall k :: 0 <= k < |cart| ==> cart[k].itemId != id
    ensures Held(cart, id) == 0
  {
    if |cart| > 0 {
      assert Lines(cart)[1..] == Lines(cart[1..]);
      HeldIsZero(cart[1..], id);
    }
  }

  /** With one entry per item, an item's total is its entry's quantity. */
  lemma HeldIsTheEntry(cart: Cart, k: nat)
    requires UniqueIds(cart) && k < |cart|
    ensures Held(cart, cart[k].itemId) == cart[k].quantity
  {
    var id := cart[k].itemId;
    assert cart == cart[..k] + [cart[k]] + cart[k + 1..];
    assert Lines(cart) == Lines(cart[..k]) + [Line(id, cart[k].quantity)] + Lines(cart[k + 1..]);
    HeldIsZero(cart[..k], id);
    HeldIsZero(cart[k + 1..], id);
    RequestedConcat(Lines(cart[..k]) + [Line(id, cart[k].quantity)], Lines(cart[k + 1..]), id);
    RequestedConcat(Lines(cart[..k]), [Line(id, cart[k].quantity)], id);
    assert [Line(id, cart[k].quantity)][1..] == [];
  }

  function Keeps(id: int): Entry -> bool {
    (e: Entry) => e.itemId != id
  }

  /** _removerItemParaRetirada: the entries of every other item, in order. */
  function Remove(cart: Cart, id: int): (r: Cart)
    ensures |r| <= |cart|
    ensures forall k :: 0 <= k < |r| ==> r[k] in cart && r[k].itemId != id
    ensures forall k :: 0 <= k < |cart| && cart[k].itemId != id ==> cart[k] in r
    ensures (forall k :: 0 <= k < |cart| ==> cart[k].itemId != id) ==> r == cart
  {
    var r := Filter(cart, Keeps(id));
    assert (forall k :: 0 <= k < |cart| ==> cart[k].itemId != id) ==> r == cart by {
      if forall k :: 0 <= k < |cart| ==> cart[k].itemId != id {
        FilterAll(cart, Keeps(id));
      }
    }
    r
  }

  /** Removal keeps the order of the remaining entries: removing from a list split in two
      is removing from each part. */
  lemma RemoveKeepsOrder(a: Cart, b: Cart, id: int)
    ensures Remove(a + b, id) == Remove(a, id) + Remove(b, id)
  {
    FilterConcat(a, b, Keeps(id));
  }

  /** An item's total is what the first entry takes of it plus what the rest take. */
  lemma HeldCons(cart: Cart, id: int)
    requires |cart| > 0
    ensures Held(cart, id) == (if cart[0].itemId == id then cart[0].quantity else 0) + Held(cart[1..], id)
  {
    assert Lines(cart)[1..] == Lines(cart[1..]);
  }

  /** Removing an item drops all of it and nothing of the others. */
  lemma {:induction false} RemoveDropsTheItem(cart: Cart, id: int, j: int)
    ensures Held(Remove(cart, id), j) == if j == id then 0 else Held(cart, j)
  {
    if |cart| > 0 {
      RemoveDropsTheItem(cart[1..], id, j);
      var rest := Remove(cart[1..], id);
      HeldCons(cart, j);
      if cart[0].itemId != id {
        var r := Remove(cart, id);
        assert r == [cart[0]] + rest;
        assert r[0] == cart[0] && r[1..] == rest;
        HeldCons(r, j);
      } else {
        assert Remove(cart, id) == rest;
      }
    }
  }

  /** Removing keeps the list's one positive entry per item. */
  lemma {:induction false} RemoveKeepsTheList(cart: Cart, id: int)
    ensures UniqueIds(cart) ==> UniqueIds(Remove(cart, id))
    ensures Positive(cart) ==> Positive(Remove(cart, id))
  {
    if |cart| > 0 && UniqueIds(cart) {
      RemoveKeepsTheList(cart[1..], id);
      var rest := Remove(cart[1..], id);
      assert cart == cart[..1] + cart[1..];
      RemoveKeepsOrder(cart[..1], cart[1..], id);
      assert UniqueIds(cart[1..]) by {
        forall i, j | 0 <= i < j < |cart[1..]|
          ensures cart[1..][i].itemId != cart[1..][j].itemId
        {
          assert cart[1..][i] == cart[i + 1] && cart[1..][j] == cart[j + 1];
        }
      }
      forall k | 0 <= k < |rest|
        ensures rest[k].itemId != cart[0].itemId
      {
        assert rest[k] in cart[1..];
      }
    }
  }


  /** _enviarSolicitacao: a sector must be chosen and the list must not be empty; the
      trimmed texts are sent, an empty one as null, with one line per entry. */
  function Submit(cart: Cart, sector: Option<int>, justification: string, localRequester: string)
    : (r: Result<WithdrawalRequest, CartError>)
    ensures sector.None? ==> r == Err(NoSector)
    ensures sector.Some? && |cart| == 0 ==> r == Err(EmptyCart)
    ensures r.Ok? ==> sector.Some? && r.value.sectorId == sector.value
    ensures r.Ok? ==> r.value.lines == Lines(cart)
    ensures r.Ok? ==> (r.value.justification.None? <==> Strip(justification) == "")
    ensures r.Ok? && r.value.justification.Some? ==> r.value.justification.value == Strip(justification)
    ensures r.Ok? ==> (r.value.localRequester.None? <==> Strip(localRequester) == "")
    ensures r.Ok? && r.value.localRequester.Some? ==> r.value.localRequester.value == Strip(localRequester)
  {
    if sector.None? then Err(NoSector)
    else if |cart| == 0 then Err(EmptyCart)
    else
      var j := Strip(justification);
      var l := Strip(localRequester);
      Ok(WithdrawalRequest(sector.value, if j == "" then None else Some(j), if l == "" then None else Some(l), Lines(cart)))
  }

  /** A list built by the form sends a request with no item twice and positive quantities,
      each item asking for what the list held of it. */
  lemma SubmittedLinesAreDistinct(cart: Cart, sector: int, justification: string, localRequester: string)
    requires UniqueIds(cart) && Positive(cart) && |cart| > 0
    ensures var r := Submit(cart, Some(sector), justification, localRequester);
      && r.Ok? && DistinctItems(r.value.lines)
      && (forall k :: 0 <= k < |r.value.lines| ==> r.value.lines[k].quantity > 0)
      && (forall id :: Requested(r.value.lines, id) == Held(cart, id))
  {
  }
}

=== FILE: withdrawal_repository.dfy ===
/** RetiradaRepository: every read sees only active withdrawals, newest request first; the
    search filter; the soft delete of a period; the stock write used by completion. */
module WithdrawalRepository {
  import opened Wrappers
  import opened Text
  import opened Domain
  import opened Seqs
  import opened Sorting
  import opened Paging

  function RequestTime(w: Withdrawal): int {
    w.requestedAt
  }

  /** A read query: the active rows satisfying `p`, newest request first. */
  function ActiveSorted(ws: seq<Withdrawal>, p: Withdrawal -> bool): (r: seq<Withdrawal>)
    ensures forall k :: 0 <= k < |r| ==> r[k] in ws && r[k].active && p(r[k])
    ensures forall k :: 0 <= k < |ws| && ws[k].active && p(ws[k]) ==> ws[k] in r
    ensures SortedDesc(r, RequestTime)
  {
    var chosen := Filter(ws, (w: Withdrawal) => w.active && p(w));
    var sorted := SortDesc(chosen, RequestTime);
    ReorderedFilter(ws, (w: Withdrawal) => w.active && p(w), sorted);
    sorted
  }

  /** The count query beside a read query: the active rows satisfying `p`. */
  function ActiveCount(ws: seq<Withdrawal>, p: Withdrawal -> bool): (n: nat)
    ensures n <= |ws|
  {
    CountWhere(ws, (w: Withdrawal) => w.active && p(w))
  }

  /** Each count equals the number of rows its list query pages through. */
  lemma CountIsListLength(ws: seq<Withdrawal>, p: Withdrawal -> bool)
    ensures ActiveCount(ws, p) == |ActiveSorted(ws, p)|
  {
    CountIsFilterLength(ws, (w: Withdrawal) => w.active && p(w));
  }

  /** A paginated read: OFFSET/LIMIT applied after the ordering. */
  function ActivePage(ws: seq<Withdrawal>, p: Withdrawal -> bool, offset: nat, limit: nat): (r: seq<Withdrawal>)
    ensures offset >= ActiveCount(ws, p) ==> r == []
    ensures offset < ActiveCount(ws, p) ==> |r| == Min(limit, ActiveCount(ws, p) - offset)
    ensures forall k :: 0 <= k < |r| ==>
      offset + k < |ActiveSorted(ws, p)| && r[k] == ActiveSorted(ws, p)[offset + k]
    ensures forall k :: 0 <= k < |r| ==> r[k] in ws && r[k].active && p(r[k])
    ensures SortedDesc(r, RequestTime)
  {
    var all := ActiveSorted(ws, p);
    CountIsListLength(ws, p);
    var w := Window(all, offset, limit);
    SortedWindow(all, w, offset, RequestTime);
    w
  }

  function Any(w: Withdrawal): bool {
    true
  }

  /** get_retiradas_pendentes_paginated and its count. */
  function IsPending(w: Withdrawal): bool {
    w.status == Pending
  }

  /** get_retiradas_by_user_paginated and its count. */
  function ByUser(userId: int): Withdrawal -> bool {
    (w: Withdrawal) => w.requester == userId
  }

  /** A request time in [start, end], both bounds included. */
  predicate InPeriod(w: Withdrawal, start: int, end: int) {
    start <= w.requestedAt <= end
  }

  /** get_retiradas_por_setor_periodo. */
  function BySectorInPeriod(sectorId: int, start: int, end: int): Withdrawal -> bool {
    (w: Withdrawal) => w.sectorId == sectorId && InPeriod(w, start, end)
  }

  /** get_retiradas_por_usuario_periodo. */
  function ByUserInPeriod(userId: int, start: int, end: int): Withdrawal -> bool {
    (w: Withdrawal) => w.requester == userId && InPeriod(w, start, end)
  }

  /** buscar_retirada_por_id: the first row with the id that is active. */
  function FindActive(ws: seq<Withdrawal>, id: int): (r: Option<nat>)
    ensures r.Some? ==> r.value < |ws| && ws[r.value].id == id && ws[r.value].active
    ensures r.None? <==> forall k :: 0 <= k < |ws| ==> !(ws[k].id == id && ws[k].active)
  {
    if |ws| == 0 then None
    else if ws[0].id == id && ws[0].active then Some(0)
    else match FindActive(ws[1..], id)
      case None =>
        assert forall k :: 1 <= k < |ws| ==> ws[k] == ws[1..][k - 1];
        None
      case Some(j) => Some(j + 1)
  }

  /** A soft-deleted withdrawal is invisible to the lookup by id. */
  lemma DeletedIsNotFound(ws: seq<Withdrawal>, id: int)
    requires forall k :: 0 <= k < |ws| && ws[k].id == id ==> !ws[k].active
    ensures FindActive(ws, id).None?
  {
  }

  // ----- the search filter -----

  /** RetiradaFilterParams. */
  datatype FilterParams = FilterParams(
    status: Option<int>,
    requester: Option<string>,
    start: Option<int>,
    end: Option<int>)

  /** The name of the user with `id`, through the join on the requester. */
  function UserName(users: seq<User>, id: int): (r: Option<string>)
    ensures r.Some? <==> exists k :: 0 <= k < |users| && users[k].id == id
  {
    match FindUser(users, id)
    case None => None
    case Some(k) => Some(users[k].name)
  }

  /** The requester condition: an ILIKE substring test against the joined user's name or
      the name of whoever asked in person; a withdrawal without a joined user is dropped. */
  predicate RequesterMatches(w: Withdrawal, users: seq<User>, text: string) {
    && UserName(users, w.requester).Some?
    && (ContainsIgnoreCase(UserName(users, w.requester).value, text)
        || (w.localRequester.Some? && ContainsIgnoreCase(w.localRequester.value, text)))
  }

  /** count_retiradas_filter / filter_retiradas_paginated: the conditions present are all
      required; the period applies only when both bounds are given. */
  predicate FilterMatches(w: Withdrawal, users: seq<User>, params: FilterParams) {
    && (params.status.Some? ==> w.status.Code() == params.status.value)
    && (TruthyStr(params.requester) ==> RequesterMatches(w, users, params.requester.value))
    && (params.start.Some? && params.end.Some? ==> InPeriod(w, params.start.value, params.end.value))
  }

  function Matching(users: seq<User>, params: FilterParams): Withdrawal -> bool {
    (w: Withdrawal) => FilterMatches(w, users, params)
  }

  /** count_retiradas_filter: the number of rows the search lists. */
  function FilterCount(ws: seq<Withdrawal>, users: seq<User>, params: FilterParams): (n: nat)
    ensures n == |ActiveSorted(ws, Matching(users, params))|
    ensures n <= |ws|
  {
    CountIsListLength(ws, Matching(users, params));
    ActiveCount(ws, Matching(users, params))
  }

  /** filter_retiradas_paginated: the window of the search's rows, newest first. */
  function FilterPage(ws: seq<Withdrawal>, users: seq<User>, params: FilterParams, offset: nat, limit: nat)
    : (r: seq<Withdrawal>)
    ensures offset >= FilterCount(ws, users, params) ==> r == []
    ensures offset < FilterCount(ws, users, params) ==> |r| == Min(limit, FilterCount(ws, users, params) - offset)
    ensures forall k :: 0 <= k < |r| ==>
      offset + k < FilterCount(ws, users, params) && r[k] == ActiveSorted(ws, Matching(users, params))[offset + k]
    ensures forall k :: 0 <= k < |r| ==> r[k] in ws && r[k].active && FilterMatches(r[k], users, params)
    ensures SortedDesc(r, RequestTime)
  {
    ActivePage(ws, Matching(users, params), offset, limit)
  }

  /** A single bound applies no date condition. */
  lemma OneBoundIsNoBound(w: Withdrawal, users: seq<User>, status: Option<int>, requester: Option<string>, bound: int)
    ensures FilterMatches(w, users, FilterParams(status, requester, Some(bound), None))
      == FilterMatches(w, users, FilterParams(status, requester, None, None))
    ensures FilterMatches(w, users, FilterParams(status, requester, None, Some(bound)))
      == FilterMatches(w, users, FilterParams(status, requester, None, None))
  {
  }

  /** The empty requester text applies no requester condition. */
  lemma EmptyRequesterIsNoFilter(w: Withdrawal, users: seq<User>, status: Option<int>, start: Option<int>, end: Option<int>)
    ensures FilterMatches(w, users, FilterParams(status, Some(""), start, end))
      == FilterMatches(w, users, FilterParams(status, None, start, end))
  {
  }

  /** Counts under predicates that agree on every row are equal. */
  lemma {:induction false} ActiveCountSame(ws: seq<Withdrawal>, p: Withdrawal -> bool, q: Withdrawal -> bool)
    requires forall w :: p(w) == q(w)
    ensures ActiveCount(ws, p) == ActiveCount(ws, q)
  {
    if |ws| > 0 {
      ActiveCountSame(ws[1..], p, q);
    }
  }

  /** With no parameter the search counts every active withdrawal. */
  lemma NoParamsCountsEverything(ws: seq<Withdrawal>, users: seq<User>)
    ensures FilterCount(ws, users, FilterParams(None, None, None, None)) == ActiveCount(ws, Any)
  {
    ActiveCountSame(ws, Matching(users, FilterParams(None, None, None, None)), Any);
  }

  // ----- soft delete -----

  /** The rows soft_delete_by_period updates: active, requested within the period. */
  predicate InDeletion(w: Withdrawal, start: int, end: int) {
    w.active && InPeriod(w, start, end)
  }

  /** soft_delete_by_period: deactivates exactly the active rows of the period and reports
      how many it changed; nothing else changes. */
  function SoftDeleteByPeriod(ws: seq<Withdrawal>, start: int, end: int): (r: (seq<Withdrawal>, nat))
    ensures |r.0| == |ws|
    ensures forall k :: 0 <= k < |ws| ==> r.0[k] == if InDeletion(ws[k], start, end) then ws[k].(active := false) else ws[k]
    ensures r.1 == CountWhere(ws, (w: Withdrawal) => InDeletion(w, start, end))
  {
    var updated := seq(|ws|, k requires 0 <= k < |ws| =>
      if InDeletion(ws[k], start, end) then ws[k].(active := false) else ws[k]);
    (updated, CountWhere(ws, (w: Withdrawal) => InDeletion(w, start, end)))
  }

  /** After the update no active row remains in the period, so repeating it reports 0. */
  lemma {:induction false} SoftDeleteTwiceCountsZero(ws: seq<Withdrawal>, start: int, end: int)
    ensures SoftDeleteByPeriod(SoftDeleteByPeriod(ws, start, end).0, start, end).1 == 0
    ensures SoftDeleteByPeriod(SoftDeleteByPeriod(ws, start, end).0, start, end).0 == SoftDeleteByPeriod(ws, start, end).0
  {
    var once := SoftDeleteByPeriod(ws, start, end).0;
    CountIsFilterLength(once, (w: Withdrawal) => InDeletion(w, start, end));
    FilterNone(once, (w: Withdrawal) => InDeletion(w, start, end));
  }

  /** The reported count is the number of rows that went from active to inactive. */
  lemma {:induction false} SoftDeleteCountsChangedRows(ws: seq<Withdrawal>, start: int, end: int)
    ensures SoftDeleteByPeriod(ws, start, end).1
      == CountWhere(ws, (w: Withdrawal) => w.active) - CountWhere(SoftDeleteByPeriod(ws, start, end).0, (w: Withdrawal) => w.active)
  {
    if |ws| > 0 {
      var r := SoftDeleteByPeriod(ws, start, end).0;
      var rest := SoftDeleteByPeriod(ws[1..], start, end).0;
      assert r[1..] == rest;
      SoftDeleteCountsChangedRows(ws[1..], start, end);
    }
  }

  // ----- stock write -----

  /** atualizar_quantidade_item: the item at `k` gets the new quantity, nothing else changes. */
  function SetQuantity(items: seq<Item>, k: nat, quantity: int): (r: seq<Item>)
    requires k < |items|
    ensures |r| == |items| && r[k].quantity == quantity
    ensures r[k] == items[k].(quantity := r[k].quantity)
    ensures forall j :: 0 <= j < |items| && j != k ==> r[j] == items[j]
  {
    items[k := items[k].(quantity := quantity)]
  }
}

=== FILE: withdrawal_service.dfy ===
/** RetiradaService: requesting a withdrawal, moving it through its states (completion takes
    the stock), and the paginated and unpaginated listings. */
module WithdrawalService {
  import opened Wrappers
  import opened Errors
  import opened Domain
  import opened Seqs
  import opened Paging
  import opened Sorting
  import opened WithdrawalRepository
  import opened AlertService

  // ----- requesting -----

  /** RetiradaCreate: the sector, the optional texts and the requested (item, quantity) lines. */
  datatype WithdrawalRequest = WithdrawalRequest(
    sectorId: int,
    justification: Option<string>,
    localRequester: Option<string>,
    lines: seq<Line>)

  /** The lines' item ids are pairwise distinct (the key of retirada_item is the pair
      withdrawal, item). */
  predicate DistinctItems(lines: seq<Line>) {
    forall i, j :: 0 <= i < j < |lines| ==> lines[i].itemId != lines[j].itemId
  }

  /** What the two flushes of solicitar_retirada need from the database: the requester,
      the sector and every item exist, and no item is listed twice. */
  predicate Insertable(db: Db, req: WithdrawalRequest, userId: int) {
    && UserExists(db, userId)
    && SectorExists(db, req.sectorId)
    && (forall k :: 0 <= k < |req.lines| ==> ItemExists(db, req.lines[k].itemId))
    && DistinctItems(req.lines)
  }

  /** solicitar_retirada: a new pending, active withdrawal by `userId` with one line per
      requested item, committed and announced to every general connection; any database
      failure rolls back and reports 500. */
  function RequestWithdrawal(db: Db, req: WithdrawalRequest, userId: int, now: int)
    : (r: (Db, seq<Push>, Result<Withdrawal, Reason>))
    ensures r.2.Err? <==> !Insertable(db, req, userId)
    ensures r.2.Err? ==> r.2.error == RequestFailed && r.0 == db && r.1 == []
    ensures r.2.Ok? ==> (
      && r.2.value.status == Pending && r.2.value.active
      && r.2.value.requester == userId && r.2.value.authorizer.None?
      && r.2.value.sectorId == req.sectorId && r.2.value.lines == req.lines
      && r.2.value.id == db.nextId && r.2.value.requestedAt == now
      && r.0 == db.(withdrawals := db.withdrawals + [r.2.value], nextId := db.nextId + 1)
      && r.1 == [Broadcast(NewWithdrawalRequest(r.2.value.id, req.sectorId))])
  {
    if !Insertable(db, req, userId) then (db, [], Err(RequestFailed))
    else
      var w := Withdrawal(db.nextId, userId, None, req.sectorId, Pending, None, req.justification,
                          req.localRequester, now, true, req.lines);
      (db.(withdrawals := db.withdrawals + [w], nextId := db.nextId + 1),
       [Broadcast(NewWithdrawalRequest(w.id, w.sectorId))], Ok(w))
  }

  /** Every withdrawal id is below the id counter. */
  predicate IdsBelowCounter(db: Db) {
    forall k :: 0 <= k < |db.withdrawals| ==> db.withdrawals[k].id < db.nextId
  }

  /** A new request is found by its id and is among the pending ones. */
  lemma RequestIsFoundPending(db: Db, req: WithdrawalRequest, userId: int, now: int)
    requires IdsBelowCounter(db)
    requires RequestWithdrawal(db, req, userId, now).2.Ok?
    ensures var r := RequestWithdrawal(db, req, userId, now);
      && FindActive(r.0.withdrawals, r.2.value.id) == Some(|db.withdrawals|)
      && r.2.value in ActiveSorted(r.0.withdrawals, IsPending)
      && IdsBelowCounter(r.0)
  {
    var r := RequestWithdrawal(db, req, userId, now);
    var ws := r.0.withdrawals;
    assert ws[|db.withdrawals|] == r.2.value;
    assert forall k :: 0 <= k < |db.withdrawals| ==> ws[k] == db.withdrawals[k];
  }

  // ----- completing -----

  /** An item after `quantity` units leave: it is deactivated when it reaches exactly 0. */
  function Decremented(item: Item, quantity: int): (r: Item)
    ensures r.quantity == item.quantity - quantity
    ensures r.active == (item.active && r.quantity != 0)
    ensures r == item.(quantity := r.quantity, active := r.active)
  {
    var left := item.quantity - quantity;
    item.(quantity := left, active := if left == 0 then false else item.active)
  }

  /** The stock write of the completion loop: atualizar_quantidade_item stores the new
      quantity, then an item that reached 0 is marked inactive. It agrees with
      `Decremented` at the line's position. */
  function TakeStock(items: seq<Item>, k: nat, quantity: int): (r: seq<Item>)
    requires k < |items|
    ensures r == items[k := Decremented(items[k], quantity)]
  {
    var written := SetQuantity(items, k, items[k].quantity - quantity);
    if written[k].quantity == 0 then written[k := written[k].(active := false)] else written
  }

  /** Where alert creation may commit: as written, create_alerta commits the whole session;
      with `commitAlerts` off the alerts stay in the session like the rest. */
  function AfterScan(s: Session, scanned: Db, pushes: seq<Push>, commitAlerts: bool): (r: Session)
    ensures r.work == scanned
    ensures r.committed == if commitAlerts && |pushes| > 0 then scanned else s.committed
  {
    Session(if commitAlerts && |pushes| > 0 then scanned else s.committed, scanned)
  }

  /** One line of the completion loop: load the item, refuse when the stock is short,
      decrement, deactivate at 0, then run the low-stock check for that item. */
  function CompleteLine(s: Session, line: Line, now: int, commitAlerts: bool)
    : (r: Result<(Session, seq<Push>), Reason>)
    ensures FindItem(s.work.items, line.itemId).None? ==> r == Err(StatusUpdateFailed)
    ensures FindItem(s.work.items, line.itemId).Some? ==>
      var item := s.work.items[FindItem(s.work.items, line.itemId).value];
      (item.quantity < line.quantity ==> r == Err(InsufficientStock(item.originalName, item.quantity, line.quantity)))
    ensures LineShape(s, line, r)
    ensures r.Ok? && !commitAlerts ==> r.value.0.committed == s.committed
    ensures r.Ok? && commitAlerts ==>
      r.value.0.committed == if |r.value.1| > 0 then r.value.0.work else s.committed
  {
    match FindItem(s.work.items, line.itemId)
    case None => Err(StatusUpdateFailed)
    case Some(k) =>
      var item := s.work.items[k];
      if item.quantity < line.quantity then Err(InsufficientStock(item.originalName, item.quantity, line.quantity))
      else
        var work := s.work.(items := TakeStock(s.work.items, k, line.quantity));
        var scan := LowStockScan(work, Some(line.itemId), now);
        Ok((AfterScan(s, scan.0, scan.1, commitAlerts), scan.1))
  }

  /** Two databases that differ at most in the items, the alerts and the id counter. */
  predicate SameOutsideStock(a: Db, b: Db) {
    a == b.(items := a.items, alerts := a.alerts, nextId := a.nextId)
  }

  /** What a successful line does to the session: the line's item, which had enough
      stock, is decremented; besides it only alerts and the id counter change; what is
      committed is either what was committed before or the new work. */
  predicate LineShape(s: Session, line: Line, r: Result<(Session, seq<Push>), Reason>) {
    r.Ok? ==> (
      && FindItem(s.work.items, line.itemId).Some?
      && var k := FindItem(s.work.items, line.itemId).value;
      && k < |s.work.items|
      && s.work.items[k].quantity >= line.quantity
      && r.value.0.work.items == s.work.items[k := Decremented(s.work.items[k], line.quantity)]
      && SameOutsideStock(r.value.0.work, s.work)
      && (r.value.0.committed == s.committed || r.value.0.committed == r.value.0.work))
  }

  /** A step that never commits. */
  predicate KeepsCommitted(s: Session, r: Result<(Session, seq<Push>), Reason>) {
    r.Ok? ==> r.value.0.committed == s.committed
  }

  /** The body of the completion loop for a given clock and commit behaviour. */
  function LineStep(now: int, commitAlerts: bool): (Session, Line) -> Result<(Session, seq<Push>), Reason> {
    (s: Session, line: Line) => CompleteLine(s, line, now, commitAlerts)
  }

  lemma LineStepShape(now: int, commitAlerts: bool)
    ensures forall s, line :: LineShape(s, line, LineStep(now, commitAlerts)(s, line))
    ensures !commitAlerts ==> forall s, line :: KeepsCommitted(s, LineStep(now, commitAlerts)(s, line))
  {
  }

  /** The state of the completion loop when it stops: the session, the pushes sent so far,
      and the error that stopped it, if any. */
  datatype Run = Run(s: Session, pushes: seq<Push>, failure: Option<Reason>)

  /** The completion loop over `lines`, with `step` handling one line; the first failing
      line stops it. */
  function CompleteLines(s: Session, step: (Session, Line) -> Result<(Session, seq<Push>), Reason>, lines: seq<Line>)
    : (r: Run)
    requires forall s', line :: LineShape(s', line, step(s', line))
    ensures |r.s.work.items| == |s.work.items| && SameOutsideStock(r.s.work, s.work)
    ensures SameOutsideStock(s.committed, s.work) ==> SameOutsideStock(r.s.committed, s.work)
    ensures (forall s', line :: KeepsCommitted(s', step(s', line))) ==> r.s.committed == s.committed
    decreases |lines|
  {
    if |lines| == 0 then Run(s, [], None)
    else
      match step(s, lines[0])
      case Err(e) => Run(s, [], Some(e))
      case Ok(one) =>
        assert LineShape(s, lines[0], step(s, lines[0]));
        assert KeepsCommitted(s, step(s, lines[0])) ==> one.0.committed == s.committed;
        var rest := CompleteLines(one.0, step, lines[1..]);
        Run(rest.s, one.1 + rest.pushes, rest.failure)
  }

  /** The completion loop of atualizar_status over `lines`. */
  function RunLines(s: Session, lines: seq<Line>, now: int, commitAlerts: bool): (r: Run)
    ensures |r.s.work.items| == |s.work.items| && SameOutsideStock(r.s.work, s.work)
    ensures SameOutsideStock(s.committed, s.work) ==> SameOutsideStock(r.s.committed, s.work)
    ensures !commitAlerts ==> r.s.committed == s.committed
  {
    LineStepShape(now, commitAlerts);
    CompleteLines(s, LineStep(now, commitAlerts), lines)
  }

  /** Item ids are unique. */
  predicate UniqueItemIds(items: seq<Item>) {
    forall i, j :: 0 <= i < j < |items| ==> items[i].id != items[j].id
  }

  /** The total quantity that `lines` take from item `id`. */
  function Requested(lines: seq<Line>, id: int): int {
    if |lines| == 0 then 0
    else (if lines[0].itemId == id then lines[0].quantity else 0) + Requested(lines[1..], id)
  }

  /** When the loop gets through every line, each item has lost exactly what the lines
      requested of it, ids stay unique, and no stock that was not negative becomes so. */
  lemma {:induction false} CompleteTakesRequested(s: Session, step: (Session, Line) -> Result<(Session, seq<Push>), Reason>,
                                                  lines: seq<Line>)
    requires forall s', line :: LineShape(s', line, step(s', line))
    requires UniqueItemIds(s.work.items)
    decreases |lines|
    ensures var r := CompleteLines(s, step, lines);
      r.failure.None? ==> (
        && UniqueItemIds(r.s.work.items)
        && (forall j :: 0 <= j < |s.work.items| ==>
             && r.s.work.items[j].id == s.work.items[j].id
             && r.s.work.items[j].quantity == s.work.items[j].quantity - Requested(lines, s.work.items[j].id))
        && ((forall j :: 0 <= j < |s.work.items| ==> s.work.items[j].quantity >= 0) ==>
             forall j :: 0 <= j < |s.work.items| ==> r.s.work.items[j].quantity >= 0))
  {
    var r := CompleteLines(s, step, lines);
    if |lines| > 0 && step(s, lines[0]).Ok? && r.failure.None? {
      var s1 := step(s, lines[0]).value.0;
      assert LineShape(s, lines[0], step(s, lines[0]));
      var k := FindItem(s.work.items, lines[0].itemId).value;
      assert forall j :: 0 <= j < |s1.work.items| ==> s1.work.items[j].id == s.work.items[j].id;
      assert r == Run(CompleteLines(s1, step, lines[1..]).s, step(s, lines[0]).value.1 + CompleteLines(s1, step, lines[1..]).pushes,
                      CompleteLines(s1, step, lines[1..]).failure);
      CompleteTakesRequested(s1, step, lines[1..]);
      forall j | 0 <= j < |s.work.items|
        ensures r.s.work.items[j].id == s.work.items[j].id
        ensures r.s.work.items[j].quantity == s.work.items[j].quantity - Requested(lines, s.work.items[j].id)
      {
        if j == k {
          assert s1.work.items[j].quantity == s.work.items[j].quantity - lines[0].quantity;
        } else {
          assert FindItem(s.work.items, lines[0].itemId) == Some(k);
          assert s.work.items[j].id != lines[0].itemId;
        }
      }
    }
  }

  /** The outcome of atualizar_status: the committed database afterwards, the pushes sent,
      and the updated withdrawal or the error. */
  datatype StatusOutcome = StatusOutcome(db: Db, pushes: seq<Push>, result: Result<Withdrawal, Reason>)

  /** The withdrawal with its new status, detail and authoriser. */
  function Decided(w: Withdrawal, status: Status, detail: Option<string>, admin: int): (r: Withdrawal)
    ensures r.status == status && r.detail == detail && r.authorizer == Some(admin)
    ensures r.(status := w.status, detail := w.detail, authorizer := w.authorizer) == w
  {
    w.(status := status, detail := detail, authorizer := Some(admin))
  }

  /** The error the first line of a completion raises before anything has changed: an
      unknown item fails the loop, a short stock is refused with the item's name, what is
      available and what was asked. */
  function FirstLineError(items: seq<Item>, line: Line): (r: Option<Reason>)
    ensures r.Some? && FindItem(items, line.itemId).Some? ==>
      var item := items[FindItem(items, line.itemId).value];
      r.value == InsufficientStock(item.originalName, item.quantity, line.quantity)
  {
    match FindItem(items, line.itemId)
    case None => Some(StatusUpdateFailed)
    case Some(k) =>
      if items[k].quantity < line.quantity then Some(InsufficientStock(items[k].originalName, items[k].quantity, line.quantity))
      else None
  }

  /** The completion loop run when the new status is Completed; no loop otherwise. */
  function RunFor(db: Db, w: Withdrawal, status: Status, now: int, commitAlerts: bool): (r: Run)
    ensures status != Completed ==> r == Run(Begin(db), [], None)
    ensures |r.s.work.items| == |db.items| && SameOutsideStock(r.s.work, db)
    ensures SameOutsideStock(r.s.committed, db)
    ensures !commitAlerts ==> r.s.committed == db
  {
    if status == Completed then
      RunLines(Begin(db), w.lines, now, commitAlerts)
    else Run(Begin(db), [], None)
  }

  /** atualizar_status, with the completion loop's commit behaviour as a parameter: validate
      the code, find the active withdrawal, run the loop when completing, then record the
      decision, commit and notify the requester. An error rolls back what is uncommitted. */
  function UpdateStatusWith(db: Db, id: int, code: int, detail: Option<string>, admin: int, now: int,
                            commitAlerts: bool): (r: StatusOutcome)
    ensures StatusOf(code).None? ==> r == StatusOutcome(db, [], Err(InvalidStatus))
    ensures StatusOf(code).Some? && FindActive(db.withdrawals, id).None?
      ==> r == StatusOutcome(db, [], Err(WithdrawalNotFound))
    ensures r.result.Ok? ==> (
      && StatusOf(code).Some? && FindActive(db.withdrawals, id).Some?
      && var k := FindActive(db.withdrawals, id).value;
      && r.result.value == Decided(db.withdrawals[k], StatusOf(code).value, detail, admin)
      && r.db.withdrawals == db.withdrawals[k := r.result.value]
      && |r.pushes| > 0
      && r.pushes[|r.pushes| - 1] == ToUser(db.withdrawals[k].requester, StatusUpdate(id, StatusOf(code).value)))
    ensures r.result.Ok? && code != Completed.Code() ==> (
      && r.db == db.(withdrawals := r.db.withdrawals)
      && r.pushes == [ToUser(r.result.value.requester, StatusUpdate(id, StatusOf(code).value))])
    ensures r.result.Ok? ==> r.db.users == db.users && r.db.sectors == db.sectors && r.db.categories == db.categories
    ensures StatusOf(code) == Some(Completed) && FindActive(db.withdrawals, id).Some? ==>
      var lines := db.withdrawals[FindActive(db.withdrawals, id).value].lines;
      |lines| > 0 && FirstLineError(db.items, lines[0]).Some? ==> r.result == Err(FirstLineError(db.items, lines[0]).value)
    ensures r.result.Err? ==> r.db.withdrawals == db.withdrawals
    ensures !commitAlerts && r.result.Err? ==> r.db == db
  {
    match StatusOf(code)
    case None => StatusOutcome(db, [], Err(InvalidStatus))
    case Some(status) =>
      match FindActive(db.withdrawals, id)
      case None => StatusOutcome(db, [], Err(WithdrawalNotFound))
      case Some(k) =>
        var w := db.withdrawals[k];
        var run := RunFor(db, w, status, now, commitAlerts);
        assert status == Completed && |w.lines| > 0 && FirstLineError(db.items, w.lines[0]).Some? ==>
          run.failure == FirstLineError(db.items, w.lines[0]) by {
          if status == Completed && |w.lines| > 0 {
            RunLinesStep(Begin(db), w.lines, now, commitAlerts);
          }
        }
        match run.failure
        case Some(e) => StatusOutcome(Rollback(run.s).committed, run.pushes, Err(e))
        case None =>
          assert status != Completed ==> code != Completed.Code() by {
            StatusCodeRoundTrip(Completed);
          }
          var decided := Decided(w, status, detail, admin);
          var final := run.s.work.(withdrawals := run.s.work.withdrawals[k := decided]);
          StatusOutcome(final, run.pushes + [ToUser(w.requester, StatusUpdate(id, status))], Ok(decided))
  }

  /** atualizar_status as written: every alert the loop creates commits the session. */
  function UpdateStatusAsWritten(db: Db, id: int, code: int, detail: Option<string>, admin: int, now: int)
    : (r: StatusOutcome)
    ensures StatusOf(code).None? ==> r == StatusOutcome(db, [], Err(InvalidStatus))
    ensures r.result.Err? ==> r.db.withdrawals == db.withdrawals
  {
    UpdateStatusWith(db, id, code, detail, admin, now, true)
  }

  /** atualizar_status made all or nothing: the alerts stay in the session until the final
      commit, so a failure leaves the database as it was. */
  function UpdateStatus(db: Db, id: int, code: int, detail: Option<string>, admin: int, now: int)
    : (r: StatusOutcome)
    ensures r.result.Err? ==> r.db == db
    ensures StatusOf(code).None? ==> r.result == Err(InvalidStatus)
    ensures StatusOf(code).Some? && FindActive(db.withdrawals, id).None? ==> r.result == Err(WithdrawalNotFound)
    ensures StatusOf(code) == Some(Completed) && FindActive(db.withdrawals, id).Some? ==>
      var lines := db.withdrawals[FindActive(db.withdrawals, id).value].lines;
      |lines| > 0 && FirstLineError(db.items, lines[0]).Some? ==> r.result == Err(FirstLineError(db.items, lines[0]).value)
    ensures r.result.Ok? ==> (
      && StatusOf(code).Some? && FindActive(db.withdrawals, id).Some?
      && var k := FindActive(db.withdrawals, id).value;
      && r.result.value == Decided(db.withdrawals[k], StatusOf(code).value, detail, admin)
      && r.db.withdrawals == db.withdrawals[k := r.result.value]
      && r.db.users == db.users && r.db.sectors == db.sectors && r.db.categories == db.categories
      && |r.pushes| > 0 && r.pushes[|r.pushes| - 1] == ToUser(db.withdrawals[k].requester, StatusUpdate(id, StatusOf(code).value)))
    ensures r.result.Ok? && code != Completed.Code() ==>
      r.db == db.(withdrawals := r.db.withdrawals) && |r.pushes| == 1
  {
    UpdateStatusWith(db, id, code, detail, admin, now, false)
  }

  /** Whether the alerts commit early changes nothing in the work of a loop. */
  lemma {:induction false} CommitPointsAgree(s: Session, t: Session, lines: seq<Line>, now: int)
    requires s.work == t.work
    ensures var a := RunLines(s, lines, now, true);
      var b := RunLines(t, lines, now, false);
      a.s.work == b.s.work && a.pushes == b.pushes && a.failure == b.failure
    decreases |lines|
  {
    if |lines| > 0 {
      RunLinesStep(s, lines, now, true);
      RunLinesStep(t, lines, now, false);
      LineAgrees(s, t, lines[0], now);
      var a := CompleteLine(s, lines[0], now, true);
      var b := CompleteLine(t, lines[0], now, false);
      if a.Ok? {
        CommitPointsAgree(a.value.0, b.value.0, lines[1..], now);
      }
    }
  }

  /** One turn of the loop: the first line's step, then the rest of the lines. */
  lemma RunLinesStep(s: Session, lines: seq<Line>, now: int, commitAlerts: bool)
    requires |lines| > 0
    ensures var one := CompleteLine(s, lines[0], now, commitAlerts);
      RunLines(s, lines, now, commitAlerts) ==
        if one.Err? then Run(s, [], Some(one.error))
        else var rest := RunLines(one.value.0, lines[1..], now, commitAlerts);
          Run(rest.s, one.value.1 + rest.pushes, rest.failure)
  {
    LineStepShape(now, commitAlerts);
    assert LineStep(now, commitAlerts)(s, lines[0]) == CompleteLine(s, lines[0], now, commitAlerts);
  }

  /** One line does the same work whichever commit point is used. */
  lemma LineAgrees(s: Session, t: Session, line: Line, now: int)
    requires s.work == t.work
    ensures var a := CompleteLine(s, line, now, true);
      var b := CompleteLine(t, line, now, false);
      && a.Ok? == b.Ok?
      && (a.Err? ==> a.error == b.error)
      && (a.Ok? ==> a.value.0.work == b.value.0.work && a.value.1 == b.value.1)
  {
  }

  /** On success the two commit points give the same database and the same messages. */
  lemma SuccessIsTheSameEitherWay(db: Db, id: int, code: int, detail: Option<string>, admin: int, now: int)
    ensures UpdateStatusAsWritten(db, id, code, detail, admin, now).result.Ok?
      <==> UpdateStatus(db, id, code, detail, admin, now).result.Ok?
    ensures UpdateStatus(db, id, code, detail, admin, now).result.Ok? ==>
      UpdateStatusAsWritten(db, id, code, detail, admin, now) == UpdateStatus(db, id, code, detail, admin, now)
  {
    if StatusOf(code).Some? && FindActive(db.withdrawals, id).Some? {
      var w := db.withdrawals[FindActive(db.withdrawals, id).value];
      CommitPointsAgree(Begin(db), Begin(db), w.lines, now);
    }
  }

  /** A successful completion takes from every item exactly what the withdrawal's lines
      request of it, never drives a stock below 0, and leaves users, sectors and
      categories alone. */
  lemma CompletionTakesStock(db: Db, id: int, detail: Option<string>, admin: int, now: int)
    requires UniqueItemIds(db.items)
    requires UpdateStatus(db, id, Completed.Code(), detail, admin, now).result.Ok?
    ensures var r := UpdateStatus(db, id, Completed.Code(), detail, admin, now);
      var w := db.withdrawals[FindActive(db.withdrawals, id).value];
      && |r.db.items| == |db.items|
      && UniqueItemIds(r.db.items)
      && (forall j :: 0 <= j < |db.items| ==>
            && r.db.items[j].id == db.items[j].id
            && r.db.items[j].quantity == db.items[j].quantity - Requested(w.lines, db.items[j].id))
      && ((forall j :: 0 <= j < |db.items| ==> db.items[j].quantity >= 0) ==>
            forall j :: 0 <= j < |db.items| ==> r.db.items[j].quantity >= 0)
  {
    var k := FindActive(db.withdrawals, id).value;
    StatusCodeRoundTrip(Completed);
    LineStepShape(now, false);
    CompleteTakesRequested(Begin(db), LineStep(now, false), db.withdrawals[k].lines);
  }

  /** Nothing looks at the current status: completing a withdrawal that is already
      complete runs the loop again and takes the stock again. */
  lemma CompletingTwiceTakesTwice(db: Db, id: int, detail: Option<string>, admin: int, now: int, later: int)
    requires UniqueItemIds(db.items)
    requires UpdateStatus(db, id, Completed.Code(), detail, admin, now).result.Ok?
    requires UpdateStatus(UpdateStatus(db, id, Completed.Code(), detail, admin, now).db,
                          id, Completed.Code(), detail, admin, later).result.Ok?
    ensures var once := UpdateStatus(db, id, Completed.Code(), detail, admin, now).db;
      var twice := UpdateStatus(once, id, Completed.Code(), detail, admin, later).db;
      var w := db.withdrawals[FindActive(db.withdrawals, id).value];
      |twice.items| == |db.items| &&
      forall j :: 0 <= j < |db.items| ==>
        twice.items[j].quantity == db.items[j].quantity - 2 * Requested(w.lines, db.items[j].id)
  {
    var once := UpdateStatus(db, id, Completed.Code(), detail, admin, now).db;
    CompletionTakesStock(db, id, detail, admin, now);
    var k := FindActive(db.withdrawals, id).value;
    CompletionKeepsTheRow(db, id, detail, admin, now);
    FindActiveAtSameIndex(db.withdrawals, once.withdrawals, id, k);
    CompletionTakesStock(once, id, detail, admin, later);
  }

  /** A successful completion keeps the withdrawal's row where it was, still active and
      with the same lines, and leaves the rows before it alone. */
  lemma CompletionKeepsTheRow(db: Db, id: int, detail: Option<string>, admin: int, now: int)
    requires UpdateStatus(db, id, Completed.Code(), detail, admin, now).result.Ok?
    ensures var once := UpdateStatus(db, id, Completed.Code(), detail, admin, now).db;
      var k := FindActive(db.withdrawals, id).value;
      && k < |once.withdrawals|
      && once.withdrawals[k].id == id && once.withdrawals[k].active
      && once.withdrawals[k].lines == db.withdrawals[k].lines
      && forall j :: 0 <= j < k ==> once.withdrawals[j] == db.withdrawals[j]
  {
  }

  /** A lookup over a table that differs only at the row found finds it again when that
      row still matches. */
  lemma {:induction false} FindActiveAtSameIndex(ws: seq<Withdrawal>, vs: seq<Withdrawal>, id: int, k: nat)
    requires FindActive(ws, id) == Some(k) && |vs| == |ws|
    requires forall j :: 0 <= j < k ==> vs[j] == ws[j]
    requires vs[k].id == id && vs[k].active
    ensures FindActive(vs, id) == Some(k)
  {
    if k > 0 {
      assert FindActive(ws[1..], id) == Some(k - 1);
      FindActiveAtSameIndex(ws[1..], vs[1..], id, k - 1);
    }
  }

  /** As written, when the first line's low-stock check creates an alert and the second
      line fails, the decrement of the first line is already committed: the request fails
      but the stock is gone. */
  lemma EarlyCommitKeepsDecrement(db: Db, first: Line, second: Line, now: int)
    requires CompleteLine(Begin(db), first, now, true).Ok?
    requires |CompleteLine(Begin(db), first, now, true).value.1| > 0
    requires CompleteLine(CompleteLine(Begin(db), first, now, true).value.0, second, now, true).Err?
    ensures var run := RunLines(Begin(db), [first, second], now, true);
      var k := FindItem(db.items, first.itemId).value;
      && run.failure.Some?
      && k < |Rollback(run.s).committed.items|
      && Rollback(run.s).committed.items[k].quantity == db.items[k].quantity - first.quantity
  {
    LineStepShape(now, true);
    var step := LineStep(now, true);
    var s1 := CompleteLine(Begin(db), first, now, true).value.0;
    assert step(Begin(db), first) == CompleteLine(Begin(db), first, now, true);
    assert step(s1, second) == CompleteLine(s1, second, now, true);
    assert [first, second][1..] == [second];
    assert CompleteLines(s1, step, [second]).s == s1;
  }

  /** Without the early commit the same failure leaves the stock untouched. */
  lemma AtomicFailureKeepsStock(db: Db, first: Line, second: Line, now: int)
    requires CompleteLine(Begin(db), first, now, false).Ok?
    requires CompleteLine(CompleteLine(Begin(db), first, now, false).value.0, second, now, false).Err?
    ensures var run := RunLines(Begin(db), [first, second], now, false);
      run.failure.Some? && Rollback(run.s).committed.items == db.items
  {
    LineStepShape(now, false);
    var step := LineStep(now, false);
    var s1 := CompleteLine(Begin(db), first, now, false).value.0;
    assert step(Begin(db), first) == CompleteLine(Begin(db), first, now, false);
    assert step(s1, second) == CompleteLine(s1, second, now, false);
    assert [first, second][1..] == [second];
    assert CompleteLines(s1, step, [second]).s == s1;
  }

  // ----- listings -----

  /** RetiradaPaginated. */
  datatype WithdrawalPage = WithdrawalPage(total: nat, page: int, pages: nat, items: seq<Withdrawal>)

  /** A page of `all`: the total, the page count `(total + size - 1) // size`, and the
      rows from offset `(page - 1) * size` on, at most `size` of them. */
  function PageOf(all: seq<Withdrawal>, page: int, size: int): (r: WithdrawalPage)
    requires page >= 1 && size >= 1
    ensures r.total == |all| && r.page == page
    ensures r.pages * size >= r.total && (r.total > 0 ==> (r.pages - 1) * size < r.total)
    ensures |r.items| <= size
    ensures |r.items| > 0 ==> 0 <= Offset(page, size) && Offset(page, size) + |r.items| <= |all|
    ensures Offset(page, size) < |all| ==> |r.items| == Min(size, |all| - Offset(page, size))
    ensures forall k :: 0 <= k < |r.items| ==> r.items[k] == all[Offset(page, size) + k]
  {
    CeilPagesBounds(|all|, size);
    MulMonotone(0, page - 1, size);
    var offset: nat := Offset(page, size);
    WithdrawalPage(|all|, page, CeilPages(|all|, size), Window(all, offset, size))
  }

  /** The four get_*_paginated methods: the count query and the ordered window of the
      list query. The endpoints let only page >= 1 and 1 <= size <= 100 through. */
  function Paginate(ws: seq<Withdrawal>, p: Withdrawal -> bool, page: int, size: int): (r: WithdrawalPage)
    requires page >= 1 && size >= 1
    ensures r.total == ActiveCount(ws, p)
    ensures r.pages * size >= r.total && (r.total > 0 ==> (r.pages - 1) * size < r.total)
    ensures |r.items| <= size
    ensures |r.items| > 0 ==> 0 <= Offset(page, size) && Offset(page, size) + |r.items| <= |ActiveSorted(ws, p)|
    ensures Offset(page, size) < |ActiveSorted(ws, p)| ==> |r.items| == Min(size, |ActiveSorted(ws, p)| - Offset(page, size))
    ensures forall k :: 0 <= k < |r.items| ==> r.items[k] == ActiveSorted(ws, p)[Offset(page, size) + k]
    ensures forall k :: 0 <= k < |r.items| ==> r.items[k] in ws && r.items[k].active && p(r.items[k])
    ensures SortedDesc(r.items, RequestTime)
  {
    CountIsListLength(ws, p);
    var all := ActiveSorted(ws, p);
    var r := PageOf(all, page, size);
    SortedWindow(all, r.items, Offset(page, size), RequestTime);
    r
  }

  /** Every row of a list is on the page its rank implies, within the page count. */
  lemma PageHoldsRow(all: seq<Withdrawal>, size: int, k: nat)
    requires size >= 1 && k < |all|
    ensures var page := PageOfRank(k, size);
      && page <= PageOf(all, page, size).pages
      && all[k] in PageOf(all, page, size).items
  {
    var page := PageOfRank(k, size);
    RowIsOnItsPage(all, size, k);
    var off: nat := Offset(page, size);
    var r := PageOf(all, page, size);
    assert r.pages == CeilPages(|all|, size);
    assert r.items == Window(all, off, size);
    assert r.items[k % size] == all[k];
  }

  /** Every withdrawal a listing selects is shown on exactly the page its rank implies, and
      that page is within the page count. */
  lemma EveryRowHasAPage(ws: seq<Withdrawal>, p: Withdrawal -> bool, size: int, k: nat)
    requires size >= 1 && k < |ActiveSorted(ws, p)|
    ensures var page := PageOfRank(k, size);
      && page <= Paginate(ws, p, page, size).pages
      && ActiveSorted(ws, p)[k] in Paginate(ws, p, page, size).items
  {
    var page := PageOfRank(k, size);
    PageHoldsRow(ActiveSorted(ws, p), size, k);
    PaginateIsPageOf(ws, p, page, size);
  }

  /** The listing pages through its query's rows. */
  lemma PaginateIsPageOf(ws: seq<Withdrawal>, p: Withdrawal -> bool, page: int, size: int)
    requires page >= 1 && size >= 1
    ensures Paginate(ws, p, page, size) == PageOf(ActiveSorted(ws, p), page, size)
  {
  }

  /** get_all_retiradas as written: the 404 for an empty table is raised inside the block
      that turns every exception into a 500. */
  function AllWithdrawalsAsWritten(db: Db): (r: Result<seq<Withdrawal>, Reason>)
    ensures r.Err? <==> ActiveSorted(db.withdrawals, Any) == []
    ensures r.Err? ==> r.error == UnhandledError
  {
    var all := ActiveSorted(db.withdrawals, Any);
    if all == [] then Err(UnhandledError) else Ok(all)
  }

  /** get_all_retiradas with the 404 reaching the caller. */
  function AllWithdrawals(db: Db): (r: Result<seq<Withdrawal>, Reason>)
    ensures r.Err? <==> forall k :: 0 <= k < |db.withdrawals| ==> !db.withdrawals[k].active
    ensures r.Err? ==> r.error == NoWithdrawals
    ensures r.Ok? ==> (forall k :: 0 <= k < |r.value| ==> r.value[k] in db.withdrawals && r.value[k].active)
  {
    var all := ActiveSorted(db.withdrawals, Any);
    if all == [] then Err(NoWithdrawals) else Ok(all)
  }

  /** The same empty table gives a 500 as written and a 404 once corrected. */
  lemma EmptyTableIsServerError(db: Db)
    requires forall k :: 0 <= k < |db.withdrawals| ==> !db.withdrawals[k].active
    ensures AllWithdrawalsAsWritten(db) == Err(UnhandledError)
    ensures AllWithdrawals(db) == Err(NoWithdrawals)
    ensures StatusCode(AllWithdrawalsAsWritten(db).error) == 500 && StatusCode(AllWithdrawals(db).error) == 404
  {
    assert AllWithdrawals(db).Err?;
  }

  /** get_retirada_by_id. */
  function WithdrawalById(db: Db, id: int): (r: Result<Withdrawal, Reason>)
    ensures r.Err? <==> forall k :: 0 <= k < |db.withdrawals| ==> !(db.withdrawals[k].id == id && db.withdrawals[k].active)
    ensures r.Err? ==> r.error == WithdrawalNotFound
    ensures r.Ok? ==> r.value.id == id && r.value.active && r.value in db.withdrawals
  {
    match FindActive(db.withdrawals, id)
    case None => Err(WithdrawalNotFound)
    case Some(k) => Ok(db.withdrawals[k])
  }
}

=== FILE: wrappers.dfy ===
/** Failure-compatible Option and Result types shared by every module. */
module Wrappers {

  /** A value that may be absent: SQL NULL, a missing dictionary key, Python's None. */
  datatype Option<+T> = None | Some(value: T) {

    predicate IsFailure() {
      None?
    }

    function PropagateFailure<U>(): Option<U>
      requires None?
    {
      None
    }

    function Extract(): T
      requires Some?
    {
      value
    }

    function GetOr(default: T): T {
      match this
      case Some(v) => v
      case None => default
    }
  }

  /** The outcome of an operation that may raise: a value, or the error it raised. */
  datatype Result<+T, +E> = Ok(value: T) | Err(error: E) {

    predicate IsFailure() {
      Err?
    }

    function PropagateFailure<U>(): Result<U, E>
      requires Err?
    {
      Err(error)
    }

    function Extract(): T
      requires Ok?
    {
      value
    }
  }

  /** Python truthiness of an optional integer: None and 0 are both false. */
  predicate TruthyInt(x: Option<int>) {
    x.Some? && x.value != 0
  }

  /** Python truthiness of an optional string: None and "" are both false. */
  predicate TruthyStr(x: Option<string>) {
    x.Some? && x.value != ""
  }
}
